=== FILE: README.md ===
# CryptoAion AI: a Dafny model of its decision logic

CryptoAion AI is a crypto and stock dashboard. It has a React client and a small Python backend. The client does four things:

- It lists markets: search, gainers and losers, sorting, pagination, and a paywall that leaves only Bitcoin open.
- It forecasts a chosen coin on one of four timeframes ("30m", "1h", "4h", "24h"). It charts backend actuals and predictions, or synthetic data when the backend series is unusable. A heuristic forecaster scores the outlook. The backend's predicted price is clamped to a band per timeframe and turned into a BUY or SELL recommendation.
- It keeps authentication and prediction state in Redux slices that mirror tokens into `localStorage`.
- It has an admin dashboard, a sign-in/sign-up form, a hidden admin entrance in the footer, a mock portfolio page and a prediction-history chart.

The backend validates timeframes and normalises ticker symbols. It downloads price history with retries and exponential back-off. It steps the next prediction timestamp and cuts the history into fixed-length training windows.

## How the model is built

There is one Dafny module per source component. A few shared modules sit alongside them: `Wrappers` (Option/Result), `Text` (ASCII case folding, substring, decimal rendering), `Sorting` (a stable comparison sort over numeric and text keys), `Lists` (filter), `Numbers` (powers of two) and `Timeframe`.

Every operation is a pure function, or a method where the source loops.

- **Floating point.** Floating-point numbers are `real`. NaN has no `real`: where the source would produce NaN, the model uses `Option` and says so.
- **Square roots.** They are avoided. A standard deviation enters as a parameter `sd` with `sd * sd == variance`, and the flatness test compares squares.
- **Rounding.** `Math.round(x)` is `floor(x + 0.5)`.
- **Truthiness.** JavaScript truthiness of a string is `Text.Truthy`, where the empty string is falsy.
- **Storage.** `localStorage` is a `map<string, string>` carried in the state.
- **Outside inputs.** Clocks, `Math.random()` draws, network answers and the backend's download outcomes are parameters.
  - Random draws are reals in [0, 1).
  - A network answer is a `Reply` or `Attempt` value.
  - Time is in milliseconds.

Where the code's own messages and comments promise more than its behaviour delivers, the model follows the behaviour:

- On three 429 answers in a row, the client's retry helper returns nothing instead of surfacing a rate-limit failure (see Findings).
- A forecast window of one price has no trend consistency. The source computes 0/0 there, and the model makes the confidence absent.
- The "flat series" test is the code's variance-or-range-or-length test, not a stddev-only rule.

## Model

| member | source | states |
|---|---|---|
| Market.RequestSort | src/pages/Coins/Coins.jsx:645-651 | the new sort is on the clicked column, and it is descending exactly when that column was already sorted ascending |
| Market.RequestSortAlternates | src/pages/Coins/Coins.jsx:645-651 | clicking the same column again always reverses the direction, and a third click gives back the second click's order |
| Market.CurrentMarketData | src/pages/Coins/Coins.jsx:666-675 | "tech-stocks" shows the tech list, "oil-gas-stocks" the oil and gas list, and every other market name the crypto list |
| Market.SearchFilter | src/pages/Coins/Coins.jsx:687-693 | an empty search keeps every row; otherwise a row is kept exactly when its lower-cased name or symbol contains the lower-cased term; the kept rows keep their order (a subsequence of the list) and their multiplicity |
| Market.CategoryFilter | src/pages/Coins/Coins.jsx:696-700 | "gainers" keeps exactly the rising rows, "losers" exactly the falling ones, and any other category keeps the list unchanged |
| Market.SortedAndFiltered | src/pages/Coins/Coins.jsx:678-716 | the result holds each selected row exactly as often as the market does, and no other row; it is sorted by the configured column in the configured direction |
| Market.NoFilterKeepsEveryRow | src/pages/Coins/Coins.jsx:678-716 | with no search and the "all" category the result is a permutation of the market |
| Sorting.SortBy | src/pages/Coins/Coins.jsx:703-713 | the sorted list is a permutation of its input, ordered by the key in the requested direction |
| Sorting.SortByIsStable | src/pages/Coins/Coins.jsx:703-713 | the sort is stable: the rows sharing any one key come out in the order they went in, as `Array.prototype.sort` requires |
| Market.CurrentItems | src/pages/Coins/Coins.jsx:720-722 | page p shows rows (p-1)·20 up to p·20 of the list, at most 20 of them |
| Market.TotalPages | src/pages/Coins/Coins.jsx:723 | the page count is the ceiling of n/20 |
| Market.EveryRowHasAPage | src/pages/Coins/Coins.jsx:720-723 | row k appears on page k/20+1 at position k mod 20, and that page exists |
| Market.PagesPastTheEndAreEmpty | src/pages/Coins/Coins.jsx:720-723 | a page beyond the page count shows no rows |
| Market.PageNumbers | src/pages/Coins/Coins.jsx:999-1005 | the strip holds, in increasing order, exactly page 1, the last page and the pages next to the current one, within 1..totalPages |
| Market.PageStripIsShort | src/pages/Coins/Coins.jsx:999-1005 | the page-number strip never holds more than five numbers |
| Market.StripOnPageFiveOfTen | src/pages/Coins/Coins.jsx:999-1005 | on page 5 of 10 the strip holds 1, 4, 5, 6 and 10 |
| Market.RenderedStripAsWritten | src/pages/Coins/Coins.jsx:1006-1036 | as written, each strip number renders as one item, either its own button or "..." |
| Market.RenderedStrip | src/pages/Coins/Coins.jsx:1006-1036 | corrected, the rendering holds a button for every strip number and fewer "..." markers than numbers |
| Market.LastPageHiddenAsWritten | src/pages/Coins/Coins.jsx:1006-1026 | as written, page 5 of 10 renders 4 and 10 as "...", so neither the last page nor the page before the current one has a button |
| Market.RenderedStripShowsEveryPage | src/pages/Coins/Coins.jsx:1006-1036 | corrected, reading the buttons of the rendered strip back gives exactly the strip, in order: every shown page is clickable |
| Market.LastPageShown | src/pages/Coins/Coins.jsx:1006-1036 | corrected, page 5 of 10 offers buttons for the last page and for page 4 |
| Market.OnlyBitcoinIsFree | src/pages/Coins/Coins.jsx:729-741 | without admin or subscription a row is accessible exactly when its symbol lower-cases to "btc" |
| Market.ParseIntPrefix | src/pages/Coins/Coins.jsx:569 | parsing gives no number exactly when the text does not start with a digit |
| Market.CacheFreshForFiveMinutes | src/pages/Coins/Coins.jsx:566-569 | cached market data stamped at time t is used exactly while now < t + 5 minutes |
| Market.InitialView | src/pages/Coins/Coins.jsx:505-526 | the page opens on the saved market (else "crypto"), subscribed exactly when storage says "true", admin exactly when an admin token key is present, sorted by market cap descending on page 1 |
| Timeframe.Parse | src/pages/Predict/Predict.jsx:2280-2288 | a string is classified as a timeframe only when it is that timeframe's label |
| Timeframe.ParseLabel | src/pages/Predict/Predict.jsx:2280-2288 | each label parses back to its own timeframe, so the four labels are distinct |
| PriceSeries.IntervalCodeMatchesStep | src/pages/Predict/Predict.jsx:1354-1367 | for each of the four timeframes the requested history interval has exactly the spacing the chart gives actuals; for an unknown timeframe it does not |
| PriceSeries.StartTime | src/pages/Predict/Predict.jsx:1370-1384 | the history starts before now, by the timeframe's lookback (2 h, 24 h, 7 days, 30 days, else 24 h) |
| PriceSeries.LookbackIsWholeSteps | src/pages/Predict/Predict.jsx:1370-1384 | the lookback is a whole number of actual steps, so stepping from the start time reaches now exactly |
| PriceSeries.HorizonMillis | src/pages/Predict/Predict.jsx:2280-2288 | the forecast horizon is positive, and an unknown timeframe falls back to one hour |
| PriceSeries.ProcessTimeframeData | src/pages/Predict/Predict.jsx:1468-1543 | the series has one point per actual and per prediction; actual i sits at start + i·step and is not a prediction; prediction j sits j+1 steps after the last actual, or after the start time when there is no actual or the last actual's time is the falsy 0 |
| PriceSeries.ProcessedSeriesIsOrdered | src/pages/Predict/Predict.jsx:1474-1531 | timestamps strictly increase exactly unless the falsy-0 anchor sends the predictions back to the start time behind two or more actuals; predictions follow the last actual (or the start time when there is none) one step apart |
| PriceSeries.DegenerateMatchesStddevTest | src/pages/Predict/Predict.jsx:370-381 | comparing the variance with the squared threshold rejects a series exactly when the source's stddev, range or length test does |
| PriceSeries.ConstantSeriesIsDegenerate | src/pages/Predict/Predict.jsx:370-381 | a constant series is always rejected in favour of synthetic data |
| PriceSeries.ActualsEffect | src/pages/Predict/Predict.jsx:367-443 | nothing happens for no actuals; synthetic data exactly for a degenerate series; otherwise one chart point per actual at its price, plus a prediction point when the predicted price is truthy |
| PriceSeries.ActualsChartTiming | src/pages/Predict/Predict.jsx:384-438 | the accepted chart is strictly increasing in time; its last actual is one step before now, and the prediction point sits at now |
| PriceSeries.GenerateRealisticData | src/pages/Predict/Predict.jsx:1572-1640 | points+1 samples evenly spaced up to now, strictly increasing in time; the last price is the base price and every earlier price is at least 0.01 |
| Trading.Recommend | src/pages/Predict/Predict.jsx:2115-2139 | BUY exactly when the predicted price is above the current one; confidence lies in [50, 100], is 100 exactly when the move is at least 25 %, and is 50 + 2·|move| otherwise |
| Trading.ConfidenceGrowsWithMove | src/pages/Predict/Predict.jsx:2115-2139 | a larger predicted move, in either direction, never lowers the confidence |
| Trading.MaxChange | src/pages/Predict/Predict.jsx:2208-2216 | every band lies strictly between 0 and 1, and an unknown timeframe gets 4 % |
| Trading.AdjustPrediction | src/pages/Predict/Predict.jsx:2208-2223 | the adjusted price lies within the timeframe's band around the current price; it keeps the direction of the move, is unchanged inside the band and sits on the band's edge outside it |
| Trading.AdjustIdempotent | src/pages/Predict/Predict.jsx:2208-2223 | adjusting an adjusted price changes nothing |
| Trading.AdjustedRecommendationAgrees | src/pages/Predict/Predict.jsx:2208-2223 | the recommendation for the adjusted price has the raw prediction's action and a move within the band |
| Trading.HandlePrediction | src/pages/Predict/Predict.jsx:2204-2225 | a result exists exactly when the predicted price is truthy, and it is the adjusted price with its recommendation |
| Forecast.Window | src/pages/Predict/Predict.jsx:2295 | the window is the last 20 prices, or all of them when fewer |
| Forecast.Changes | src/pages/Predict/Predict.jsx:2296-2300 | one relative change per consecutive pair of prices |
| Forecast.TrendOf | src/pages/Predict/Predict.jsx:2325-2327 | bullish exactly when the last price is above the first |
| Forecast.ConfidenceScore | src/pages/Predict/Predict.jsx:2346-2365 | the confidence lies in [60, 95] and equals the floored raw score whenever that is already in range |
| Forecast.RiskScore | src/pages/Predict/Predict.jsx:2407 | the risk lies in [1, 10] and equals the rounded raw score whenever that is in range |
| Forecast.IncreaseProbability | src/pages/Predict/Predict.jsx:2410-2413 | the probability lies in [1, 99] and equals the rounded raw value whenever that is in range |
| Forecast.SentimentScore | src/pages/Predict/Predict.jsx:2401-2404 | the sentiment lies in [0, 100] and equals the raw value whenever that is in range |
| Forecast.Support | src/pages/Predict/Predict.jsx:2382-2385 | support is never above the lowest price, and equals it exactly when the spread is zero |
| Forecast.Resistance | src/pages/Predict/Predict.jsx:2382-2386 | resistance is never below the highest price, and equals it exactly when the spread is zero |
| Forecast.Consistency | src/pages/Predict/Predict.jsx:2346-2349 | the trend consistency is absent exactly when there are no changes (the source's 0/0) |
| Forecast.GeneratePrediction | src/pages/Predict/Predict.jsx:2291-2413 | no outlook for an empty chart; otherwise the trend follows the window's ends, confidence is absent exactly for a single price and else in [60, 95], risk is in [1, 10], probability in [1, 99], sentiment in [0, 100], and support and resistance bracket the window |
| Forecast.FlatChartOutlook | src/pages/Predict/Predict.jsx:2291-2413 | a flat chart gives the resting outlook: bearish, confidence 60, risk 1, probability 50, sentiment 50, and predicted price, support and resistance all equal to the price |
| Forecast.ScoresAtRest | src/pages/Predict/Predict.jsx:2346-2413 | with no change, momentum or spread every score takes its resting value |
| Forecast.RisingWindowIsBullish | src/pages/Predict/Predict.jsx:2295-2349 | a strictly rising chart is bullish, every change agrees with the trend, and the mean change is positive |
| ChartView.ZoomIn | src/pages/Predict/Predict.jsx:101-103 | zooming in gives the smaller of 1.2 times the scale and 3 (no more than either, equal to one), and leaves the offsets alone |
| ChartView.ZoomOut | src/pages/Predict/Predict.jsx:105-107 | zooming out gives the larger of the scale over 1.2 and 0.5 (no less than either, equal to one), and leaves the offsets alone |
| ChartView.Reset | src/pages/Predict/Predict.jsx:109-113 | a reset returns to scale 1, which is in range, with zero offsets |
| ChartView.ScaleStaysInRange | src/pages/Predict/Predict.jsx:101-113 | from an in-range scale, no sequence of zoom and reset presses leaves [0.5, 3] |
| ChartView.ZoomOutUndoesZoomIn | src/pages/Predict/Predict.jsx:101-107 | zooming out undoes a zoom in that did not hit the ceiling |
| ChartView.ZoomInUndoesZoomOut | src/pages/Predict/Predict.jsx:101-107 | zooming in undoes a zoom out that did not hit the floor |
| CoinStats.RawSentiment | src/pages/Predict/Predict.jsx:789-793 | the raw split is bullish 30..99, bearish 0..39, neutral 0..29 |
| CoinStats.Normalise | src/pages/Predict/Predict.jsx:795-799 | the normalised split adds up to 100 with no negative part; bullish and bearish are their floored percentages of the total, and neutral gets at least its share |
| CoinStats.ShownSentimentIsAPercentageSplit | src/pages/Predict/Predict.jsx:789-799 | the sentiment shown adds up to 100, with bullish between 30 and 100 |
| CoinStats.ChangeAdjustment | src/pages/Predict/Predict.jsx:972-977 | the 24-hour change moves the chance by at most 20 points, upwards exactly when the change is positive |
| CoinStats.VwapAdjustment | src/pages/Predict/Predict.jsx:979-987 | the price against the volume-weighted average moves the chance by at most 10 points: down above it, up at or below it, not at all without an average |
| CoinStats.RankForProbability | src/pages/Predict/Predict.jsx:990 | a missing rank or rank 0 counts as 100; any other rank counts as itself |
| CoinStats.RankAdjustment | src/pages/Predict/Predict.jsx:991-995 | the rank adds between 0 and 5 points |
| CoinStats.ProbabilityIncrease | src/pages/Predict/Predict.jsx:964-998 | the chance of a rise lies in [1, 99] |
| CoinStats.ProbabilityNeverNeedsTheClamp | src/pages/Predict/Predict.jsx:964-998 | the raw chance always lies in [20, 85], so the shown chance is the rounded raw value and the clamp never applies |
| CoinStats.RisingCoinIsLikelierToRise | src/pages/Predict/Predict.jsx:964-998 | a rising coin with no average and a rank beyond 50 has a chance of at least 50 |
| CoinStats.MarketCapRank | src/pages/Predict/Predict.jsx:1003 | the shown rank is the parsed rank, or 0 when it is missing |
| CoinStats.MissingRankShownAndWeighedDifferently | src/pages/Predict/Predict.jsx:990 | a missing rank is shown as 0 but weighed as 100 |
| CoinStats.Volatility | src/pages/Predict/Predict.jsx:1013 | the volatility is the size of a non-zero change; for no change it is a draw below 5 |
| AuthSlice.StoreOrRemove | src/RTK/Slices/AuthSlice.js:198-202 | after the write, the key reads back the value when truthy and nothing otherwise; every other key is unchanged |
| AuthSlice.PickToken | src/RTK/Slices/AuthSlice.js:61-64 | a token exists exactly when access_token or token is truthy; it is access_token when that is truthy, else token |
| AuthSlice.TokenRequest | src/RTK/Slices/AuthSlice.js:48-140 | it succeeds exactly on an answer in 200..499 that carries a token; then it stores the token under the key and returns the caller's name. A tokenless answer rejects with the no-token detail, an error status rejects with the server body, and no answer rejects with the no-response detail; storage is unchanged on failure |
| AuthSlice.LoginRequest | src/RTK/Slices/AuthSlice.js:48-91 | a successful login stores its non-empty token under "token" and nothing else; a failed one leaves storage alone |
| AuthSlice.AdminLoginRequest | src/RTK/Slices/AuthSlice.js:93-140 | a successful admin login stores its non-empty token under "adminToken" and nothing else; a failed one leaves storage alone |
| AuthSlice.RegisterRequest | src/RTK/Slices/AuthSlice.js:142-186 | registration succeeds exactly on an answer in 200..499. It passes on the name, the message (default "Registration successful") and the token, and stores a truthy token under "token" |
| AuthSlice.RegisterRequestAsWritten | src/RTK/Slices/AuthSlice.js:163-167 | the fulfilled value carries no user name; otherwise it succeeds and stores as the corrected request does |
| AuthSlice.RecordLogin | src/RTK/Slices/AuthSlice.js:260-284 | after a login the user is listed; a new name is appended as a fresh entry, and a known name keeps the list's length with only its first entry's last-login time changed |
| AuthSlice.RecordRegistration | src/RTK/Slices/AuthSlice.js:324-341 | after a registration the user is listed; a new name is appended and a known one changes nothing |
| AuthSlice.LoginTwiceAddsOnce | src/RTK/Slices/AuthSlice.js:260-284 | logging the same user in twice adds at most one entry |
| AuthSlice.InitialState | src/RTK/Slices/AuthSlice.js:36-46 | the slice starts from the stored token and name, admin exactly when the stored admin token is truthy, with no spinner and no toast |
| AuthSlice.ReduceSetter | src/RTK/Slices/AuthSlice.js:192-241 | setAdminToken sets the token, makes the flag its truthiness and mirrors it into storage; setUsername mirrors the name; clearToken clears token and name and removes only the stored token; clearAdminToken clears the admin token, the flag and its stored copy; no setter touches the user list |
| AuthSlice.ClearedAll | src/RTK/Slices/AuthSlice.js:234-241 | logging out of everything leaves no token, admin token or name, clears the flag, and removes both stored tokens and nothing else |
| AuthSlice.LoggedIn | src/RTK/Slices/AuthSlice.js:249-285 | a fulfilled login puts the token and name into the state and storage, lists the user, leaves the admin token alone and shows a success toast |
| AuthSlice.AdminLoggedIn | src/RTK/Slices/AuthSlice.js:296-305 | a fulfilled admin login sets the flag, puts the admin token into the state and storage, and shows a success toast |
| AuthSlice.Registered | src/RTK/Slices/AuthSlice.js:317-342 | a fulfilled registration lists the name, adding an entry only for a new name, and leaves tokens, flag and storage unchanged |
| AuthSlice.ReduceRequest | src/RTK/Slices/AuthSlice.js:245-359 | a pending request shows the spinner and hides the toast; a settled one hides the spinner and shows the toast; a rejected one shows an error toast and leaves tokens and storage unchanged. The rejected toasts are the corrected ones (see Findings), not the text as written |
| AuthSlice.Reduce | src/RTK/Slices/AuthSlice.js:188-361 | only request actions and setLoading move the spinner; pending and settled actions set the spinner and toast as above, with the corrected rejected toasts |
| AuthSlice.InitialStateIsAdminConsistent | src/RTK/Slices/AuthSlice.js:36-46 | the initial admin flag, admin token and stored copy agree |
| AuthSlice.ReducePreservesAdminConsistent | src/RTK/Slices/AuthSlice.js:188-361 | every action the requests can produce keeps the admin flag, the admin token and its stored copy in agreement |
| AuthSlice.LoginRoundTrip | src/RTK/Slices/AuthSlice.js:48-91 | after a fulfilled login is reduced, the state's token is the one the answer carried, storage holds it, and the name is the caller's |
| AuthSlice.FailureToast | src/RTK/Slices/AuthSlice.js:286-312 | a failed login toast shows the rejection's detail, or the fallback when there is none |
| AuthSlice.FailureToastAsWritten | src/RTK/Slices/AuthSlice.js:286-291 | as written, the toast shows the rejection's `response.data.detail` when truthy, else the fallback |
| AuthSlice.RegisterFailureToast | src/RTK/Slices/AuthSlice.js:343-359 | a failed registration toast shows the detail, else a truthy message, else a string rejection, else the default text |
| AuthSlice.RegisterFailureToastAsWritten | src/RTK/Slices/AuthSlice.js:343-359 | as written, the precedence starts from `response.data.detail` |
| AuthSlice.RegisteredUserIsNotListedAsWritten | src/RTK/Slices/AuthSlice.js:163-167 | as written, registering "alice" lists no "alice", and registering "bob" afterwards adds nothing |
| AuthSlice.RegisteredUserIsListed | src/RTK/Slices/AuthSlice.js:317-342 | with the name passed on, every fulfilled registration lists the user, adding an entry exactly when the name was new |
| AuthSlice.LoginFailureHidesReasonAsWritten | src/RTK/Slices/AuthSlice.js:286-291 | as written, every failed login shows the generic text, whatever the reason |
| AuthSlice.LoginFailureShowsReason | src/RTK/Slices/AuthSlice.js:73-91 | reading the rejection's own detail, a failed login shows the server's reason, the no-token text or the no-response text |
| AuthSlice.RegisterFailureToastCompared | src/RTK/Slices/AuthSlice.js:179-182 | with no answer, the written registration toast is the default text while the corrected one is the no-response text |
| PredictSlice.RetryFrom | src/RTK/Slices/PredictSlice.js:25-37 | attempts stop at the first success, whose data is returned. A non-429 failure on the final attempt is rethrown. When the final attempt is a 429 the helper returns nothing, unless the corrected rethrow is chosen. Every earlier request failed |
| PredictSlice.NextStart | src/RTK/Slices/PredictSlice.js:13-22 | a request starts no earlier than now and no earlier than one second after the previous request |
| PredictSlice.Backoff | src/RTK/Slices/PredictSlice.js:29-35 | the wait after attempt i is delay·2^i for a 429 and the fixed delay otherwise |
| PredictSlice.RateLimitWaitsGrow | src/RTK/Slices/PredictSlice.js:29-35 | each further 429 doubles the wait: j attempts later it is 2^j times as long, and never shorter |
| PredictSlice.RetryStartsAreSpaced | src/RTK/Slices/PredictSlice.js:12-37 | successive requests start at least one second apart, and the last request time is the last start |
| PredictSlice.RequestsAreThrottled | src/RTK/Slices/PredictSlice.js:12-37 | within one helper call with three retries, the first request starts at least one second after the recorded previous one, and any two requests are at least one second per intervening request apart |
| PredictSlice.RequestFor | src/RTK/Slices/PredictSlice.js:43-48 | the symbol is sent upper-cased (ASCII letters only, see Text.ToUpper under Left out), and the timeframe defaults to "24h" |
| PredictSlice.ErrorMessage | src/RTK/Slices/PredictSlice.js:53 | the rejection carries the answer's truthy message, else the fallback |
| PredictSlice.FetchLastPredictions | src/RTK/Slices/PredictSlice.js:41-56 | it succeeds exactly when the helper returns data, and then with that data; a helper returning nothing gives the fetch-failed message |
| PredictSlice.PredictResult | src/RTK/Slices/PredictSlice.js:69-75 | a thrown 429 rejects with the rate-limit text, and that text only comes from a 429 or a server message equal to it; no data gives the predict-failed text |
| PredictSlice.PredictNextPriceAsWritten | src/RTK/Slices/PredictSlice.js:59-77 | as written, the request succeeds exactly when the helper returns data, with a non-empty message otherwise |
| PredictSlice.PredictNextPrice | src/RTK/Slices/PredictSlice.js:59-77 | with the final 429 rethrown, a failed prediction whose last attempt was rate-limited rejects with the rate-limit text |
| PredictSlice.RateLimitGivesGenericMessageAsWritten | src/RTK/Slices/PredictSlice.js:25-37 | as written, three 429 answers make the helper return nothing and the request reject with the generic text |
| PredictSlice.RateLimitMessageUnreachableAsWritten | src/RTK/Slices/PredictSlice.js:71-73 | as written, the rate-limit text only appears when the server itself sends it |
| PredictSlice.RateLimitIsReported | src/RTK/Slices/PredictSlice.js:71-73 | corrected, three 429 answers reject with the rate-limit text |
| PredictSlice.Reduce | src/RTK/Slices/PredictSlice.js:91-128 | pending clears the error and sets loading. A fulfilled fetch sets both lists (empty when absent). A fulfilled prediction sets the price and replaces only the lists it carries. A rejected request keeps the data and sets a non-empty error. clearError clears only the error |
| PredictSlice.PredictRoundTrip | src/RTK/Slices/PredictSlice.js:59-128 | after a prediction request settles, loading is off, and the store shows either the returned price or the request's error with the old price |
| PredictionSlice.Initial | src/redux/slices/predictionSlice.js:4-9 | the history starts empty, with no current prediction, no spinner and no error |
| PredictionSlice.Reduce | src/redux/slices/predictionSlice.js:14-55 | pending sets loading and clears the error. A fulfilled fetch stores the list (empty when absent). A fulfilled prediction with data prepends it and makes it current. A rejected request keeps the list and sets the error. clearPrediction clears only the current prediction and the error |
| PredictionSlice.HistoryIsNewestFirst | src/redux/slices/predictionSlice.js:44-50 | after a run of successful predictions the list holds them newest first ahead of the old list, and the last one is current |
| PredictionDashboard.FormatChartData | src/components/PredictionDashboard.jsx:36-45 | no rows when either field is missing; otherwise one row per actual, named "Point i+1", with its actual, the prediction at the same position when there is one, and hourly timestamps |
| PredictionDashboard.RowNamesAreDistinct | src/components/PredictionDashboard.jsx:40 | no two rows share a name |
| PredictionDashboard.RowsAreHourly | src/components/PredictionDashboard.jsx:39-44 | rows are one hour apart, oldest first, and the newest is an hour before now |
| PredictionDashboard.HistoryChartIsEmpty | src/components/PredictionDashboard.jsx:19-45 | read through the history slice, which stores a list, the chart is always empty |
| Admin.LoadedUsers | src/pages/Admin/AdminDashboard.jsx:34-72 | without an admin token or an answer the list is empty; otherwise it is the backend's list |
| Admin.FilteredUsers | src/pages/Admin/AdminDashboard.jsx:99-102 | exactly the users with a name that contains the term, ignoring case, in list order (a subsequence) and each as often as in the list |
| Admin.EmptySearchShowsNamedUsers | src/pages/Admin/AdminDashboard.jsx:99-102 | an empty search shows every user with a name, and only those |
| Admin.SearchByNameFindsUser | src/pages/Admin/AdminDashboard.jsx:99-102 | searching for a user's name in upper case finds that user (case folding of ASCII letters only) |
| Admin.FilteredTrades | src/pages/Admin/AdminDashboard.jsx:105-110 | exactly the trades whose asset, type or status contains the term, ignoring case, in list order and each as often as in the list |
| Admin.UserTrades | src/pages/Admin/AdminDashboard.jsx:113-115 | exactly the trades of that user, in list order and each as often as in the list |
| Admin.TradeListedUnderItsOwnerOnly | src/pages/Admin/AdminDashboard.jsx:113-115 | every trade is listed under its owner and under no other user |
| Admin.ToggledStatus | src/pages/Admin/AdminDashboard.jsx:311 | the button makes an active user suspended and any other user active |
| Admin.ToggleTwiceRestores | src/pages/Admin/AdminDashboard.jsx:311 | pressing the button twice restores an active or suspended user |
| Admin.ChangeUserStatus | src/pages/Admin/AdminDashboard.jsx:124-148 | only users with the id take the new status; the length, the order and every other row are unchanged, and the toast names the status |
| Admin.ChangeStatusBack | src/pages/Admin/AdminDashboard.jsx:124-148 | changing a status and changing it back restores the list |
| Admin.DeleteUser | src/pages/Admin/AdminDashboard.jsx:151-199 | nothing happens without a token or confirmation; a failed answer gives the failure toast; a successful one removes exactly the users with the id, keeps the rest in order and toasts "User with ID <id> has been deleted successfully" |
| Admin.DeleteKeepsOtherRows | src/pages/Admin/AdminDashboard.jsx:175-183 | a successful delete keeps every other row as often as before and drops every row with the id |
| Admin.Logout | src/pages/Admin/AdminDashboard.jsx:90-96 | logging out clears the admin token from the state and storage, keeps the user token and name, and shows the logout toast |
| Admin.LogoutLeavesConsistentState | src/pages/Admin/AdminDashboard.jsx:22-31 | after logging out the store stays consistent, and the dashboard sends the visitor to the admin login |
| Signup.Validate | src/pages/Signup/Signup.jsx:112-125 | a missing field gives the fill-in message; in sign-up mode a mismatch comes before the length check; the form passes exactly when both fields are filled and, in sign-up mode, the passwords match and are at least 6 UTF-16 code units long, JavaScript's `length` |
| Text.Utf16Length | src/pages/Signup/Signup.jsx:122 | a string's JavaScript length lies between its character count and twice that, and equals the count exactly when no character lies outside the Basic Multilingual Plane |
| Signup.EmojiCountTwiceTowardsLength | src/pages/Signup/Signup.jsx:122 | a three-emoji password is six code units long and passes the sign-up check |
| Signup.SignInOnlyNeedsBothFields | src/pages/Signup/Signup.jsx:112-125 | signing in only needs both fields |
| Signup.DirectRequest | src/pages/Signup/Signup.jsx:61-104 | the direct request succeeds exactly on a 2xx answer; an error answer with a detail fails with that detail |
| Signup.ErrorText | src/pages/Signup/Signup.jsx:232-243 | the shown error is the answer's detail, else the error's message, else the offline notice or the generic text, and it is never empty |
| Signup.ThrownMessageIsShown | src/pages/Signup/Signup.jsx:232-243 | a message the flow throws reaches the user unchanged |
| Signup.LoginSuccess | src/pages/Signup/Signup.jsx:192-209 | sign-in succeeds exactly when access_token or token is truthy, storing the picked token; otherwise it fails with the no-token message |
| Signup.Submit | src/pages/Signup/Signup.jsx:107-189 | an invalid form is reported with storage unchanged; sign-in stores the token it reports; a fulfilled store login signs in |
| Signup.LoginFallsBackToDirectRequest | src/pages/Signup/Signup.jsx:130-155 | when the store's login rejects, the direct request decides: a 2xx answer with a token signs in, an error answer with a detail shows that detail |
| Signup.RefusedSignUpShowsSuccess | src/pages/Signup/Signup.jsx:158-169 | a sign-up the server refuses with a 400 still reports success, because the store's request treats it as fulfilled |
| Signup.ToggleAuthMode | src/pages/Signup/Signup.jsx:254-262 | switching mode flips it and clears the form and the error |
| Signup.ToggleTwice | src/pages/Signup/Signup.jsx:254-262 | switching twice returns to the same mode with the form cleared |
| Signup.AfterRegistration | src/pages/Signup/Signup.jsx:220-228 | three seconds after a registration the form is back in sign-in mode and empty |
| Footer.Settle | src/pages/Footer/Footer.jsx:26-34 | once the due timers fire, the hide timers left are the latest ones and none is due, no inactivity reset is due, the count has not grown, a shown link was already shown, and with nothing due nothing changes |
| Footer.Click | src/pages/Footer/Footer.jsx:37-57 | a click more than a second after the last one, with a count, restarts at one, and otherwise adds one. It records the time. From a count of four or more it shows the link and sets a hide timer for five seconds later |
| Footer.GoToAdminLogin | src/pages/Footer/Footer.jsx:60-66 | following the link hides it and clears the count |
| Footer.QuickClickAddsOne | src/pages/Footer/Footer.jsx:41-47 | a click within a second of the last one adds one |
| Footer.FiveQuickClicksRevealTheLink | src/pages/Footer/Footer.jsx:37-57 | five quick clicks from rest reveal the link, with one hide timer; four do not |
| Footer.SlowClicksNeverReveal | src/pages/Footer/Footer.jsx:41-45 | clicks more than a second apart keep the count at one and never reveal the link |
| Footer.RevealedLinkHidesAfterFiveSeconds | src/pages/Footer/Footer.jsx:50-56 | the revealed link is still shown just before five seconds and hidden, with a zero count, at five seconds |
| Footer.ShownUntilHideTimer | src/pages/Footer/Footer.jsx:26-34 | while the link is shown nothing changes before its hide timer is due |
| Footer.HideTimerHides | src/pages/Footer/Footer.jsx:50-56 | once the only hide timer is due the link is hidden and the count is zero |
| Portfolio.DaysFor | src/pages/Portfolio/Portfolio.jsx:34-57 | 1D covers 1 day, 1M 30, 3M 90, 1Y 365, ALL 730, and any other label 7 |
| Portfolio.Step | src/pages/Portfolio/Portfolio.jsx:67 | one step of the walk lies in [-225, 275) |
| Portfolio.WalkedBounds | src/pages/Portfolio/Portfolio.jsx:62-74 | after n steps the walk has moved between -225·n and 275·n |
| Portfolio.MockChart | src/pages/Portfolio/Portfolio.jsx:32-77 | the chart has days+1 points, from days ago down to today, each the start value plus the walk so far, with consecutive points a step apart |
| Portfolio.Allocation | src/pages/Portfolio/Portfolio.jsx:322 | a share exists exactly when the total is positive, and lies in [0, 100] for a holding within the total |
| Portfolio.SharesAddUpToWhole | src/pages/Portfolio/Portfolio.jsx:322 | the holdings' shares of a positive total add up to the whole |
| Portfolio.WeightedChange | src/pages/Portfolio/Portfolio.jsx:88 | the weighted change is absent exactly when there are holdings and the total is zero (the source's NaN) |
| Portfolio.WeightedChangeIsAnAverage | src/pages/Portfolio/Portfolio.jsx:87-88 | with non-negative values and a positive total, the weighted change lies between the smallest and largest change |
| Portfolio.MockPortfolioHasNoChange | src/pages/Portfolio/Portfolio.jsx:23-91 | the mock holdings total zero, so the weighted change is absent and every legend share shows "0" |
| Portfolio.TopPerformers | src/pages/Portfolio/Portfolio.jsx:331-334 | there are min(3, n) top performers, all drawn from the holdings |
| Portfolio.TopPerformersDescend | src/pages/Portfolio/Portfolio.jsx:331-334 | the top performers are listed largest change first |
| Portfolio.TopPerformersAreTheBest | src/pages/Portfolio/Portfolio.jsx:331-334 | no holding left out has a larger change than any top performer |
| Portfolio.TiedTopPerformersKeepListOrder | src/pages/Portfolio/Portfolio.jsx:331-334 | when every holding has the same change (the mock holdings all have 0) the top performers are the first three holdings in list order |
| Backend.ValidTimeframeIsClientLabel | Crypto-main/controllers/prediction.py:23-33 | the backend accepts exactly the four labels the client uses |
| Backend.NormaliseSymbol | Crypto-main/controllers/prediction.py:36-37 | the ticker always ends in "-USD"; a symbol already ending so is kept, and any other gets the suffix |
| Backend.NormaliseSymbolIdempotent | Crypto-main/controllers/prediction.py:36-37 | normalising twice is normalising once |
| Backend.TableError | Crypto-main/controllers/prediction.py:100-107 | a downloaded table passes exactly when its columns are present and, for "30m", it has at least 48 rows |
| Backend.Download | Crypto-main/controllers/prediction.py:42-126 | data comes back exactly when some attempt returns, and it is one of those attempts' data. Every failure is HTTP 500. The k-th sleep is the delay doubled k times |
| Backend.GetLatestData | Crypto-main/controllers/prediction.py:30-126 | an unknown timeframe is refused before any download; otherwise there is data exactly when some attempt returns. At most two sleeps are taken, of 2·2^k seconds |
| Backend.FirstReturningAttemptWins | Crypto-main/controllers/prediction.py:42-121 | the data is the first returning attempt's |
| Backend.ThreeFailuresSleepTwiceThenFail | Crypto-main/controllers/prediction.py:42-121 | three raising attempts sleep 2 s and then 4 s, then fail with HTTP 500 naming the last exception |
| Backend.ThreeEmptyTablesFailWithoutSleeping | Crypto-main/controllers/prediction.py:56-126 | three empty tables take no sleep and fail with HTTP 500 after the loop |
| Backend.ShortThirtyMinuteTableIsRetried | Crypto-main/controllers/prediction.py:106-107 | a "30m" table of fewer than 48 rows is retried after a sleep |
| Backend.TimeframeDelta | Crypto-main/controllers/prediction.py:176-184 | the step is 30 minutes, 1 hour, 4 hours or 1 day for the four labels, and none for any other |
| Backend.NextTimestamp | Crypto-main/controllers/prediction.py:176-184 | the next timestamp is the last one plus the timeframe's step, for exactly the valid timeframes |
| Backend.NextTimestampMatchesClientHorizon | Crypto-main/controllers/prediction.py:176-184 | the backend's step equals the client's forecast horizon for every timeframe |
| Backend.WindowsAsWritten | Crypto-main/controllers/prediction.py:208-212 | as written, there are max(0, n-61) samples, sample i being rows i..i+59 and the close of row i+60 |
| Backend.Windows | Crypto-main/controllers/prediction.py:208-212 | corrected, there are max(0, n-60) samples of the same shape |
| Backend.EveryLaterRowIsATarget | Crypto-main/controllers/prediction.py:208-212 | every row after the first 60 is the target of the sample that ends just before it |
| Backend.LastRowNeverATargetAsWritten | Crypto-main/controllers/prediction.py:209 | with 61 rows the written loop builds no sample, though one complete window exists |
| Backend.WindowsAsWrittenDropTheLast | Crypto-main/controllers/prediction.py:209 | the written samples are the complete ones without the last |
| Backend.EffectiveTimeframe | Crypto-main/controllers/prediction.py:131-132 | a valid timeframe is kept and any other is replaced by the default |
| Backend.PredictNextPrice | Crypto-main/controllers/prediction.py:128-174 | a prediction comes back exactly when the model's own download yields data, the model builds, the latest download yields data and holds at least 60 rows; otherwise the answer is the first failing stage's text ("status: detail" for a failed download, scikit-learn's "0 sample(s)" message for a table with no rows, the reshape message for a non-empty table shorter than 60 rows); a prediction is stamped one step after the last data point |
| Backend.UnknownTimeframeUsesDefault | Crypto-main/controllers/prediction.py:131-138 | with a valid default, neither download of an unknown timeframe is refused as invalid, and a prediction carries the default timeframe |
| Backend.FailedModelDownloadIsTheAnswer | Crypto-main/controllers/prediction.py:135 | a failed download inside the model loading ends the request with that failure's "status: detail" text |
| Backend.FailedDownloadShowsStatus | Crypto-main/controllers/prediction.py:173-174 | three raising attempts answer "500: Failed to fetch data for SYMBOL-USD after 3 attempts: <last exception>" |
| Backend.ShortTableIsAnError | Crypto-main/controllers/prediction.py:144 | a latest table of between 1 and 59 rows answers numpy's reshape error instead of a prediction |
| Backend.EmptyTableFailsInTheScaler | Crypto-main/controllers/prediction.py:141 | a latest table with no rows answers the scaler's "Found array with 0 sample(s)" error, not the reshape error |

## Left out

- Canvas drawing, animation, notifications, JSX rendering and every marketing or layout component: these are presentation only.
- Network and fetch plumbing (timeouts, the rate-limit queue, the CoinCap, CoinGecko and Binance fetchers, the Coins fetch retry, the axios 308 interceptor): their outcomes enter as parameters (`Reply`, `Attempt`, an optional answer).
- Date, locale and number formatting (`toLocaleTimeString`, `toFixed`, ISO dates) and the recommendation's reasoning text: these depend on the host's formatting. Chart points carry milliseconds, and the portfolio chart carries days before today.
- NaN and Infinity: prices are `real`. The forecaster and the recommendation require positive prices, and the source's NaN results (0/0 consistency, the weighted change of an empty portfolio) are `None`.
- Square roots: standard deviations enter as a parameter whose square is the variance.
- Market.ParseIntPrefix: models `parseInt` on digits-then-anything only; leading whitespace and signs are not modelled, because the cached timestamps are written as plain digits.
- CoinStats.Normalise: uses exact integer floors, whereas the source floors the floating-point `(b / total) * 100`. This can differ by one when the float rounds just below an integer.
- `processCoinGeckoData`, `processApiData`, `generateCoinDetails` beyond the sentiment split, `generateExtendedHistoricalData`, the 4h fallback data, and the coin statistics' supply, volume rank and market share: random filler with no shape to state.
- The PyTorch model, its training, the MinMaxScaler, the yfinance download and the pandas indicators. The row count after processing and the presence of the indicator columns are inputs of an attempt. The 30m short-period refetch is folded into the attempt's outcome.
- Backend.TableError: reports a missing-columns failure without reproducing its message text.
- Backend.PredictNextPrice: takes the configured default timeframe as a parameter; the settings module is not part of this model. Failures of the model loading other than its download (scaling, training) enter as an optional error text. The text for a table with no rows is scikit-learn's wording for `MinMaxScaler`, which the library may change between versions.
- AuthSlice.ReduceRequest: the rejected branches use the corrected toasts (`FailureToast`, `RegisterFailureToast`), so a rejected login shows the rejection's own detail where the code as written shows the generic text; the as-written toasts are modelled separately (see Findings).
- AuthSlice.Reduce: built on the corrected `ReduceRequest`, with the same difference in the rejected toasts.
- Text.ToLower: folds ASCII letters only, whereas JavaScript's `toLowerCase` (the market search, the paywall symbol test and the admin searches) folds all of Unicode.
- Text.ToUpper: upper-cases ASCII letters only, whereas JavaScript's `toUpperCase` maps all of Unicode and can lengthen a string ("ß" becomes "SS"); PredictSlice.RequestFor's same-length clause and Admin.SearchByNameFindsUser are therefore promised for ASCII names only.
- PredictSlice.RequestsAreThrottled: holds within one call of the helper only. The last-request time is one module-level variable shared by every prediction thunk, and the dashboard and the Predict page start several thunks at once, whose requests interleave; concurrent calls are not modelled.
- Admin.ChangeUserStatus: does not model writing the updated list to `localStorage` under "allUsers" (AdminDashboard.jsx:132), the key the registered-user list of `AuthSlice` lives under.
- Portfolio.TopPerformers: returns a new list, whereas the source sorts the holdings array in place, so the holdings table (Portfolio.jsx:377) is drawn in descending-change order as well.
- Market.RenderedStripAsWritten: the model keeps only which item each strip number becomes; the page a button switches to and its highlighting are not modelled.
- The FastAPI routes, `api-test.js`, `AuthProvider.jsx`, `store.js`, `config.js` (its retry constants appear as the model's constants), `src/redux/actions/prediction.js` and the `AdminLogin.jsx` submit: thin wrappers around the modelled logic.
- `src/RTK/Slices/AuthSlice.jsx`: three plain setters that only assign.
- AuthSlice.AuthState: omits the `error` field, which no reducer writes.
- The stale-closure behaviour of React state updates (the footer reads the count from the render it was clicked in): every click is modelled as seeing the settled state at its time.

## Findings

| source | as written | input that shows it | evidently intended | confidence | as-written member | corrected member |
|---|---|---|---|---|---|---|
| src/RTK/Slices/AuthSlice.js:163-167, 324-341 | the Register thunk's fulfilled value has no `username`, yet the fulfilled reducer keys the user list on `payload.username` | register "alice" into an empty list with a 201 answer: no entry is named "alice", and a later "bob" adds nothing | the registered name is recorded in the user list | high (not executed) | AuthSlice.RegisterRequestAsWritten, AuthSlice.RegisteredUserIsNotListedAsWritten | AuthSlice.RegisterRequest, AuthSlice.RegisteredUserIsListed |
| src/RTK/Slices/AuthSlice.js:81-89, 286-291, 306-312, 343-359 | the rejected reducers read `payload.response.data.detail`, but the thunks reject with the server body or a `{detail}` object | a login answered 503 with detail "Service unavailable" toasts the generic failure text | the toast shows the rejection's own `detail` | high (not executed) | AuthSlice.FailureToastAsWritten, AuthSlice.LoginFailureHidesReasonAsWritten | AuthSlice.FailureToast, AuthSlice.LoginFailureShowsReason |
| src/RTK/Slices/PredictSlice.js:25-37, 71-73 | a 429 on the final attempt continues the loop, so the helper returns `undefined` and the 429 branch of the thunk is unreachable | three 429 answers: the request rejects with "Failed to predict next price" | exhausting the retries on 429 surfaces the rate-limit message | high (not executed) | PredictSlice.PredictNextPriceAsWritten, PredictSlice.RateLimitGivesGenericMessageAsWritten | PredictSlice.PredictNextPrice, PredictSlice.RateLimitIsReported |
| Crypto-main/controllers/prediction.py:209-212 | `range(len(data) - LOOKBACK - 1)` stops one start position early | 61 rows give no training sample although rows 0..59 and target row 60 form one | every complete window becomes a sample, `range(len(data) - LOOKBACK)` | medium (not executed) | Backend.WindowsAsWritten, Backend.LastRowNeverATargetAsWritten | Backend.Windows, Backend.EveryLaterRowIsATarget |
| src/pages/Coins/Coins.jsx:1006-1026 | a strip number whose predecessor on the strip is more than one lower is rendered as "..." in place of its button | page 5 of 10: the strip 1, 4, 5, 6, 10 renders as 1, ..., 5, 6, ...; the last page and page 4 cannot be clicked | the "..." goes in front of the number, which keeps its button | medium (not executed) | Market.RenderedStripAsWritten, Market.LastPageHiddenAsWritten | Market.RenderedStrip, Market.RenderedStripShowsEveryPage |

=== FILE: admin.dfy ===
/** The admin dashboard: the user list loaded from the backend, the search over users
    and trades, suspending and re-activating a user, deleting one, and logging out. The
    backend's answers and the confirmation dialog are parameters. */
module Admin {
  import opened Wrappers
  import Text
  import Lists
  import AuthSlice

  type User = AuthSlice.UserRecord

  /** A trade row: who made it, and the three texts the search looks at. */
  datatype Trade = Trade(id: int, userId: int, kind: string, asset: string, amount: real, price: real, timestamp: string, status: string)

  /** The dashboard sends a visitor without an admin token to the admin login. */
  predicate MustLogIn(adminToken: Option<string>) {
    !Text.Truthy(adminToken)
  }

  /** The user list after loading: the backend's list when there is a token and the
      answer is a success (`Some`), and an empty list otherwise. */
  function LoadedUsers(adminToken: Option<string>, answer: Option<seq<User>>): (users: seq<User>)
    ensures MustLogIn(adminToken) || answer.None? ==> users == []
    ensures !MustLogIn(adminToken) && answer.Some? ==> users == answer.value
  {
    if MustLogIn(adminToken) then [] else answer.GetOr([])
  }

  /** Case-insensitive substring test. */
  predicate Mentions(text: string, term: string) {
    Text.Contains(Text.ToLower(text), Text.ToLower(term))
  }

  /** A user row matches when it has a non-empty name that mentions the search term. */
  predicate UserMatches(term: string, u: User) {
    Text.Truthy(u.username) && Mentions(u.username.value, term)
  }

  predicate TradeMatches(term: string, t: Trade) {
    Mentions(t.asset, term) || Mentions(t.kind, term) || Mentions(t.status, term)
  }

  /** The users shown for a search term, in list order. */
  function FilteredUsers(users: seq<User>, term: string): (r: seq<User>)
    ensures forall u :: u in r <==> u in users && UserMatches(term, u)
    ensures forall u :: multiset(r)[u] == if UserMatches(term, u) then multiset(users)[u] else 0
    ensures Lists.Subsequence(r, users)
  {
    Lists.Filter((u: User) => UserMatches(term, u), users)
  }

  /** An empty search shows every user that has a name, and only those. */
  lemma EmptySearchShowsNamedUsers(users: seq<User>)
    ensures forall u :: u in FilteredUsers(users, "") <==> u in users && Text.Truthy(u.username)
  {
    forall u: User | u in users && Text.Truthy(u.username)
      ensures UserMatches("", u)
    {
      Text.ContainsEmpty(Text.ToLower(u.username.value));
    }
  }

  /** Searching for a user's whole name, in any letter case, finds that user. */
  lemma SearchByNameFindsUser(users: seq<User>, u: User)
    requires u in users && Text.Truthy(u.username)
    ensures u in FilteredUsers(users, Text.ToUpper(u.username.value))
  {
    var name := u.username.value;
    LowerOfUpper(name);
    Text.ContainsSelf(Text.ToLower(name));
  }

  lemma LowerOfUpper(s: string)
    ensures Text.ToLower(Text.ToUpper(s)) == Text.ToLower(s)
  {
  }

  /** The trades shown for a search term: those whose asset, type or status mentions it,
      in list order. */
  function FilteredTrades(trades: seq<Trade>, term: string): (r: seq<Trade>)
    ensures forall t :: t in r <==> t in trades && TradeMatches(term, t)
    ensures forall t :: multiset(r)[t] == if TradeMatches(term, t) then multiset(trades)[t] else 0
    ensures Lists.Subsequence(r, trades)
  {
    Lists.Filter((t: Trade) => TradeMatches(term, t), trades)
  }

  /** The trades of one user, in list order. */
  function UserTrades(trades: seq<Trade>, userId: int): (r: seq<Trade>)
    ensures forall t :: t in r <==> t in trades && t.userId == userId
    ensures forall t :: multiset(r)[t] == if t.userId == userId then multiset(trades)[t] else 0
    ensures Lists.Subsequence(r, trades)
  {
    Lists.Filter((t: Trade) => t.userId == userId, trades)
  }

  /** Every trade belongs to exactly one user's list: for each trade the lists of the
      other users leave it out. */
  lemma TradeListedUnderItsOwnerOnly(trades: seq<Trade>, t: Trade, other: int)
    requires t in trades && other != t.userId
    ensures t in UserTrades(trades, t.userId)
    ensures t !in UserTrades(trades, other)
  {
  }

  /** The status the row's button switches to: a suspended (or any non-active) user is
      activated, an active one suspended. */
  function ToggledStatus(status: string): (s: string)
    ensures s == "active" <==> status != "active"
    ensures s == "suspended" || s == "active"
  {
    if status == "active" then "suspended" else "active"
  }

  /** Pressing the button twice brings a user who was active or suspended back. */
  lemma ToggleTwiceRestores(status: string)
    requires status == "active" || status == "suspended"
    ensures ToggledStatus(ToggledStatus(status)) == status
  {
  }

  /** Changing a user's status: every row with that id takes the new status, nothing
      else changes, and the toast names the new status. */
  function ChangeUserStatus(users: seq<User>, userId: int, newStatus: string): (r: (seq<User>, string))
    ensures |r.0| == |users|
    ensures forall k :: 0 <= k < |users| ==>
      (users[k].id == userId ==> r.0[k] == users[k].(status := newStatus))
      && (users[k].id != userId ==> r.0[k] == users[k])
    ensures r.1 == "User status updated to " + newStatus
  {
    (seq(|users|, k requires 0 <= k < |users| =>
       if users[k].id == userId then users[k].(status := newStatus) else users[k]),
     "User status updated to " + newStatus)
  }

  /** Changing a status and changing it back restores the list, when every row with that
      id had the old status. */
  lemma ChangeStatusBack(users: seq<User>, userId: int, oldStatus: string, newStatus: string)
    requires forall k :: 0 <= k < |users| && users[k].id == userId ==> users[k].status == oldStatus
    ensures ChangeUserStatus(ChangeUserStatus(users, userId, newStatus).0, userId, oldStatus).0 == users
  {
    var back := ChangeUserStatus(ChangeUserStatus(users, userId, newStatus).0, userId, oldStatus).0;
    assert forall k :: 0 <= k < |users| ==> back[k] == users[k];
  }

  /** How a delete ends: nothing happens (no token, or the admin cancels), the row is
      removed, or the server refuses. The toast message goes with the last two. */
  datatype DeleteOutcome = NothingDone | Deleted(users: seq<User>, toast: string) | DeleteFailed(toast: string)

  function DeleteUser(users: seq<User>, userId: int, adminToken: Option<string>, confirmed: bool, answerOk: bool)
    : (r: DeleteOutcome)
    ensures r.NothingDone? <==> MustLogIn(adminToken) || !confirmed
    ensures r.DeleteFailed? <==> !MustLogIn(adminToken) && confirmed && !answerOk
    ensures r.DeleteFailed? ==> r.toast == "Failed to delete user"
    ensures r.Deleted? ==>
      (forall u :: u in r.users <==> u in users && u.id != userId)
      && Lists.Subsequence(r.users, users)
    ensures r.Deleted? ==> r.toast == "User with ID " + IntToString(userId) + " has been deleted successfully"
  {
    if MustLogIn(adminToken) || !confirmed then NothingDone
    else if !answerOk then DeleteFailed("Failed to delete user")
    else Deleted(Lists.Filter((u: User) => u.id != userId, users),
                 "User with ID " + IntToString(userId) + " has been deleted successfully")
  }

  /** A successful delete removes exactly the rows with that id: every other row keeps
      its multiplicity (and, by `DeleteUser`, its relative order). */
  lemma DeleteKeepsOtherRows(users: seq<User>, userId: int, adminToken: Option<string>, u: User)
    requires DeleteUser(users, userId, adminToken, true, true).Deleted?
    ensures var r := DeleteUser(users, userId, adminToken, true, true).users;
      multiset(r)[u] == if u.id == userId then 0 else multiset(users)[u]
  {
    var r := DeleteUser(users, userId, adminToken, true, true).users;
    assert r == Lists.Filter((v: User) => v.id != userId, users);
  }

  /** `${n}` for an integer, with a minus sign when negative. */
  function IntToString(n: int): (s: string)
    ensures 1 <= |s|
    ensures 0 <= n ==> s == Text.NatToString(n)
    ensures n < 0 ==> s[0] == '-'
  {
    if n < 0 then "-" + Text.NatToString(-n) else Text.NatToString(n)
  }

  /** Logging out: the admin token is cleared from the store and from storage, and a
      success toast says so. */
  function Logout(s: AuthSlice.AuthState): (r: AuthSlice.AuthState)
    ensures !r.isAdmin && r.adminToken.None? && AuthSlice.GetItem(r.storage, "adminToken").None?
    ensures r.token == s.token && r.username == s.username
    ensures r.toastMessage == "Admin logged out successfully" && r.toastStatus == "success" && r.showToast
  {
    var s1 := AuthSlice.Reduce(s, AuthSlice.ClearAdminToken);
    var s2 := AuthSlice.Reduce(s1, AuthSlice.SetToastMessage("Admin logged out successfully"));
    var s3 := AuthSlice.Reduce(s2, AuthSlice.SetToastStatus("success"));
    AuthSlice.Reduce(s3, AuthSlice.SetShowToast(true))
  }

  /** After logging out the store is still consistent, and the dashboard now sends the
      visitor to the admin login. */
  lemma LogoutLeavesConsistentState(s: AuthSlice.AuthState)
    requires AuthSlice.AdminConsistent(s)
    ensures AuthSlice.AdminConsistent(Logout(s))
    ensures MustLogIn(Logout(s).adminToken)
  {
  }
}

=== FILE: auth_slice.dfy ===
/** The authentication slice of the Redux store: the login, admin-login and register
    requests, and the reducer that records their outcome, the tokens and the toast shown
    to the user. Browser storage is the map `storage` (the `localStorage` keys "token",
    "adminToken", "username"); the user list kept under "allUsers" is the parsed list
    `allUsers`. The server's answer and the clock are parameters. */
module AuthSlice {
  import opened Wrappers
  import opened Text

  /** `localStorage.getItem(key)`: the stored string, or null. */
  function GetItem(storage: map<string, string>, key: string): (r: Option<string>)
    ensures r.Some? <==> key in storage
    ensures r.Some? ==> r.value == storage[key]
  {
    if key in storage then Some(storage[key]) else None
  }

  /** `setItem` when the value is truthy, `removeItem` otherwise. */
  function StoreOrRemove(storage: map<string, string>, key: string, value: Option<string>): (r: map<string, string>)
    ensures GetItem(r, key) == OrNull(value)
    ensures forall k :: k != key ==> GetItem(r, k) == GetItem(storage, k)
  {
    if Truthy(value) then storage[key := value.value] else storage - {key}
  }

  // ---------------------------------------------------------------------------------
  // Requests

  /** The JSON body of a server answer, as far as the slice reads it. */
  datatype ReplyData = ReplyData(
    accessToken: Option<string>,
    token: Option<string>,
    message: Option<string>,
    detail: Option<string>,
    user: Option<string>)

  /** What a request comes back with: an answer with an HTTP status, no answer at all
      (a network failure), or a failure before any request was made, with its message. */
  datatype Reply = Answered(status: int, data: ReplyData) | NoAnswer | NotSent(message: Option<string>)

  /** The client counts every status from 200 to 499 as a normal answer; only the others
      become request errors. */
  predicate Resolves(status: int) {
    200 <= status < 500
  }

  /** The value a request is rejected with: a JSON object or, in principle, a string.
      `responseDataDetail` is the object's `response.data.detail`, which the rejected
      reducers read. */
  datatype RejectPayload =
    | ObjectPayload(detail: Option<string>, message: Option<string>, responseDataDetail: Option<string>)
    | StringPayload(text: string)

  /** A server body passed on as the rejection value: it carries no `response` key. */
  function DataPayload(data: ReplyData): RejectPayload {
    ObjectPayload(data.detail, data.message, None)
  }

  /** A `{detail}` object built by the request code itself. */
  function DetailPayload(detail: string): RejectPayload {
    ObjectPayload(Some(detail), None, None)
  }

  const NO_TOKEN := "No token received from server"
  const NO_RESPONSE := "No response received from server. Please check your connection."

  /** `access_token || token`: the first truthy one of the two. */
  function PickToken(accessToken: Option<string>, token: Option<string>): (r: Option<string>)
    ensures r.Some? <==> Truthy(accessToken) || Truthy(token)
    ensures r.Some? ==> r.value != ""
    ensures Truthy(accessToken) ==> r == accessToken
    ensures !Truthy(accessToken) ==> r == OrNull(token)
  {
    if Truthy(accessToken) then accessToken else OrNull(token)
  }

  /** What a successful login or admin login hands to the reducer. */
  datatype LoginPayload = LoginPayload(accessToken: string, username: string)

  /** The rejection value for a failed request: the server's body when it answered with
      an error status, a `{detail}` object otherwise. */
  function FailurePayload(reply: Reply, fallback: string): (p: RejectPayload)
    requires !(reply.Answered? && Resolves(reply.status))
  {
    match reply
    case Answered(_, data) => DataPayload(data)
    case NoAnswer => DetailPayload(NO_RESPONSE)
    case NotSent(message) => DetailPayload(if Truthy(message) then message.value else fallback)
  }

  /** The login and admin-login requests, which differ only in the storage key the token
      is saved under and the fallback message. A resolved answer without a truthy token
      fails with "No token received from server". */
  function TokenRequest(username: string, reply: Reply, storage: map<string, string>, key: string, fallback: string)
    : (r: (Result<LoginPayload, RejectPayload>, map<string, string>))
    ensures r.0.Ok? <==> reply.Answered? && Resolves(reply.status) && PickToken(reply.data.accessToken, reply.data.token).Some?
    ensures r.0.Ok? ==>
      (r.0.value.username == username && r.0.value.accessToken != ""
       && Some(r.0.value.accessToken) == PickToken(reply.data.accessToken, reply.data.token)
       && r.1 == storage[key := r.0.value.accessToken])
    ensures r.0.Err? ==> r.1 == storage
    ensures r.0.Err? && reply.Answered? && Resolves(reply.status) ==> r.0.error == DetailPayload(NO_TOKEN)
    ensures r.0.Err? && reply.Answered? && !Resolves(reply.status) ==> r.0.error == DataPayload(reply.data)
    ensures reply.NoAnswer? ==> r.0 == Err(DetailPayload(NO_RESPONSE))
  {
    if reply.Answered? && Resolves(reply.status) then
      match PickToken(reply.data.accessToken, reply.data.token)
      case Some(t) => (Ok(LoginPayload(t, username)), storage[key := t])
      case None => (Err(DetailPayload(NO_TOKEN)), storage)
    else (Err(FailurePayload(reply, fallback)), storage)
  }

  /** `Login`: the token goes to storage under "token". */
  function LoginRequest(username: string, reply: Reply, storage: map<string, string>)
    : (r: (Result<LoginPayload, RejectPayload>, map<string, string>))
    ensures r.0.Ok? ==> GetItem(r.1, "token") == Some(r.0.value.accessToken) && r.0.value.accessToken != ""
    ensures r.0.Ok? ==> forall k :: k != "token" ==> GetItem(r.1, k) == GetItem(storage, k)
    ensures r.0.Err? ==> r.1 == storage
    ensures reply.NotSent? && !Truthy(reply.message) ==> r.0 == Err(DetailPayload("Login failed. Please try again."))
  {
    TokenRequest(username, reply, storage, "token", "Login failed. Please try again.")
  }

  /** `AdminLogin`: the token goes to storage under "adminToken". */
  function AdminLoginRequest(username: string, reply: Reply, storage: map<string, string>)
    : (r: (Result<LoginPayload, RejectPayload>, map<string, string>))
    ensures r.0.Ok? ==> GetItem(r.1, "adminToken") == Some(r.0.value.accessToken) && r.0.value.accessToken != ""
    ensures r.0.Ok? ==> forall k :: k != "adminToken" ==> GetItem(r.1, k) == GetItem(storage, k)
    ensures r.0.Err? ==> r.1 == storage
    ensures reply.NotSent? && !Truthy(reply.message) ==> r.0 == Err(DetailPayload("Admin login failed. Please try again."))
  {
    TokenRequest(username, reply, storage, "adminToken", "Admin login failed. Please try again.")
  }

  /** What a successful registration hands to the reducer. `username` is absent in the
      request as written. */
  datatype RegisterPayload = RegisterPayload(message: string, user: Option<string>, accessToken: Option<string>, username: Option<string>)

  /** `Register` with the registered name passed on to the reducer. Every resolved answer
      fulfils, token or not; a truthy token is saved under "token". */
  function RegisterRequest(username: string, reply: Reply, storage: map<string, string>)
    : (r: (Result<RegisterPayload, RejectPayload>, map<string, string>))
    ensures r.0.Ok? <==> reply.Answered? && Resolves(reply.status)
    ensures r.0.Ok? ==>
      (r.0.value.username == Some(username)
       && r.0.value.message == (if Truthy(reply.data.message) then reply.data.message.value else "Registration successful")
       && r.0.value.accessToken == reply.data.accessToken)
    ensures r.0.Ok? && Truthy(reply.data.accessToken) ==> r.1 == storage["token" := reply.data.accessToken.value]
    ensures !(r.0.Ok? && Truthy(reply.data.accessToken)) ==> r.1 == storage
    ensures r.0.Err? ==> r.0.error == FailurePayload(reply, "Registration failed. Please try again.")
  {
    if reply.Answered? && Resolves(reply.status) then
      var data := reply.data;
      var message := if Truthy(data.message) then data.message.value else "Registration successful";
      var storage' := if Truthy(data.accessToken) then storage["token" := data.accessToken.value] else storage;
      (Ok(RegisterPayload(message, data.user, data.accessToken, Some(username))), storage')
    else (Err(FailurePayload(reply, "Registration failed. Please try again.")), storage)
  }

  /** `Register` as written: the fulfilled value has no `username`. */
  function RegisterRequestAsWritten(username: string, reply: Reply, storage: map<string, string>)
    : (r: (Result<RegisterPayload, RejectPayload>, map<string, string>))
    ensures r.0.Ok? ==> r.0.value.username == None
    ensures r.0.Ok? <==> RegisterRequest(username, reply, storage).0.Ok?
    ensures r.1 == RegisterRequest(username, reply, storage).1
  {
    var (result, storage') := RegisterRequest(username, reply, storage);
    match result
    case Ok(p) => (Ok(p.(username := None)), storage')
    case Err(e) => (Err(e), storage')
  }

  // ---------------------------------------------------------------------------------
  // The user list kept in storage

  datatype UserRecord = UserRecord(id: int, username: Option<string>, lastLogin: string, status: string, trades: int, balance: string)

  /** A fresh entry: the next id, active, no trades, an empty balance. */
  function NewUser(users: seq<UserRecord>, name: Option<string>, now: string): UserRecord {
    UserRecord(|users| + 1, name, now, "active", 0, "0 BTC")
  }

  predicate Listed(users: seq<UserRecord>, name: Option<string>) {
    exists i :: 0 <= i < |users| && users[i].username == name
  }

  /** `findIndex` by user name: the first match, or -1. */
  function FindIndex(users: seq<UserRecord>, name: Option<string>): (i: int)
    ensures -1 <= i < |users|
    ensures i == -1 <==> !Listed(users, name)
    ensures 0 <= i ==> users[i].username == name && forall j :: 0 <= j < i ==> users[j].username != name
    decreases |users|
  {
    if |users| == 0 then -1
    else if users[0].username == name then 0
    else
      var i := FindIndex(users[1..], name);
      assert forall j :: 1 <= j < |users| ==> users[j] == users[1..][j - 1];
      if i == -1 then -1 else i + 1
  }

  /** A successful login: a new name is appended as a fresh entry; a known name only
      has its first entry's last-login time updated. */
  function RecordLogin(users: seq<UserRecord>, name: Option<string>, now: string): (r: seq<UserRecord>)
    ensures Listed(r, name)
    ensures !Listed(users, name) ==> r == users + [NewUser(users, name, now)]
    ensures Listed(users, name) ==> |r| == |users|
    ensures Listed(users, name) ==>
      forall j :: 0 <= j < |users| ==>
        r[j] == if j == FindIndex(users, name) then users[j].(lastLogin := now) else users[j]
  {
    var i := FindIndex(users, name);
    if i == -1 then
      assert (users + [NewUser(users, name, now)])[|users|].username == name;
      users + [NewUser(users, name, now)]
    else
      var r := users[i := users[i].(lastLogin := now)];
      assert r[i].username == name;
      r
  }

  /** A successful registration: a new name is appended; a known one changes nothing. */
  function RecordRegistration(users: seq<UserRecord>, name: Option<string>, now: string): (r: seq<UserRecord>)
    ensures Listed(r, name)
    ensures !Listed(users, name) ==> r == users + [NewUser(users, name, now)]
    ensures Listed(users, name) ==> r == users
  {
    if FindIndex(users, name) == -1 then
      assert (users + [NewUser(users, name, now)])[|users|].username == name;
      users + [NewUser(users, name, now)]
    else users
  }

  /** Logging the same user in twice keeps one entry for them. */
  lemma LoginTwiceAddsOnce(users: seq<UserRecord>, name: Option<string>, t1: string, t2: string)
    ensures |RecordLogin(RecordLogin(users, name, t1), name, t2)| == |RecordLogin(users, name, t1)|
    ensures |RecordLogin(users, name, t1)| <= |users| + 1
  {
  }

  // ---------------------------------------------------------------------------------
  // The slice state and its reducer

  /** The slice state. The `error` field, which no reducer writes, is left out. */
  datatype AuthState = AuthState(
    username: Option<string>,
    token: Option<string>,
    adminToken: Option<string>,
    isAdmin: bool,
    toastStatus: string,
    loading: bool,
    toastMessage: string,
    showToast: bool,
    storage: map<string, string>,
    allUsers: seq<UserRecord>)

  /** The state the page starts from: tokens and name read back from storage. */
  function InitialState(storage: map<string, string>, allUsers: seq<UserRecord>): (s: AuthState)
    ensures s.token == OrNull(GetItem(storage, "token"))
    ensures s.username == OrNull(GetItem(storage, "username"))
    ensures s.isAdmin <==> Truthy(GetItem(storage, "adminToken"))
    ensures !s.loading && !s.showToast && s.toastMessage == "" && s.storage == storage
  {
    var adminToken := OrNull(GetItem(storage, "adminToken"));
    AuthState(OrNull(GetItem(storage, "username")), OrNull(GetItem(storage, "token")), adminToken,
              Truthy(adminToken), "", false, "", false, storage, allUsers)
  }

  datatype AuthAction =
    | SetToken(token: Option<string>)
    | SetAdminToken(token: Option<string>)
    | SetUsername(name: Option<string>)
    | SetToastStatus(status: string)
    | SetToastMessage(message: string)
    | SetLoading(flag: bool)
    | SetShowToast(flag: bool)
    | ClearToken
    | ClearAdminToken
    | ClearAllTokens
    | LoginPending
    | LoginFulfilled(login: LoginPayload, now: string)
    | LoginRejected(payload: RejectPayload)
    | AdminLoginPending
    | AdminLoginFulfilled(login: LoginPayload)
    | AdminLoginRejected(payload: RejectPayload)
    | RegisterPending
    | RegisterFulfilled(registration: RegisterPayload, now: string)
    | RegisterRejected(payload: RejectPayload)

  /** The `detail` of a rejection object, when truthy. */
  function PayloadDetail(p: RejectPayload): Option<string> {
    if p.ObjectPayload? then OrNull(p.detail) else None
  }

  /** The toast after a failed login or admin login: the rejection's detail, or the
      fallback. */
  function FailureToast(p: RejectPayload, fallback: string): (m: string)
    ensures PayloadDetail(p).Some? ==> m == PayloadDetail(p).value
    ensures PayloadDetail(p).None? ==> m == fallback
  {
    PayloadDetail(p).GetOr(fallback)
  }

  /** The toast after a failed login as written: it reads `response.data.detail`, a key
      the rejection values never carry. */
  function FailureToastAsWritten(p: RejectPayload, fallback: string): (m: string)
    ensures p.ObjectPayload? && Truthy(p.responseDataDetail) ==> m == p.responseDataDetail.value
    ensures !(p.ObjectPayload? && Truthy(p.responseDataDetail)) ==> m == fallback
  {
    if p.ObjectPayload? && Truthy(p.responseDataDetail) then p.responseDataDetail.value else fallback
  }

  const REGISTER_FAILED := "Registration failed. Please try again."

  /** The toast after a failed registration: the detail, else a truthy `message`, else a
      string rejection value, else the fallback. */
  function RegisterFailureToast(p: RejectPayload): (m: string)
    ensures PayloadDetail(p).Some? ==> m == PayloadDetail(p).value
    ensures PayloadDetail(p).None? && p.ObjectPayload? && Truthy(p.message) ==> m == p.message.value
    ensures p.StringPayload? ==> m == p.text
    ensures m == REGISTER_FAILED <== p.ObjectPayload? && !Truthy(p.detail) && !Truthy(p.message)
  {
    match p
    case ObjectPayload(detail, message, _) =>
      if Truthy(detail) then detail.value else if Truthy(message) then message.value else REGISTER_FAILED
    case StringPayload(text) => text
  }

  /** The registration toast as written: `response.data.detail` first. */
  function RegisterFailureToastAsWritten(p: RejectPayload): (m: string)
    ensures p.ObjectPayload? && Truthy(p.responseDataDetail) ==> m == p.responseDataDetail.value
    ensures p.ObjectPayload? && !Truthy(p.responseDataDetail) && Truthy(p.message) ==> m == p.message.value
    ensures p.ObjectPayload? && !Truthy(p.responseDataDetail) && !Truthy(p.message) ==> m == REGISTER_FAILED
    ensures p.StringPayload? ==> m == p.text
  {
    match p
    case ObjectPayload(_, message, responseDataDetail) =>
      if Truthy(responseDataDetail) then responseDataDetail.value
      else if Truthy(message) then message.value else REGISTER_FAILED
    case StringPayload(text) => text
  }

  /** A request that has started: the spinner is on and any toast is hidden. */
  function Started(s: AuthState): (r: AuthState)
    ensures r.loading && !r.showToast
    ensures r.(loading := s.loading, showToast := s.showToast) == s
  {
    s.(loading := true, showToast := false)
  }

  /** A request that has finished: the spinner is off and a toast is shown. */
  function Settled(s: AuthState, status: string, message: string): (r: AuthState)
    ensures !r.loading && r.showToast && r.toastStatus == status && r.toastMessage == message
    ensures r.(loading := s.loading, showToast := s.showToast, toastStatus := s.toastStatus, toastMessage := s.toastMessage) == s
  {
    s.(loading := false, showToast := true, toastStatus := status, toastMessage := message)
  }

  /** A fulfilled login: the token and the name go to the state and to storage, and
      the user list records the login. */
  function LoggedIn(s: AuthState, login: LoginPayload, now: string): (r: AuthState)
    ensures r.token == Some(login.accessToken) && GetItem(r.storage, "token") == r.token
    ensures r.username == Some(login.username) && GetItem(r.storage, "username") == r.username
    ensures forall k :: k != "token" && k != "username" ==> GetItem(r.storage, k) == GetItem(s.storage, k)
    ensures Listed(r.allUsers, Some(login.username))
    ensures r.adminToken == s.adminToken && r.isAdmin == s.isAdmin
    ensures !r.loading && r.showToast && r.toastStatus == "success"
  {
    var s' := s.(token := Some(login.accessToken), username := Some(login.username),
                 storage := s.storage["token" := login.accessToken]["username" := login.username],
                 allUsers := RecordLogin(s.allUsers, Some(login.username), now));
    Settled(s', "success", "Login successful!")
  }

  /** A fulfilled admin login: the admin token goes to the state and to storage, the
      admin flag is raised, and the name is taken when it is non-empty. */
  function AdminLoggedIn(s: AuthState, login: LoginPayload): (r: AuthState)
    ensures r.isAdmin && r.adminToken == Some(login.accessToken)
    ensures GetItem(r.storage, "adminToken") == r.adminToken
    ensures forall k :: k != "adminToken" ==> GetItem(r.storage, k) == GetItem(s.storage, k)
    ensures r.username == OrNull(Some(login.username)) && r.token == s.token
    ensures !r.loading && r.showToast && r.toastStatus == "success"
  {
    var s' := s.(adminToken := Some(login.accessToken), isAdmin := true,
                 storage := s.storage["adminToken" := login.accessToken],
                 username := OrNull(Some(login.username)));
    Settled(s', "success", "Admin login successful!")
  }

  /** A fulfilled registration: only the user list and the toast change. */
  function Registered(s: AuthState, registration: RegisterPayload, now: string): (r: AuthState)
    ensures Listed(r.allUsers, registration.username)
    ensures Listed(s.allUsers, registration.username) ==> r.allUsers == s.allUsers
    ensures !Listed(s.allUsers, registration.username) ==> |r.allUsers| == |s.allUsers| + 1
    ensures r.token == s.token && r.adminToken == s.adminToken && r.storage == s.storage && r.isAdmin == s.isAdmin
    ensures !r.loading && r.showToast && r.toastStatus == "success"
  {
    var s' := s.(allUsers := RecordRegistration(s.allUsers, registration.username, now));
    Settled(s', "success", "Registration successful! Please log in.")
  }

  /** Logging out of everything: no token, no admin token, no name, and neither token
      left in storage. */
  function ClearedAll(s: AuthState): (r: AuthState)
    ensures r.token.None? && r.adminToken.None? && r.username.None? && !r.isAdmin
    ensures GetItem(r.storage, "token").None? && GetItem(r.storage, "adminToken").None?
    ensures forall k :: k != "token" && k != "adminToken" ==> GetItem(r.storage, k) == GetItem(s.storage, k)
  {
    s.(token := None, adminToken := None, isAdmin := false, username := None,
       storage := s.storage - {"token", "adminToken"})
  }

  predicate IsPending(a: AuthAction) {
    a.LoginPending? || a.AdminLoginPending? || a.RegisterPending?
  }

  predicate IsSettled(a: AuthAction) {
    a.LoginFulfilled? || a.LoginRejected? || a.AdminLoginFulfilled? || a.AdminLoginRejected?
    || a.RegisterFulfilled? || a.RegisterRejected?
  }

  /** The reducers the components call directly. */
  function ReduceSetter(s: AuthState, a: AuthAction): (r: AuthState)
    requires !IsPending(a) && !IsSettled(a)
    ensures r.loading != s.loading ==> a.SetLoading?
    ensures r.showToast != s.showToast ==> a.SetShowToast?
    ensures r.allUsers == s.allUsers
    ensures a.SetAdminToken? ==>
      r.adminToken == a.token && (r.isAdmin <==> Truthy(a.token))
      && GetItem(r.storage, "adminToken") == OrNull(a.token)
      && (forall k :: k != "adminToken" ==> GetItem(r.storage, k) == GetItem(s.storage, k))
    ensures a.SetUsername? ==>
      r.username == a.name && GetItem(r.storage, "username") == OrNull(a.name)
      && (forall k :: k != "username" ==> GetItem(r.storage, k) == GetItem(s.storage, k))
    ensures a.ClearToken? ==>
      r.token.None? && r.username.None? && GetItem(r.storage, "token").None?
      && r.adminToken == s.adminToken && r.isAdmin == s.isAdmin
      && (forall k :: k != "token" ==> GetItem(r.storage, k) == GetItem(s.storage, k))
    ensures a.ClearAdminToken? ==>
      r.adminToken.None? && !r.isAdmin && GetItem(r.storage, "adminToken").None?
      && r.token == s.token && r.username == s.username
      && (forall k :: k != "adminToken" ==> GetItem(r.storage, k) == GetItem(s.storage, k))
  {
    match a
    case SetToken(t) => s.(token := t)
    case SetAdminToken(t) =>
      s.(adminToken := t, isAdmin := Truthy(t), storage := StoreOrRemove(s.storage, "adminToken", t))
    case SetUsername(n) =>
      s.(username := n, storage := StoreOrRemove(s.storage, "username", n))
    case SetToastStatus(status) => s.(toastStatus := status)
    case SetToastMessage(message) => s.(toastMessage := message)
    case SetLoading(flag) => s.(loading := flag)
    case SetShowToast(flag) => s.(showToast := flag)
    case ClearToken => s.(token := None, username := None, storage := s.storage - {"token"})
    case ClearAdminToken => s.(adminToken := None, isAdmin := false, storage := s.storage - {"adminToken"})
    case ClearAllTokens => ClearedAll(s)
  }

  /** The reducers for the three requests' pending, fulfilled and rejected actions, with
      the rejected toasts reading the rejection's own `detail`. */
  function ReduceRequest(s: AuthState, a: AuthAction): (r: AuthState)
    requires IsPending(a) || IsSettled(a)
    ensures IsPending(a) ==> r.loading && !r.showToast
    ensures IsSettled(a) ==> !r.loading && r.showToast
    ensures a.LoginRejected? || a.AdminLoginRejected? || a.RegisterRejected? ==>
      r.toastStatus == "error" && r.token == s.token && r.adminToken == s.adminToken && r.storage == s.storage
  {
    match a
    case LoginPending => Started(s)
    case LoginFulfilled(login, now) => LoggedIn(s, login, now)
    case LoginRejected(p) => Settled(s, "error", FailureToast(p, "Login failed. Please check your credentials."))
    case AdminLoginPending => Started(s)
    case AdminLoginFulfilled(login) => AdminLoggedIn(s, login)
    case AdminLoginRejected(p) =>
      Settled(s, "error", FailureToast(p, "Admin login failed. Please check your credentials."))
    case RegisterPending => Started(s)
    case RegisterFulfilled(registration, now) => Registered(s, registration, now)
    case RegisterRejected(p) => Settled(s, "error", RegisterFailureToast(p))
  }

  /** The slice reducer (with the registered name available to the fulfilled
      registration case). Only the request actions move the spinner or the toast. */
  function Reduce(s: AuthState, a: AuthAction): (r: AuthState)
    ensures IsPending(a) ==> r.loading && !r.showToast
    ensures IsSettled(a) ==> !r.loading && r.showToast
    ensures r.loading != s.loading ==> IsPending(a) || IsSettled(a) || a.SetLoading?
  {
    if IsPending(a) || IsSettled(a) then ReduceRequest(s, a) else ReduceSetter(s, a)
  }

  /** The admin flag and the stored admin token agree with the admin token in the state. */
  predicate AdminConsistent(s: AuthState) {
    s.isAdmin == Truthy(s.adminToken) && OrNull(GetItem(s.storage, "adminToken")) == OrNull(s.adminToken)
  }

  /** Actions the requests can produce: an admin login only fulfils with a non-empty token. */
  predicate Possible(a: AuthAction) {
    a.AdminLoginFulfilled? ==> a.login.accessToken != ""
  }

  lemma InitialStateIsAdminConsistent(storage: map<string, string>, allUsers: seq<UserRecord>)
    ensures AdminConsistent(InitialState(storage, allUsers))
  {
  }

  /** Every possible action keeps the admin flag, the admin token and its stored copy in
      agreement. */
  lemma ReducePreservesAdminConsistent(s: AuthState, a: AuthAction)
    requires AdminConsistent(s) && Possible(a)
    ensures AdminConsistent(Reduce(s, a))
  {
    if IsPending(a) || IsSettled(a) {
      RequestPreservesAdminConsistent(s, a);
    } else {
      SetterPreservesAdminConsistent(s, a);
    }
  }

  lemma SetterPreservesAdminConsistent(s: AuthState, a: AuthAction)
    requires AdminConsistent(s) && !IsPending(a) && !IsSettled(a)
    ensures AdminConsistent(ReduceSetter(s, a))
  {
    var r := ReduceSetter(s, a);
    match a
    case ClearToken =>
      assert GetItem(r.storage, "adminToken") == GetItem(s.storage, "adminToken");
    case SetUsername(n) =>
      assert GetItem(r.storage, "adminToken") == GetItem(s.storage, "adminToken");
    case _ =>
  }

  lemma RequestPreservesAdminConsistent(s: AuthState, a: AuthAction)
    requires AdminConsistent(s) && Possible(a) && (IsPending(a) || IsSettled(a))
    ensures AdminConsistent(ReduceRequest(s, a))
  {
  }

  /** An admin login that the request fulfils is a possible action. */
  lemma AdminLoginRequestIsPossible(username: string, reply: Reply, storage: map<string, string>)
    requires AdminLoginRequest(username, reply, storage).0.Ok?
    ensures Possible(AdminLoginFulfilled(AdminLoginRequest(username, reply, storage).0.value))
  {
  }

  /** After a login the request fulfils and the reducer records, the state and storage
      both hold the server's token. */
  lemma LoginRoundTrip(s: AuthState, username: string, reply: Reply, now: string)
    requires LoginRequest(username, reply, s.storage).0.Ok?
    ensures var (result, storage') := LoginRequest(username, reply, s.storage);
      var r := Reduce(s.(storage := storage'), LoginFulfilled(result.value, now));
      r.token == PickToken(reply.data.accessToken, reply.data.token)
      && GetItem(r.storage, "token") == r.token
      && r.username == Some(username)
  {
  }

  // ---------------------------------------------------------------------------------
  // Findings

  /** As written, the fulfilled registration records an entry under no name: registering
      "alice" on an empty list lists nobody called "alice", and registering "bob"
      afterwards adds nobody. */
  lemma RegisteredUserIsNotListedAsWritten(s: AuthState, reply: Reply, now: string)
    requires s.allUsers == []
    requires reply == Answered(201, ReplyData(None, None, Some("User created"), None, None))
    ensures var (alice, st1) := RegisterRequestAsWritten("alice", reply, s.storage);
      var s1 := Reduce(s.(storage := st1), RegisterFulfilled(alice.value, now));
      var (bob, st2) := RegisterRequestAsWritten("bob", reply, s1.storage);
      var s2 := Reduce(s1.(storage := st2), RegisterFulfilled(bob.value, now));
      !Listed(s1.allUsers, Some("alice")) && s2.allUsers == s1.allUsers && |s2.allUsers| == 1
  {
    var (alice, st1) := RegisterRequestAsWritten("alice", reply, s.storage);
    var s1 := Reduce(s.(storage := st1), RegisterFulfilled(alice.value, now));
    assert s1.allUsers == [NewUser([], None, now)];
  }

  /** With the name passed on, every registration the request fulfils lists the new
      user, and a name already listed is not added twice. */
  lemma RegisteredUserIsListed(s: AuthState, username: string, reply: Reply, now: string)
    requires RegisterRequest(username, reply, s.storage).0.Ok?
    ensures var (result, storage') := RegisterRequest(username, reply, s.storage);
      var r := Reduce(s.(storage := storage'), RegisterFulfilled(result.value, now));
      Listed(r.allUsers, Some(username))
      && (Listed(s.allUsers, Some(username)) ==> r.allUsers == s.allUsers)
      && (!Listed(s.allUsers, Some(username)) ==> |r.allUsers| == |s.allUsers| + 1)
  {
  }

  /** As written, a failed login never shows the reason the request reports: for every
      rejection the request produces, the toast is the generic one. A 500 answer with
      detail "Invalid credentials" shows the generic toast too. */
  lemma LoginFailureHidesReasonAsWritten(username: string, reply: Reply, storage: map<string, string>)
    requires LoginRequest(username, reply, storage).0.Err?
    ensures FailureToastAsWritten(LoginRequest(username, reply, storage).0.error, "Login failed. Please check your credentials.")
         == "Login failed. Please check your credentials."
  {
  }

  /** Reading the rejection's own `detail`, a failed login shows the server's reason when
      it gives one, and the request's own explanation otherwise. */
  lemma LoginFailureShowsReason(username: string, reply: Reply, storage: map<string, string>)
    requires LoginRequest(username, reply, storage).0.Err?
    ensures var m := FailureToast(LoginRequest(username, reply, storage).0.error, "Login failed. Please check your credentials.");
      (reply.Answered? && !Resolves(reply.status) && Truthy(reply.data.detail) ==> m == reply.data.detail.value)
      && (reply.Answered? && Resolves(reply.status) ==> m == NO_TOKEN)
      && (reply.NoAnswer? ==> m == NO_RESPONSE)
  {
  }

  /** The same for registration: as written, a request-built `{detail}` never reaches
      the toast; reading `detail` it does. */
  lemma RegisterFailureToastCompared(reply: Reply, storage: map<string, string>)
    requires reply.NoAnswer?
    ensures RegisterFailureToastAsWritten(RegisterRequest("u", reply, storage).0.error) == REGISTER_FAILED
    ensures RegisterFailureToast(RegisterRequest("u", reply, storage).0.error) == NO_RESPONSE
  {
  }
}

=== FILE: backend.dfy ===
/** The backend's data helpers for price prediction: timeframe validation, the "-USD"
    symbol suffix, the retried download with its back-off schedule, the timestamp of the
    next prediction, the sliding windows that become training samples, and the timeframe
    fallback of the prediction endpoint. The download, the indicator maths and the
    network model are outside the model: what each download attempt yields is a
    parameter. */
module Backend {
  import opened Wrappers
  import opened Numbers
  import Text
  import opened Timeframe
  import PriceSeries

  const LOOKBACK := 60
  const MAX_RETRIES := 3
  const RETRY_DELAY := 2
  const MIN_30M_ROWS := 48
  const SUFFIX := "-USD"

  /** The timeframes the download table knows. */
  predicate ValidTimeframe(tf: string) {
    tf in {"30m", "1h", "4h", "24h"}
  }

  /** The backend and the client accept the same four labels. */
  lemma ValidTimeframeIsClientLabel(tf: string)
    ensures ValidTimeframe(tf) <==> Parse(tf) != Unrecognised
  {
    ParseRecognisesExactlyTheLabels(tf);
  }

  /** The ticker asked for: the symbol with "-USD" appended unless it already ends so. */
  function NormaliseSymbol(symbol: string): (r: string)
    ensures Text.EndsWith(r, SUFFIX)
    ensures Text.EndsWith(symbol, SUFFIX) ==> r == symbol
    ensures !Text.EndsWith(symbol, SUFFIX) ==> r == symbol + SUFFIX
  {
    if Text.EndsWith(symbol, SUFFIX) then symbol
    else
      assert (symbol + SUFFIX)[|symbol|..] == SUFFIX;
      symbol + SUFFIX
  }

  lemma NormaliseSymbolIdempotent(symbol: string)
    ensures NormaliseSymbol(NormaliseSymbol(symbol)) == NormaliseSymbol(symbol)
  {
  }

  // ---------------------------------------------------------------------------------
  // The retried download

  /** What one attempt of the download block yields: an exception (from the download
      itself or from the re-download for "30m"), an empty table, or a table with its row
      count after resampling, the indicators and dropping incomplete rows, and whether
      the price columns are all there. */
  datatype Attempt = Raised(message: string) | EmptyTable | Table(rows: nat, hasColumns: bool)

  /** How `get_latest_data` ends: with data, with the validation error for an unknown
      timeframe, or with an HTTP error carrying status and detail. */
  datatype DataEnd = Data(rows: nat) | InvalidTimeframe | HttpError(status: nat, detail: string)

  /** The end, and the sleeps taken between attempts, in seconds. */
  datatype DataRun = DataRun(end: DataEnd, sleeps: seq<nat>)

  /** The exception the processing of a non-empty table raises, if any. */
  function TableError(tf: string, rows: nat, hasColumns: bool): (e: Option<string>)
    ensures e.None? <==> hasColumns && (tf != "30m" || MIN_30M_ROWS <= rows)
  {
    if !hasColumns then Some("Missing required columns")
    else if tf == "30m" && rows < MIN_30M_ROWS then
      Some("Insufficient data points for 30m timeframe. Got " + Text.NatToString(rows) + ", need at least 48.")
    else None
  }

  /** An attempt that returns data. */
  predicate Returns(tf: string, a: Attempt) {
    a.Table? && TableError(tf, a.rows, a.hasColumns).None?
  }

  /** An attempt that raises, directly or while processing the table. */
  predicate Fails(tf: string, a: Attempt) {
    a.Raised? || (a.Table? && TableError(tf, a.rows, a.hasColumns).Some?)
  }

  function FailureMessage(tf: string, a: Attempt): string
    requires Fails(tf, a)
  {
    if a.Raised? then a.message else TableError(tf, a.rows, a.hasColumns).value
  }

  function AttemptsText(): string {
    " after " + Text.NatToString(MAX_RETRIES) + " attempts"
  }

  /** Attempts `i` onwards, with `delay` the next sleep. An empty table falls through to
      the next attempt without sleeping; an exception sleeps and doubles the delay, except
      on the last attempt, where it becomes an HTTP 500. */
  function Download(symbol: string, tf: string, attempts: seq<Attempt>, i: nat, delay: nat): (r: DataRun)
    requires |attempts| == MAX_RETRIES && i <= MAX_RETRIES
    ensures r.end != InvalidTimeframe
    ensures r.end.Data? <==> exists k :: i <= k < MAX_RETRIES && Returns(tf, attempts[k])
    ensures r.end.Data? ==> exists k :: i <= k < MAX_RETRIES && Returns(tf, attempts[k]) && r.end.rows == attempts[k].rows
    ensures r.end.HttpError? ==> r.end.status == 500
    ensures |r.sleeps| <= MAX_RETRIES - 1 - i || (i == MAX_RETRIES && r.sleeps == [])
    ensures forall k :: 0 <= k < |r.sleeps| ==> r.sleeps[k] == delay * Pow2(k)
    decreases MAX_RETRIES - i
  {
    if i == MAX_RETRIES then
      DataRun(HttpError(500, "Failed to fetch data for " + symbol + AttemptsText()), [])
    else
      var a := attempts[i];
      if Returns(tf, a) then DataRun(Data(a.rows), [])
      else if a.EmptyTable? then Download(symbol, tf, attempts, i + 1, delay)
      else if i < MAX_RETRIES - 1 then
        var rest := Download(symbol, tf, attempts, i + 1, delay * 2);
        var sleeps := [delay] + rest.sleeps;
        assert forall k :: 1 <= k < |sleeps| ==> sleeps[k] == rest.sleeps[k - 1] == delay * 2 * Pow2(k - 1);
        DataRun(rest.end, sleeps)
      else
        DataRun(HttpError(500, "Failed to fetch data for " + symbol + AttemptsText() + ": " + FailureMessage(tf, a)), [])
  }

  /** `get_latest_data`: an unknown timeframe is refused before any download; otherwise
      the symbol is normalised and up to three attempts are made. */
  function GetLatestData(symbol: string, tf: string, attempts: seq<Attempt>): (r: DataRun)
    requires |attempts| == MAX_RETRIES
    ensures r.end == InvalidTimeframe <==> !ValidTimeframe(tf)
    ensures !ValidTimeframe(tf) ==> r.sleeps == []
    ensures r.end.Data? <==> ValidTimeframe(tf) && exists k :: 0 <= k < MAX_RETRIES && Returns(tf, attempts[k])
    ensures r.end.HttpError? ==> r.end.status == 500
    ensures |r.sleeps| <= MAX_RETRIES - 1
    ensures forall k :: 0 <= k < |r.sleeps| ==> r.sleeps[k] == RETRY_DELAY * Pow2(k)
  {
    if !ValidTimeframe(tf) then DataRun(InvalidTimeframe, [])
    else Download(NormaliseSymbol(symbol), tf, attempts, 0, RETRY_DELAY)
  }

  /** The data returned is the first attempt that returns: every earlier attempt raised or
      came back empty. */
  lemma {:induction false} FirstReturningAttemptWins(symbol: string, tf: string, attempts: seq<Attempt>, i: nat, delay: nat, k: nat)
    requires |attempts| == MAX_RETRIES && i <= k < MAX_RETRIES
    requires Returns(tf, attempts[k])
    requires forall j :: i <= j < k ==> !Returns(tf, attempts[j])
    ensures Download(symbol, tf, attempts, i, delay).end == Data(attempts[k].rows)
    decreases k - i
  {
    if i < k {
      FirstReturningAttemptWins(symbol, tf, attempts, i + 1, if attempts[i].EmptyTable? then delay else delay * 2, k);
    }
  }

  /** Three attempts that all raise: sleeps of 2 s and then 4 s, then an HTTP 500 whose
      detail carries the last exception's message. */
  lemma ThreeFailuresSleepTwiceThenFail(symbol: string, tf: string, m0: string, m1: string, m2: string)
    requires ValidTimeframe(tf)
    ensures var r := GetLatestData(symbol, tf, [Raised(m0), Raised(m1), Raised(m2)]);
      r.sleeps == [2, 4]
      && r.end == HttpError(500, "Failed to fetch data for " + NormaliseSymbol(symbol) + AttemptsText() + ": " + m2)
  {
    var attempts := [Raised(m0), Raised(m1), Raised(m2)];
    var s := NormaliseSymbol(symbol);
    var r2 := Download(s, tf, attempts, 2, 8);
    assert r2.sleeps == [];
    var r1 := Download(s, tf, attempts, 1, 4);
    assert r1.sleeps == [4] + r2.sleeps;
  }

  /** Three empty tables: no sleep at all, then an HTTP 500 without an exception message. */
  lemma ThreeEmptyTablesFailWithoutSleeping(symbol: string, tf: string)
    requires ValidTimeframe(tf)
    ensures var r := GetLatestData(symbol, tf, [EmptyTable, EmptyTable, EmptyTable]);
      r.sleeps == []
      && r.end == HttpError(500, "Failed to fetch data for " + NormaliseSymbol(symbol) + AttemptsText())
  {
  }

  /** For "30m", a table of fewer than 48 rows counts as a failure and is retried. */
  lemma ShortThirtyMinuteTableIsRetried(symbol: string, rows: nat, later: Attempt)
    requires rows < MIN_30M_ROWS && Returns("30m", later)
    ensures var r := GetLatestData(symbol, "30m", [Table(rows, true), later, EmptyTable]);
      r.end == Data(later.rows) && r.sleeps == [RETRY_DELAY]
  {
    var attempts := [Table(rows, true), later, EmptyTable];
    assert !Returns("30m", attempts[0]);
    FirstReturningAttemptWins(NormaliseSymbol(symbol), "30m", attempts, 0, RETRY_DELAY, 1);
  }

  // ---------------------------------------------------------------------------------
  // The next prediction's timestamp

  /** How far the next prediction lies after the last data point, in milliseconds. An
      unknown timeframe has no entry in the table (a lookup error). */
  function TimeframeDelta(tf: string): (d: Option<int>)
    ensures d.Some? <==> ValidTimeframe(tf)
    ensures d.Some? ==> 0 < d.value
    ensures tf == "30m" ==> d == Some(30 * MINUTE_MS)
    ensures tf == "1h" ==> d == Some(HOUR_MS)
    ensures tf == "4h" ==> d == Some(4 * HOUR_MS)
    ensures tf == "24h" ==> d == Some(DAY_MS)
  {
    match tf
    case "30m" => Some(30 * MINUTE_MS)
    case "1h" => Some(HOUR_MS)
    case "4h" => Some(4 * HOUR_MS)
    case "24h" => Some(DAY_MS)
    case _ => None
  }

  function NextTimestamp(last: int, tf: string): (t: Option<int>)
    ensures t.Some? <==> ValidTimeframe(tf)
    ensures t.Some? ==> last < t.value && t.value - last == TimeframeDelta(tf).value
  {
    match TimeframeDelta(tf)
    case Some(d) => Some(last + d)
    case None => None
  }

  /** The backend's step agrees with the client's forecast horizon for every timeframe
      both know. */
  lemma NextTimestampMatchesClientHorizon(last: int, tf: string)
    requires ValidTimeframe(tf)
    ensures NextTimestamp(last, tf) == Some(last + PriceSeries.HorizonMillis(Parse(tf)))
  {
  }

  // ---------------------------------------------------------------------------------
  // Training windows

  /** A scaled row: close, SMA, RSI, MACD and the two Bollinger bands. */
  type Row = seq<real>

  predicate WellFormed(rows: seq<Row>) {
    forall k :: 0 <= k < |rows| ==> |rows[k]| == 6
  }

  datatype Sample = Sample(window: seq<Row>, target: real)

  /** Sample `i`: the `LOOKBACK` rows from `i` on, and the close of the row after them. */
  function SampleAt(rows: seq<Row>, i: nat): (s: Sample)
    requires WellFormed(rows) && i + LOOKBACK < |rows|
    ensures |s.window| == LOOKBACK
  {
    Sample(rows[i..i + LOOKBACK], rows[i + LOOKBACK][0])
  }

  /** The windows as written: `range(n - LOOKBACK - 1)` start positions. */
  function WindowsAsWritten(rows: seq<Row>): (r: seq<Sample>)
    requires WellFormed(rows)
    ensures |r| == if |rows| <= LOOKBACK + 1 then 0 else |rows| - LOOKBACK - 1
    ensures forall i :: 0 <= i < |r| ==> r[i] == SampleAt(rows, i)
  {
    var count := if |rows| <= LOOKBACK + 1 then 0 else |rows| - LOOKBACK - 1;
    seq(count, i requires 0 <= i < count => SampleAt(rows, i))
  }

  /** The windows with every start position whose target row exists. */
  function Windows(rows: seq<Row>): (r: seq<Sample>)
    requires WellFormed(rows)
    ensures |r| == if |rows| <= LOOKBACK then 0 else |rows| - LOOKBACK
    ensures forall i :: 0 <= i < |r| ==> r[i] == SampleAt(rows, i)
  {
    var count := if |rows| <= LOOKBACK then 0 else |rows| - LOOKBACK;
    seq(count, i requires 0 <= i < count => SampleAt(rows, i))
  }

  /** Every row after the first `LOOKBACK` is the target of exactly one sample, the one
      whose window is the rows just before it. */
  lemma EveryLaterRowIsATarget(rows: seq<Row>, t: nat)
    requires WellFormed(rows) && LOOKBACK <= t < |rows|
    ensures var w := Windows(rows);
      0 <= t - LOOKBACK < |w| && w[t - LOOKBACK].target == rows[t][0]
      && w[t - LOOKBACK].window == rows[t - LOOKBACK..t]
  {
  }

  /** As written, the last row is never a target: with 61 rows, one complete window exists
      and no sample is built. */
  lemma LastRowNeverATargetAsWritten(rows: seq<Row>)
    requires WellFormed(rows) && |rows| == LOOKBACK + 1
    ensures |WindowsAsWritten(rows)| == 0
    ensures |Windows(rows)| == 1 && Windows(rows)[0].target == rows[LOOKBACK][0]
  {
  }

  /** The written windows are the full ones with the last dropped. */
  lemma WindowsAsWrittenDropTheLast(rows: seq<Row>)
    requires WellFormed(rows) && LOOKBACK < |rows|
    ensures WindowsAsWritten(rows) == Windows(rows)[..|Windows(rows)| - 1]
  {
  }

  // ---------------------------------------------------------------------------------
  // The prediction endpoint

  /** The timeframe a prediction is made for: an unknown one is replaced by the
      configured default rather than refused. */
  function EffectiveTimeframe(tf: string, default: string): (r: string)
    ensures ValidTimeframe(tf) ==> r == tf
    ensures !ValidTimeframe(tf) ==> r == default
  {
    if ValidTimeframe(tf) then tf else default
  }

  /** The endpoint's answer: the prediction, or an error object with the exception's
      text. */
  datatype Answer =
    | Predicted(symbol: string, timeframe: string, predictedPrice: real, lastActualPrice: real, predictionTime: int)
    | ErrorAnswer(message: string)

  const INVALID_TIMEFRAME := "Invalid timeframe. Must be one of ['30m', '1h', '4h', '24h']"

  /** `str(e)` of the exception a failed download raises: the `ValueError`'s message, or
      an `HTTPException` rendered as "status: detail". */
  function DownloadErrorText(end: DataEnd): (m: string)
    requires !end.Data?
    ensures end.InvalidTimeframe? ==> m == INVALID_TIMEFRAME
    ensures end.HttpError? ==> m == Text.NatToString(end.status) + ": " + end.detail
  {
    match end
    case InvalidTimeframe => INVALID_TIMEFRAME
    case HttpError(status, detail) => Text.NatToString(status) + ": " + detail
  }

  /** numpy's message when the last rows of a table of `rows` rows (six features each)
      cannot be reshaped into one window of `LOOKBACK` rows. */
  function ReshapeErrorText(rows: nat): string {
    "cannot reshape array of size " + Text.NatToString(rows * 6) + " into shape (1,60,6)"
  }

  /** scikit-learn's message when the scaler is asked to transform a table with no
      rows, raised before the window is cut. */
  const EMPTY_TABLE_ERROR := "Found array with 0 sample(s) (shape=(0, 6)) while a minimum of 1 is required by MinMaxScaler."

  /** `predict_next_price`. The model is obtained first: `get_model` runs its own
      download (`modelAttempts`) and then loads or trains the network, which may raise
      (`modelFailure`, the exception's text). Then the latest data is downloaded
      (`attempts`) and scaled, which fails when it has no rows; its last `LOOKBACK`
      rows are fed to the network, which fails when the table is shorter. `modelPrice` is the network's output and `lastClose`,
      `lastTimestamp` the last row of the data. Any exception becomes an error answer
      carrying `str(e)`. */
  function PredictNextPrice(symbol: string, tf: string, default: string,
                            modelAttempts: seq<Attempt>, modelFailure: Option<string>, attempts: seq<Attempt>,
                            modelPrice: real, lastClose: real, lastTimestamp: int): (r: Answer)
    requires |attempts| == MAX_RETRIES && |modelAttempts| == MAX_RETRIES
    ensures r.Predicted? ==>
      r.timeframe == EffectiveTimeframe(tf, default) && ValidTimeframe(r.timeframe)
      && r.symbol == symbol && r.predictedPrice == modelPrice && r.lastActualPrice == lastClose
      && r.predictionTime == NextTimestamp(lastTimestamp, r.timeframe).value
    ensures var timeframe := EffectiveTimeframe(tf, default);
      var modelRun := GetLatestData(symbol, timeframe, modelAttempts).end;
      var latest := GetLatestData(symbol, timeframe, attempts).end;
      && (r.Predicted? <==> modelRun.Data? && modelFailure.None? && latest.Data? && LOOKBACK <= latest.rows)
      && (!modelRun.Data? ==> r == ErrorAnswer(DownloadErrorText(modelRun)))
      && (modelRun.Data? && modelFailure.Some? ==> r == ErrorAnswer(modelFailure.value))
      && (modelRun.Data? && modelFailure.None? && !latest.Data? ==> r == ErrorAnswer(DownloadErrorText(latest)))
      && (modelRun.Data? && modelFailure.None? && latest.Data? && latest.rows == 0
          ==> r == ErrorAnswer(EMPTY_TABLE_ERROR))
      && (modelRun.Data? && modelFailure.None? && latest.Data? && 0 < latest.rows < LOOKBACK
          ==> r == ErrorAnswer(ReshapeErrorText(latest.rows)))
  {
    var timeframe := EffectiveTimeframe(tf, default);
    var modelRun := GetLatestData(symbol, timeframe, modelAttempts).end;
    if !modelRun.Data? then ErrorAnswer(DownloadErrorText(modelRun))
    else if modelFailure.Some? then ErrorAnswer(modelFailure.value)
    else
      var latest := GetLatestData(symbol, timeframe, attempts).end;
      if !latest.Data? then ErrorAnswer(DownloadErrorText(latest))
      else if latest.rows == 0 then ErrorAnswer(EMPTY_TABLE_ERROR)
      else if latest.rows < LOOKBACK then ErrorAnswer(ReshapeErrorText(latest.rows))
      else Predicted(symbol, timeframe, modelPrice, lastClose, NextTimestamp(lastTimestamp, timeframe).value)
  }

  /** A non-empty table shorter than one window downloads fine but cannot be predicted
      from: the answer is numpy's reshape error. */
  lemma ShortTableIsAnError(symbol: string, rows: nat, modelPrice: real, lastClose: real, lastTimestamp: int)
    requires 0 < rows < LOOKBACK
    ensures var good := [Table(MIN_30M_ROWS + LOOKBACK, true), EmptyTable, EmptyTable];
      PredictNextPrice(symbol, "1h", "24h", good, None, [Table(rows, true), EmptyTable, EmptyTable],
                       modelPrice, lastClose, lastTimestamp)
      == ErrorAnswer(ReshapeErrorText(rows))
  {
  }

  /** A downloaded table left with no rows once incomplete rows are dropped fails in
      the scaler, before any window is cut, so the answer is scikit-learn's message
      rather than numpy's. */
  lemma EmptyTableFailsInTheScaler(symbol: string, modelPrice: real, lastClose: real, lastTimestamp: int)
    ensures var good := [Table(MIN_30M_ROWS + LOOKBACK, true), EmptyTable, EmptyTable];
      var answer := PredictNextPrice(symbol, "1h", "24h", good, None, [Table(0, true), EmptyTable, EmptyTable],
                                     modelPrice, lastClose, lastTimestamp);
      answer == ErrorAnswer(EMPTY_TABLE_ERROR) && answer != ErrorAnswer(ReshapeErrorText(0))
  {
  }

  /** A failed download reaches the client as the exception's string, which for an
      `HTTPException` starts with its status. */
  lemma FailedDownloadShowsStatus(symbol: string, tf: string, default: string, m0: string, m1: string, m2: string,
                                  modelPrice: real, lastClose: real, lastTimestamp: int)
    requires ValidTimeframe(tf)
    ensures var failing := [Raised(m0), Raised(m1), Raised(m2)];
      PredictNextPrice(symbol, tf, default, failing, None, failing, modelPrice, lastClose, lastTimestamp)
      == ErrorAnswer("500: " + ("Failed to fetch data for " + NormaliseSymbol(symbol) + AttemptsText() + ": " + m2))
  {
    var failing := [Raised(m0), Raised(m1), Raised(m2)];
    var detail := "Failed to fetch data for " + NormaliseSymbol(symbol) + AttemptsText() + ": " + m2;
    ThreeFailuresSleepTwiceThenFail(symbol, tf, m0, m1, m2);
    assert EffectiveTimeframe(tf, default) == tf;
    var end := GetLatestData(symbol, tf, failing).end;
    assert end == HttpError(500, detail);
    FailedModelDownloadIsTheAnswer(symbol, tf, default, failing, failing, modelPrice, lastClose, lastTimestamp);
    StatusText500();
    assert Text.NatToString(end.status) + ": " + end.detail == "500: " + detail;
  }

  /** When `get_model`'s download fails, its exception is the answer. */
  lemma FailedModelDownloadIsTheAnswer(symbol: string, tf: string, default: string,
                                       modelAttempts: seq<Attempt>, attempts: seq<Attempt>,
                                       modelPrice: real, lastClose: real, lastTimestamp: int)
    requires |attempts| == MAX_RETRIES && |modelAttempts| == MAX_RETRIES
    requires GetLatestData(symbol, EffectiveTimeframe(tf, default), modelAttempts).end.HttpError?
    ensures var end := GetLatestData(symbol, EffectiveTimeframe(tf, default), modelAttempts).end;
      PredictNextPrice(symbol, tf, default, modelAttempts, None, attempts, modelPrice, lastClose, lastTimestamp)
      == ErrorAnswer(Text.NatToString(end.status) + ": " + end.detail)
  {
  }

  lemma StatusText500()
    ensures Text.NatToString(500) == "500"
  {
    assert Text.NatToString(5) == "5";
    assert Text.NatToString(50) == "50";
  }

  /** With a valid default, an unknown timeframe is predicted for the default and never
      refused as a timeframe. */
  lemma UnknownTimeframeUsesDefault(symbol: string, tf: string, default: string,
                                    modelAttempts: seq<Attempt>, modelFailure: Option<string>, attempts: seq<Attempt>,
                                    modelPrice: real, lastClose: real, lastTimestamp: int)
    requires |attempts| == MAX_RETRIES && |modelAttempts| == MAX_RETRIES
    requires !ValidTimeframe(tf) && ValidTimeframe(default)
    ensures var r := PredictNextPrice(symbol, tf, default, modelAttempts, modelFailure, attempts,
                                      modelPrice, lastClose, lastTimestamp);
      && GetLatestData(symbol, EffectiveTimeframe(tf, default), modelAttempts).end != InvalidTimeframe
      && GetLatestData(symbol, EffectiveTimeframe(tf, default), attempts).end != InvalidTimeframe
      && (r.Predicted? ==> r.timeframe == default)
  {
  }
}

=== FILE: chart_view.dfy ===
/** The Predict page chart's zoom: zooming in multiplies the scale by 1.2 up to 3,
    zooming out divides it by 1.2 down to 0.5, and a reset returns to scale 1 with no
    offset. */
module ChartView {

  const MIN_SCALE := 0.5
  const MAX_SCALE := 3.0
  const ZOOM_STEP := 1.2

  datatype View = View(scale: real, offset: real, verticalOffset: real)

  const RESET := View(1.0, 0.0, 0.0)

  predicate InRange(scale: real) {
    MIN_SCALE <= scale <= MAX_SCALE
  }

  /** The new scale is the smaller of the stepped scale and the ceiling. */
  function ZoomIn(v: View): (r: View)
    ensures r.scale <= MAX_SCALE && r.scale <= v.scale * ZOOM_STEP
    ensures r.scale == v.scale * ZOOM_STEP || r.scale == MAX_SCALE
    ensures r.offset == v.offset && r.verticalOffset == v.verticalOffset
  {
    v.(scale := if v.scale * ZOOM_STEP < MAX_SCALE then v.scale * ZOOM_STEP else MAX_SCALE)
  }

  /** The new scale is the larger of the stepped scale and the floor. */
  function ZoomOut(v: View): (r: View)
    ensures MIN_SCALE <= r.scale && v.scale / ZOOM_STEP <= r.scale
    ensures r.scale == v.scale / ZOOM_STEP || r.scale == MIN_SCALE
    ensures r.offset == v.offset && r.verticalOffset == v.verticalOffset
  {
    v.(scale := if v.scale / ZOOM_STEP > MIN_SCALE then v.scale / ZOOM_STEP else MIN_SCALE)
  }

  function Reset(v: View): (r: View)
    ensures r.scale == 1.0 && InRange(r.scale) && r.offset == 0.0 && r.verticalOffset == 0.0
  {
    RESET
  }

  datatype Control = In | Out | ResetView

  function Apply(v: View, c: Control): View {
    match c
    case In => ZoomIn(v)
    case Out => ZoomOut(v)
    case ResetView => Reset(v)
  }

  function ApplyAll(v: View, cs: seq<Control>): View
    decreases |cs|
  {
    if |cs| == 0 then v else ApplyAll(Apply(v, cs[0]), cs[1..])
  }

  /** Each control keeps a scale in [0.5, 3] within it. */
  lemma ControlKeepsRange(v: View, c: Control)
    requires InRange(v.scale)
    ensures InRange(Apply(v, c).scale)
  {
  }

  /** From the initial view, no sequence of presses leaves [0.5, 3]. */
  lemma {:induction false} ScaleStaysInRange(v: View, cs: seq<Control>)
    requires InRange(v.scale)
    ensures InRange(ApplyAll(v, cs).scale)
    decreases |cs|
  {
    if |cs| > 0 {
      ControlKeepsRange(v, cs[0]);
      ScaleStaysInRange(Apply(v, cs[0]), cs[1..]);
    }
  }

  /** Zooming out undoes a zoom in that did not hit the ceiling, from any in-range scale. */
  lemma ZoomOutUndoesZoomIn(v: View)
    requires InRange(v.scale) && v.scale * ZOOM_STEP <= MAX_SCALE
    ensures ZoomOut(ZoomIn(v)) == v
  {
  }

  /** Zooming in undoes a zoom out that did not hit the floor. */
  lemma ZoomInUndoesZoomOut(v: View)
    requires InRange(v.scale) && MIN_SCALE <= v.scale / ZOOM_STEP
    ensures ZoomIn(ZoomOut(v)) == v
  {
  }
}

=== FILE: coin_stats.dfy ===
/** The Predict page's statistics tab: the market sentiment split, normalised to add up
    to 100, and the coin statistics derived from a quote (the chance of a rise, the market
    cap rank, the volatility). Every random draw is a parameter in [0, 1); a field the
    quote may lack, or that does not parse, is an `Option`. */
module CoinStats {
  import opened Wrappers
  import Forecast

  predicate IsDraw(r: real) {
    0.0 <= r < 1.0
  }

  // ---------------------------------------------------------------------------------
  // Sentiment

  datatype Sentiment = Sentiment(bullish: int, bearish: int, neutral: int)

  /** The raw split: bullish 30..99, bearish 0..39, neutral 0..29. */
  function RawSentiment(r1: real, r2: real, r3: real): (s: Sentiment)
    requires IsDraw(r1) && IsDraw(r2) && IsDraw(r3)
    ensures 30 <= s.bullish <= 99 && 0 <= s.bearish <= 39 && 0 <= s.neutral <= 29
  {
    Sentiment((r1 * 70.0).Floor + 30, (r2 * 40.0).Floor, (r3 * 30.0).Floor)
  }

  /** Normalising: bullish and bearish become their floored percentages of the total,
      and neutral takes what is left of 100. */
  function Normalise(s: Sentiment): (n: Sentiment)
    requires 0 <= s.bullish && 0 <= s.bearish && 0 <= s.neutral
    requires 0 < s.bullish + s.bearish + s.neutral
    ensures n.bullish + n.bearish + n.neutral == 100
    ensures 0 <= n.bullish && 0 <= n.bearish && 0 <= n.neutral
    ensures var total := s.bullish + s.bearish + s.neutral;
      n.bullish * total <= s.bullish * 100 < (n.bullish + 1) * total
      && n.bearish * total <= s.bearish * 100 < (n.bearish + 1) * total
      && s.neutral * 100 <= n.neutral * total
  {
    var total := s.bullish + s.bearish + s.neutral;
    var bullish := s.bullish * 100 / total;
    var bearish := s.bearish * 100 / total;
    FloorsBelowWhole(s.bullish * 100, s.bearish * 100, s.neutral * 100, total);
    Sentiment(bullish, bearish, 100 - bullish - bearish)
  }

  /** Three non-negative parts of `total * 100` whose first two are floored against
      `total`: the floors leave at least the third part's share. */
  lemma FloorsBelowWhole(a: int, b: int, c: int, total: int)
    requires 0 <= a && 0 <= b && 0 <= c && 0 < total && a + b + c == total * 100
    ensures (a / total) * total <= a < (a / total + 1) * total
    ensures (b / total) * total <= b < (b / total + 1) * total
    ensures c <= (100 - a / total - b / total) * total
    ensures 0 <= a / total && 0 <= b / total
  {
    DivBounds(a, total);
    DivBounds(b, total);
    assert (100 - a / total - b / total) * total == a + b + c - (a / total) * total - (b / total) * total;
  }

  lemma DivBounds(a: int, total: int)
    requires 0 <= a && 0 < total
    ensures (a / total) * total <= a < (a / total + 1) * total
    ensures 0 <= a / total
  {
    assert a == (a / total) * total + a % total;
  }

  /** The sentiment the tab shows adds up to 100, with bullish at least 30. */
  lemma ShownSentimentIsAPercentageSplit(r1: real, r2: real, r3: real)
    requires IsDraw(r1) && IsDraw(r2) && IsDraw(r3)
    ensures var n := Normalise(RawSentiment(r1, r2, r3));
      n.bullish + n.bearish + n.neutral == 100
      && 30 <= n.bullish <= 100 && 0 <= n.bearish && 0 <= n.neutral
  {
    var s := RawSentiment(r1, r2, r3);
    var n := Normalise(s);
    BullishShareAtLeastThirty(s.bullish, s.bearish + s.neutral, n.bullish);
  }

  /** A bullish count of at least 30 against at most 68 others is at least 30 percent. */
  lemma BullishShareAtLeastThirty(b: int, others: int, share: int)
    requires 30 <= b && 0 <= others <= 68
    requires share * (b + others) <= b * 100 < (share + 1) * (b + others)
    ensures 30 <= share <= 100
  {
    var total := b + others;
    assert 30 * total <= b * 100;
    if share < 30 {
      MulLe(share + 1, 30, total);
    }
    if share > 100 {
      MulLe(101, share, total);
    }
  }

  lemma MulLe(x: int, y: int, t: int)
    requires x <= y && 0 <= t
    ensures x * t <= y * t
  {
  }

  // ---------------------------------------------------------------------------------
  // Coin statistics

  /** The quote's fields as parsed: `None` where the field is missing or not a number. */
  datatype Quote = Quote(changePercent: Option<real>, vwap: Option<real>, price: Option<real>, rank: Option<int>)

  /** `parseFloat(x) || 0`: a missing or unparsable field counts as zero. */
  function OrZero(x: Option<real>): real {
    x.GetOr(0.0)
  }

  function MinReal(a: real, b: real): real {
    if a < b then a else b
  }

  function AbsReal(x: real): real {
    if x < 0.0 then -x else x
  }

  /** The adjustment for the 24-hour change: up to 20 points either way. */
  function ChangeAdjustment(change: real): (d: real)
    ensures -20.0 <= d <= 20.0
    ensures 0.0 < change ==> 0.0 < d
    ensures change <= 0.0 ==> d <= 0.0
  {
    if change > 0.0 then MinReal(20.0, change * 2.0) else -MinReal(20.0, AbsReal(change) * 2.0)
  }

  /** The adjustment for the price against the volume-weighted average: a price above it
      loses up to 10 points, one at or below it gains up to 10; no average, no change. */
  function VwapAdjustment(price: real, vwap: real): (d: real)
    ensures -10.0 <= d <= 10.0
    ensures vwap <= 0.0 ==> d == 0.0
    ensures 0.0 < vwap < price ==> d < 0.0
    ensures 0.0 < vwap && price <= vwap ==> 0.0 <= d
  {
    if vwap > 0.0 then
      var diff := (price - vwap) / vwap * 100.0;
      DiffSign(price, vwap);
      if diff > 0.0 then -MinReal(10.0, diff * 2.0) else MinReal(10.0, AbsReal(diff) * 2.0)
    else 0.0
  }

  lemma DiffSign(price: real, vwap: real)
    requires 0.0 < vwap
    ensures (price - vwap) / vwap * 100.0 > 0.0 <==> vwap < price
  {
    if vwap < price {
      assert (price - vwap) / vwap > 0.0;
    } else {
      assert (price - vwap) / vwap <= 0.0;
    }
  }

  /** `parseInt(rank) || 100`: a missing rank, or rank 0, counts as 100. */
  function RankForProbability(rank: Option<int>): (r: int)
    ensures rank.Some? && rank.value != 0 ==> r == rank.value
    ensures rank.None? || rank == Some(0) ==> r == 100
  {
    if rank.Some? && rank.value != 0 then rank.value else 100
  }

  /** Top ten ranks gain 5 points, ranks up to fifty gain 2. */
  function RankAdjustment(rank: int): (d: real)
    ensures 0.0 <= d <= 5.0
  {
    if rank <= 10 then 5.0 else if rank <= 50 then 2.0 else 0.0
  }

  /** The unrounded chance of a rise, in percent. */
  function RawProbability(q: Quote): real {
    50.0 + ChangeAdjustment(OrZero(q.changePercent))
         + VwapAdjustment(OrZero(q.price), OrZero(q.vwap))
         + RankAdjustment(RankForProbability(q.rank))
  }

  /** The chance of a rise: rounded and held in [1, 99]. */
  function ProbabilityIncrease(q: Quote): (p: int)
    ensures 1 <= p <= 99
  {
    Forecast.ClampInt(1, 99, Forecast.Round(RawProbability(q)))
  }

  /** The adjustments can move the chance only from 20 to 85, so the clamp to [1, 99]
      never bites: the shown chance is the rounded raw value. */
  lemma ProbabilityNeverNeedsTheClamp(q: Quote)
    ensures 20.0 <= RawProbability(q) <= 85.0
    ensures ProbabilityIncrease(q) == Forecast.Round(RawProbability(q))
    ensures 20 <= ProbabilityIncrease(q) <= 85
  {
    var raw := RawProbability(q);
    var n := Forecast.Round(raw);
    assert (raw + 0.5).Floor <= 85;
  }

  /** With a rising price, no average to compare against, and a rank beyond fifty, the
      chance of a rise is above one half. */
  lemma RisingCoinIsLikelierToRise(q: Quote)
    requires OrZero(q.changePercent) > 0.0 && OrZero(q.vwap) <= 0.0 && RankForProbability(q.rank) > 50
    ensures 50 <= ProbabilityIncrease(q)
  {
    ProbabilityNeverNeedsTheClamp(q);
  }

  /** The rank shown: `parseInt(rank) || 0`. */
  function MarketCapRank(rank: Option<int>): (r: int)
    ensures rank.Some? ==> r == rank.value
    ensures rank.None? ==> r == 0
  {
    rank.GetOr(0)
  }

  /** A missing rank is shown as 0 but weighed as 100. */
  lemma MissingRankShownAndWeighedDifferently()
    ensures MarketCapRank(None) == 0 && RankForProbability(None) == 100
  {
  }

  /** The volatility shown: the size of the 24-hour change, or a random value below 5
      when the change is zero. */
  function Volatility(change: real, draw: real): (v: real)
    requires IsDraw(draw)
    ensures change != 0.0 ==> v == AbsReal(change) && 0.0 < v
    ensures change == 0.0 ==> 0.0 <= v < 5.0
  {
    if AbsReal(change) != 0.0 then AbsReal(change) else draw * 5.0
  }
}

=== FILE: footer.dfy ===
/** The footer's hidden admin entrance: five quick clicks on the copyright line reveal a
    link to the admin login for five seconds. Time is explicit: every event carries the
    time it happens at, and the timers the component sets are pending fire times. */
module Footer {

  const QUICK_CLICK_MS := 1000
  const QUIET_RESET_MS := 3000
  const LINK_SHOWN_MS := 5000

  /** The component state: the click count, whether the link is shown, the time of the
      last click, when the count or the link last changed (the inactivity timer runs
      from then), and the pending fire times of the hide timers, oldest first. */
  datatype Footer = Footer(count: nat, shown: bool, lastClick: int, quietSince: int, hides: seq<int>)

  const REST := Footer(0, false, 0, 0, [])

  /** The inactivity timer: three seconds after the last change, a count that has not
      revealed the link goes back to zero. */
  predicate QuietDue(s: Footer, t: int) {
    s.count > 0 && !s.shown && s.quietSince + QUIET_RESET_MS <= t
  }

  predicate HideDue(s: Footer, t: int) {
    |s.hides| > 0 && s.hides[0] <= t
  }

  /** Every timer due by time `t` fires, earliest first. A hide timer hides the link and
      clears the count; the inactivity timer clears the count. */
  function Settle(s: Footer, t: int): (r: Footer)
    ensures r.lastClick == s.lastClick
    ensures |r.hides| <= |s.hides| && r.hides == s.hides[|s.hides| - |r.hides|..]
    ensures |r.hides| == 0 || t < r.hides[0]
    ensures r.shown ==> s.shown && |r.hides| == |s.hides|
    ensures !QuietDue(r, t)
    ensures r.count <= s.count
    ensures !HideDue(s, t) && !QuietDue(s, t) ==> r == s
    decreases |s.hides|, if s.count > 0 && !s.shown then 1 else 0
  {
    if HideDue(s, t) && (!QuietDue(s, t) || s.hides[0] <= s.quietSince + QUIET_RESET_MS) then
      var h := s.hides[0];
      var changed := s.shown || s.count != 0;
      Settle(Footer(0, false, s.lastClick, if changed then h else s.quietSince, s.hides[1..]), t)
    else if QuietDue(s, t) then
      Settle(s.(count := 0, quietSince := s.quietSince + QUIET_RESET_MS), t)
    else s
  }

  /** A click on the copyright line at time `t`. A click more than a second after the
      previous one starts the count again at one; otherwise the count goes up by one.
      When the count before the click was four or more, the link is shown and a timer
      to hide it is set. */
  function Click(s: Footer, t: int): (r: Footer)
    ensures var p := Settle(s, t);
      r.lastClick == t
      && (t - p.lastClick > QUICK_CLICK_MS && p.count > 0 ==> r.count == 1)
      && (!(t - p.lastClick > QUICK_CLICK_MS && p.count > 0) ==> r.count == p.count + 1)
      && (r.shown <==> p.shown || 4 <= p.count)
      && (4 <= p.count ==> r.hides == p.hides + [t + LINK_SHOWN_MS])
      && (p.count < 4 ==> r.hides == p.hides)
  {
    ClickSettled(Settle(s, t), t)
  }

  /** The click itself, on the state with every due timer already fired. */
  function ClickSettled(p: Footer, t: int): (r: Footer)
    ensures r.lastClick == t
    ensures t - p.lastClick > QUICK_CLICK_MS && p.count > 0 ==> r.count == 1
    ensures !(t - p.lastClick > QUICK_CLICK_MS && p.count > 0) ==> r.count == p.count + 1
    ensures r.shown <==> p.shown || 4 <= p.count
    ensures 4 <= p.count ==> r.hides == p.hides + [t + LINK_SHOWN_MS]
    ensures p.count < 4 ==> r.hides == p.hides
  {
    var count := if t - p.lastClick > QUICK_CLICK_MS && p.count > 0 then 1 else p.count + 1;
    var unlocks := 4 <= p.count;
    var shown := p.shown || unlocks;
    var changed := count != p.count || shown != p.shown;
    Footer(count, shown, t, if changed then t else p.quietSince, if unlocks then p.hides + [t + LINK_SHOWN_MS] else p.hides)
  }

  /** Following the revealed link: the link is hidden and the count cleared. */
  function GoToAdminLogin(s: Footer, t: int): (r: Footer)
    ensures !r.shown && r.count == 0
    ensures r.hides == Settle(s, t).hides
  {
    var p := Settle(s, t);
    var changed := p.shown || p.count != 0;
    p.(shown := false, count := 0, quietSince := if changed then t else p.quietSince)
  }

  /** The state right after a click that counted, with no timer pending and the link
      hidden. */
  predicate Counting(s: Footer) {
    !s.shown && s.hides == [] && s.quietSince == s.lastClick
  }

  /** A click within a second of the previous one, while counting, adds one. */
  lemma QuickClickAddsOne(s: Footer, t: int)
    requires Counting(s) && 0 < s.count < 4
    requires s.lastClick <= t <= s.lastClick + QUICK_CLICK_MS
    ensures Click(s, t).count == s.count + 1
    ensures Counting(Click(s, t)) && Click(s, t).lastClick == t
  {
    assert !HideDue(s, t) && !QuietDue(s, t);
    assert Settle(s, t) == s;
  }

  /** Five clicks, each within a second of the one before, starting from rest at least
      three seconds after the last click, reveal the link; four do not. */
  lemma FiveQuickClicksRevealTheLink(s: Footer, t1: int, t2: int, t3: int, t4: int, t5: int)
    requires s.count == 0 && !s.shown && s.hides == []
    requires s.lastClick + QUICK_CLICK_MS < t1
    requires t1 <= t2 <= t1 + QUICK_CLICK_MS && t2 <= t3 <= t2 + QUICK_CLICK_MS
    requires t3 <= t4 <= t3 + QUICK_CLICK_MS && t4 <= t5 <= t4 + QUICK_CLICK_MS
    ensures var s4 := Click(Click(Click(Click(s, t1), t2), t3), t4);
      !s4.shown && s4.count == 4 && Click(s4, t5).shown
      && Click(s4, t5).hides == [t5 + LINK_SHOWN_MS]
  {
    assert !HideDue(s, t1) && !QuietDue(s, t1);
    assert Settle(s, t1) == s;
    var s1 := Click(s, t1);
    assert s1.count == 1 && Counting(s1) && s1.lastClick == t1;
    QuickClickAddsOne(s1, t2);
    var s2 := Click(s1, t2);
    QuickClickAddsOne(s2, t3);
    var s3 := Click(s2, t3);
    QuickClickAddsOne(s3, t4);
    var s4 := Click(s3, t4);
    assert !HideDue(s4, t5) && !QuietDue(s4, t5);
    assert Settle(s4, t5) == s4;
  }

  /** Clicks more than a second apart never reveal the link: the count stays at one. */
  lemma SlowClicksNeverReveal(s: Footer, t: int)
    requires !s.shown && s.count <= 1 && s.hides == []
    requires s.lastClick + QUICK_CLICK_MS < t
    ensures var r := Click(s, t);
      !r.shown && r.count == 1 && r.hides == []
  {
    var p := Settle(s, t);
    assert p.hides == [] && !p.shown && p.count <= 1 && p.lastClick == s.lastClick;
  }

  /** Five seconds after the link is revealed, it is hidden again and the count is zero,
      whatever the count was. */
  lemma RevealedLinkHidesAfterFiveSeconds(s: Footer, t: int)
    requires s.hides == [] && 4 <= Settle(s, t).count && !Settle(s, t).shown
    requires s.lastClick <= t
    ensures var r := Click(s, t);
      r.shown && Settle(r, t + LINK_SHOWN_MS - 1).shown
      && !Settle(r, t + LINK_SHOWN_MS).shown && Settle(r, t + LINK_SHOWN_MS).count == 0
  {
    var r := Click(s, t);
    assert r.shown && r.hides == [t + LINK_SHOWN_MS];
    ShownUntilHideTimer(r, t + LINK_SHOWN_MS - 1);
    HideTimerHides(r, t + LINK_SHOWN_MS);
  }

  /** While the link is shown, nothing changes before its hide timer is due. */
  lemma ShownUntilHideTimer(r: Footer, u: int)
    requires r.shown && 0 < |r.hides| && u < r.hides[0]
    ensures Settle(r, u) == r
  {
    assert !HideDue(r, u) && !QuietDue(r, u);
  }

  /** Once the only hide timer is due, the link is hidden and the count is zero. */
  lemma HideTimerHides(r: Footer, u: int)
    requires r.shown && |r.hides| == 1 && r.hides[0] <= u
    ensures !Settle(r, u).shown && Settle(r, u).count == 0
  {
    assert HideDue(r, u) && !QuietDue(r, u);
    var next := Footer(0, false, r.lastClick, r.hides[0], r.hides[1..]);
    assert Settle(r, u) == Settle(next, u);
  }
}

=== FILE: forecast.dfy ===
/** The client-side heuristic forecaster of the Predict page (`generatePredictionData`):
    from the last twenty chart prices it derives relative changes, their mean and spread,
    a trend, a momentum, and from those a set of clamped scores and price levels.
    The square root of the variance is taken by the host; the model receives it as a
    parameter tied to the variance by `sd·sd == variance`. */
module Forecast {
  import opened Wrappers
  import opened Timeframe
  import PriceSeries
  import Trading

  datatype Trend = Bullish | Bearish

  /** The five `Math.random()` draws the forecaster consumes, each in [0, 1). */
  datatype ForecastDraws = ForecastDraws(change: real, volume: real, shortTerm: real, midTerm: real, longTerm: real)

  predicate ValidDraws(d: ForecastDraws) {
    && 0.0 <= d.change < 1.0 && 0.0 <= d.volume < 1.0
    && 0.0 <= d.shortTerm < 1.0 && 0.0 <= d.midTerm < 1.0 && 0.0 <= d.longTerm < 1.0
  }

  /** The probability panel. `confidence` is absent when the window holds one price:
      the trend consistency is then 0/0 and the host's score is NaN. The three
      `…Percent` fields are the spread, mean change and momentum times 100. */
  datatype Outlook = Outlook(
    trend: Trend,
    confidence: Option<int>,
    predictedPrice: real,
    volatilityPercent: real,
    avgChangePercent: real,
    momentumPercent: real,
    support: real,
    resistance: real,
    volumePrediction: real,
    shortTermTarget: real,
    midTermTarget: real,
    longTermTarget: real,
    sentimentScore: real,
    riskScore: int,
    priceIncreaseProb: int)

  predicate AllPositive(prices: seq<real>) {
    forall i :: 0 <= i < |prices| ==> 0.0 < prices[i]
  }

  /** `chartData.slice(-20)`: the last twenty prices, or all of them when fewer. */
  function Window(chart: seq<real>): (w: seq<real>)
    ensures |w| == if |chart| < 20 then |chart| else 20
    ensures w == chart[|chart| - |w|..]
  {
    if |chart| <= 20 then chart else chart[|chart| - 20..]
  }

  /** Relative change between consecutive prices. */
  function Changes(w: seq<real>): (c: seq<real>)
    requires AllPositive(w)
    ensures |c| == if |w| == 0 then 0 else |w| - 1
    ensures forall i :: 0 <= i < |c| ==> c[i] == (w[i + 1] - w[i]) / w[i]
  {
    if |w| <= 1 then []
    else seq(|w| - 1, i requires 0 <= i < |w| - 1 => (w[i + 1] - w[i]) / w[i])
  }

  /** Mean of a list of changes, 0 for none. */
  function AverageOrZero(xs: seq<real>): real {
    if |xs| == 0 then 0.0 else PriceSeries.Mean(xs)
  }

  /** Second-half mean minus first-half mean, the halves split at `⌊n/2⌋`. */
  function Momentum(changes: seq<real>): real {
    var h := |changes| / 2;
    AverageOrZero(changes[h..]) - AverageOrZero(changes[..h])
  }

  function TrendOf(w: seq<real>): (t: Trend)
    requires 0 < |w|
    ensures t == Bullish <==> w[|w| - 1] > w[0]
  {
    if w[|w| - 1] > w[0] then Bullish else Bearish
  }

  /** A change agrees with the trend when it points the trend's way. */
  predicate Agrees(change: real, t: Trend) {
    (t == Bullish && change > 0.0) || (t == Bearish && change < 0.0)
  }

  function CountAgreeing(changes: seq<real>, t: Trend): (n: nat)
    ensures n <= |changes|
  {
    if |changes| == 0 then 0
    else CountAgreeing(changes[..|changes| - 1], t) + (if Agrees(changes[|changes| - 1], t) then 1 else 0)
  }

  /** Multipliers per timeframe: the spread and the prediction scale 0.5/1/1.5/2 and the
      confidence 0.8/1/1.2/1.5, each 1 for an unknown timeframe. */
  function VolatilityMultiplier(tf: Timeframe): (m: real)
    ensures 0.0 < m
  {
    match tf
    case ThirtyMinutes => 0.5
    case OneHour => 1.0
    case FourHours => 1.5
    case OneDay => 2.0
    case Unrecognised => 1.0
  }

  function ConfidenceMultiplier(tf: Timeframe): (m: real)
    ensures 0.0 < m
  {
    match tf
    case ThirtyMinutes => 0.8
    case OneHour => 1.0
    case FourHours => 1.2
    case OneDay => 1.5
    case Unrecognised => 1.0
  }

  function PredictionMultiplier(tf: Timeframe): (m: real)
    ensures 0.0 < m
  {
    VolatilityMultiplier(tf)
  }

  /** JavaScript's `Math.round`: halves round up. */
  function Round(x: real): (n: int)
    ensures x - 0.5 <= n as real <= x + 0.5
  {
    (x + 0.5).Floor
  }

  function ClampInt(lo: int, hi: int, x: int): (r: int)
    requires lo <= hi
    ensures lo <= r <= hi
    ensures lo <= x <= hi ==> r == x
    ensures x < lo ==> r == lo
    ensures hi < x ==> r == hi
  {
    if x < lo then lo else if hi < x then hi else x
  }

  function ClampReal(lo: real, hi: real, x: real): (r: real)
    requires lo <= hi
    ensures lo <= r <= hi
    ensures lo <= x <= hi ==> r == x
    ensures x < lo ==> r == lo
    ensures hi < x ==> r == hi
  {
    PriceSeries.MinReal(hi, PriceSeries.MaxReal(lo, x))
  }

  /** Confidence: trend consistency in percent, scaled, less 500 times the spread,
      floored and held in [60, 95]. */
  function ConfidenceScore(consistency: real, volatility: real, tf: Timeframe): (c: int)
    ensures 60 <= c <= 95
    ensures 60 <= (consistency * 100.0 * ConfidenceMultiplier(tf) - volatility * 500.0).Floor <= 95 ==>
      c == (consistency * 100.0 * ConfidenceMultiplier(tf) - volatility * 500.0).Floor
  {
    ClampInt(60, 95, (consistency * 100.0 * ConfidenceMultiplier(tf) - volatility * 500.0).Floor)
  }

  /** Risk: the scaled spread in percent, rounded, held in [1, 10]. */
  function RiskScore(volatility: real, tf: Timeframe): (r: int)
    ensures 1 <= r <= 10
    ensures 1 <= Round(volatility * 100.0 * PredictionMultiplier(tf)) <= 10 ==>
      r == Round(volatility * 100.0 * PredictionMultiplier(tf))
  {
    ClampInt(1, 10, Round(volatility * 100.0 * PredictionMultiplier(tf)))
  }

  /** Probability of a rise: 50 moved by momentum and mean change, rounded, in [1, 99]. */
  function IncreaseProbability(avg: real, momentum: real, tf: Timeframe): (p: int)
    ensures 1 <= p <= 99
    ensures var raw := Round(50.0 + momentum * 500.0 * PredictionMultiplier(tf) + avg * 300.0 * PredictionMultiplier(tf));
      1 <= raw <= 99 ==> p == raw
  {
    ClampInt(1, 99, Round(50.0 + momentum * 500.0 * PredictionMultiplier(tf) + avg * 300.0 * PredictionMultiplier(tf)))
  }

  /** Sentiment: 50 moved by mean change and momentum, held in [0, 100]. */
  function SentimentScore(avg: real, momentum: real, tf: Timeframe): (s: real)
    ensures 0.0 <= s <= 100.0
    ensures var raw := 50.0 + avg * 1000.0 * PredictionMultiplier(tf) + momentum * 500.0 * PredictionMultiplier(tf);
      0.0 <= raw <= 100.0 ==> s == raw
  {
    ClampReal(0.0, 100.0, 50.0 + avg * 1000.0 * PredictionMultiplier(tf) + momentum * 500.0 * PredictionMultiplier(tf))
  }

  /** `baseVolatility`: the host's standard deviation of the changes, or 0.02 when there
      are none. */
  predicate IsStdDev(changes: seq<real>, sd: real) {
    0 < |changes| ==> (0.0 <= sd && sd * sd == PriceSeries.Variance(changes))
  }

  function BaseVolatility(changes: seq<real>, sd: real): (v: real)
    requires IsStdDev(changes, sd)
    ensures 0.0 <= v
  {
    if 0 < |changes| then sd else 0.02
  }

  /** A price target: `predicted · (1 + r·k·multiplier·(±1 by trend))`. */
  function Target(predicted: real, r: real, k: real, pm: real, t: Trend): real {
    predicted * (1.0 + r * k * pm * (if t == Bullish then 1.0 else -1.0))
  }

  /** Support: the lowest price lowered by the scaled spread; never above that price. */
  function Support(lo: real, spread: real): (s: real)
    requires 0.0 < lo && 0.0 <= spread
    ensures s <= lo
    ensures s == lo <==> spread == 0.0
  {
    Widened(lo, spread);
    lo * (1.0 - spread)
  }

  /** Resistance: the highest price raised by the scaled spread; never below that price. */
  function Resistance(hi: real, spread: real): (r: real)
    requires 0.0 < hi && 0.0 <= spread
    ensures hi <= r
    ensures r == hi <==> spread == 0.0
  {
    Widened(hi, spread);
    hi * (1.0 + spread)
  }

  lemma Widened(x: real, spread: real)
    requires 0.0 < x && 0.0 <= spread
    ensures x * (1.0 - spread) <= x <= x * (1.0 + spread)
    ensures x * (1.0 - spread) == x <==> spread == 0.0
    ensures x * (1.0 + spread) == x <==> spread == 0.0
  {
    if 0.0 < spread {
      PriceSeries.MulPositive(x, spread);
    }
  }

  /** The predicted relative move: mean change and momentum, scaled, plus noise in
      proportion to the spread. */
  function PredictedChange(avg: real, momentum: real, volatility: real, tf: Timeframe, r: real): real {
    (avg * 5.0 + momentum * 10.0) * PredictionMultiplier(tf) + (r - 0.5) * volatility * 2.0
  }

  /** The statistics of one window that every score is computed from. */
  datatype Analysis = Analysis(changes: seq<real>, avg: real, volatility: real, trend: Trend, momentum: real)

  function Analyse(w: seq<real>, tf: Timeframe, sd: real): (a: Analysis)
    requires 0 < |w| && AllPositive(w)
    requires IsStdDev(Changes(w), sd)
    ensures a.changes == Changes(w) && a.trend == TrendOf(w)
    ensures 0.0 <= a.volatility
  {
    var changes := Changes(w);
    Analysis(changes, AverageOrZero(changes), BaseVolatility(changes, sd) * VolatilityMultiplier(tf),
             TrendOf(w), Momentum(changes))
  }

  /** Share of the changes that point the trend's way; absent (NaN) when there are none. */
  function Consistency(a: Analysis): (c: Option<real>)
    ensures c.None? <==> |a.changes| == 0
  {
    if |a.changes| == 0 then None
    else Some((CountAgreeing(a.changes, a.trend) as real) / (|a.changes| as real))
  }

  function OutlookOf(w: seq<real>, a: Analysis, totalVolume: real, tf: Timeframe, draws: ForecastDraws): (o: Outlook)
    requires 0 < |w| && AllPositive(w) && 0.0 <= a.volatility
    ensures o.trend == a.trend
    ensures o.confidence.None? <==> |a.changes| == 0
    ensures o.confidence.Some? ==> 60 <= o.confidence.value <= 95
    ensures 1 <= o.riskScore <= 10
    ensures 1 <= o.priceIncreaseProb <= 99
    ensures 0.0 <= o.sentimentScore <= 100.0
    ensures o.support <= PriceSeries.MinOf(w) && PriceSeries.MaxOf(w) <= o.resistance
  {
    var pm := PredictionMultiplier(tf);
    var predicted := w[|w| - 1] * (1.0 + PredictedChange(a.avg, a.momentum, a.volatility, tf, draws.change));
    var volumeChange := (draws.volume - 0.3) * 20.0 * pm;
    var spread := a.volatility * pm;
    PriceSeries.SquareNonNegative(0.0);
    assert 0.0 <= spread by {
      if 0.0 < a.volatility {
        PriceSeries.MulPositive(a.volatility, pm);
      }
    }
    var c := Consistency(a);
    Outlook(
      a.trend,
      if c.None? then None else Some(ConfidenceScore(c.value, a.volatility, tf)),
      predicted,
      a.volatility * 100.0,
      a.avg * 100.0,
      a.momentum * 100.0,
      Support(PriceSeries.MinOf(w), spread),
      Resistance(PriceSeries.MaxOf(w), spread),
      totalVolume * (1.0 + volumeChange / 100.0),
      Target(predicted, draws.shortTerm, 0.05, pm, a.trend),
      Target(predicted, draws.midTerm, 0.15, pm, a.trend),
      Target(predicted, draws.longTerm, 0.3, pm, a.trend),
      SentimentScore(a.avg, a.momentum, tf),
      RiskScore(a.volatility, tf),
      IncreaseProbability(a.avg, a.momentum, tf))
  }

  /** `generatePredictionData`: nothing for an empty chart; otherwise the outlook of the
      last twenty prices, bullish exactly when the last price is above the window's
      first, with every score inside its range and the price levels enclosing the window. */
  function GeneratePrediction(chart: seq<real>, totalVolume: real, tf: Timeframe, sd: real, draws: ForecastDraws): (r: Option<Outlook>)
    requires AllPositive(chart)
    requires IsStdDev(Changes(Window(chart)), sd)
    ensures r.None? <==> |chart| == 0
    ensures r.Some? ==>
      && (r.value.trend == Bullish <==> chart[|chart| - 1] > Window(chart)[0])
      && (r.value.confidence.None? <==> |chart| == 1)
      && (r.value.confidence.Some? ==> 60 <= r.value.confidence.value <= 95)
      && 1 <= r.value.riskScore <= 10
      && 1 <= r.value.priceIncreaseProb <= 99
      && 0.0 <= r.value.sentimentScore <= 100.0
      && r.value.support <= PriceSeries.MinOf(Window(chart))
      && PriceSeries.MaxOf(Window(chart)) <= r.value.resistance
  {
    if |chart| == 0 then None
    else
      var w := Window(chart);
      assert AllPositive(w);
      Some(OutlookOf(w, Analyse(w, tf, sd), totalVolume, tf, draws))
  }

  // ----- Two characteristic windows -----

  lemma {:induction false} SumOfZeros(xs: seq<real>)
    requires Constant(xs, 0.0)
    ensures PriceSeries.Sum(xs) == 0.0
    decreases |xs|
  {
    if 0 < |xs| {
      SumOfZeros(xs[..|xs| - 1]);
    }
  }

  lemma {:induction false} NoneAgreeWithFlat(xs: seq<real>, t: Trend)
    requires Constant(xs, 0.0)
    ensures CountAgreeing(xs, t) == 0
    decreases |xs|
  {
    if 0 < |xs| {
      NoneAgreeWithFlat(xs[..|xs| - 1], t);
    }
  }

  lemma ZeroSquare(sd: real)
    requires 0.0 <= sd && sd * sd == 0.0
    ensures sd == 0.0
  {
    PriceSeries.SquaresCompareLikeValues(0.0, sd);
  }

  predicate Constant(w: seq<real>, c: real) {
    forall i :: 0 <= i < |w| ==> w[i] == c
  }

  /** The statistics of a flat window: no change, no spread, no momentum, and no change
      agreeing with the (bearish) trend. */
  lemma FlatWindowAnalysis(w: seq<real>, c: real, tf: Timeframe, sd: real)
    requires 2 <= |w| && 0.0 < c && Constant(w, c)
    requires IsStdDev(Changes(w), sd)
    ensures Analyse(w, tf, sd) == Analysis(Changes(w), 0.0, 0.0, Bearish, 0.0)
    ensures CountAgreeing(Changes(w), Bearish) == 0
  {
    var changes := Changes(w);
    FlatChangesAreZero(w, c);
    FlatChangesStatistics(changes);
    assert sd == 0.0 by {
      assert sd * sd == PriceSeries.Variance(changes);
      ZeroSquare(sd);
    }
    NoneAgreeWithFlat(changes, Bearish);
  }

  lemma FlatChangesAreZero(w: seq<real>, c: real)
    requires 0.0 < c && Constant(w, c)
    ensures AllPositive(w) && Constant(Changes(w), 0.0)
  {
    assert AllPositive(w);
    var changes := Changes(w);
    forall i | 0 <= i < |changes|
      ensures changes[i] == 0.0
    {
      assert w[i + 1] == c && w[i] == c;
      ZeroOver(w[i + 1] - w[i], w[i]);
    }
  }

  lemma ZeroOver(d: real, x: real)
    requires d == 0.0 && x != 0.0
    ensures d / x == 0.0
  {
  }

  lemma FlatChangesStatistics(changes: seq<real>)
    requires 0 < |changes| && Constant(changes, 0.0)
    ensures AverageOrZero(changes) == 0.0 && Momentum(changes) == 0.0
    ensures PriceSeries.Variance(changes) == 0.0
  {
    SumOfZeros(changes);
    var h := |changes| / 2;
    SumOfZeros(changes[h..]);
    SumOfZeros(changes[..h]);
    assert PriceSeries.Mean(changes) == 0.0;
    PriceSeries.DeviationOfConstant(changes, 0.0);
  }

  /** A flat chart (at least two equal prices) yields the neutral outlook: bearish,
      confidence 60, risk 1, rise probability 50, sentiment 50, the price itself as the
      prediction and as both support and resistance. */
  lemma FlatChartOutlook(chart: seq<real>, totalVolume: real, tf: Timeframe, sd: real, draws: ForecastDraws)
    requires 2 <= |chart| && 0.0 < chart[0] && AllPositive(chart)
    requires Constant(chart, chart[0])
    requires IsStdDev(Changes(Window(chart)), sd)
    ensures var o := GeneratePrediction(chart, totalVolume, tf, sd, draws).value;
      && o.trend == Bearish
      && o.confidence == Some(60)
      && o.riskScore == 1
      && o.priceIncreaseProb == 50
      && o.sentimentScore == 50.0
      && o.predictedPrice == chart[0]
      && o.support == chart[0] && o.resistance == chart[0]
  {
    var c := chart[0];
    var w := Window(chart);
    WindowKeepsShape(chart, c);
    FlatWindowAnalysis(w, c, tf, sd);
    var a := Analyse(w, tf, sd);
    var o := OutlookOf(w, a, totalVolume, tf, draws);
    assert GeneratePrediction(chart, totalVolume, tf, sd, draws) == Some(o);
    OutlookAtRest(w, c, a, totalVolume, tf, draws);
    assert o.trend == Bearish;
  }

  /** The window of a flat chart of positive prices is flat and positive, with at least
      two prices. */
  lemma WindowKeepsShape(chart: seq<real>, c: real)
    requires 2 <= |chart| && AllPositive(chart) && Constant(chart, c)
    ensures var w := Window(chart); 2 <= |w| && Constant(w, c) && AllPositive(w)
  {
    var w := Window(chart);
    var off := |chart| - |w|;
    forall i | 0 <= i < |w|
      ensures w[i] == c && 0.0 < w[i]
    {
      assert w[i] == chart[off + i];
    }
  }

  /** The window of a rising chart of positive prices rises and is positive. */
  lemma WindowKeepsRising(chart: seq<real>)
    requires AllPositive(chart)
    requires forall i :: 0 <= i < |chart| - 1 ==> chart[i] < chart[i + 1]
    ensures var w := Window(chart);
      AllPositive(w) && forall i :: 0 <= i < |w| - 1 ==> w[i] < w[i + 1]
  {
    var w := Window(chart);
    var off := |chart| - |w|;
    forall i | 0 <= i < |w|
      ensures 0.0 < w[i]
    {
      assert w[i] == chart[off + i];
    }
    forall i | 0 <= i < |w| - 1
      ensures w[i] < w[i + 1]
    {
      assert w[i] == chart[off + i] && w[i + 1] == chart[off + i + 1];
    }
  }

  lemma OutlookAtRest(w: seq<real>, c: real, a: Analysis, totalVolume: real, tf: Timeframe, draws: ForecastDraws)
    requires 0 < |w| && 0.0 < c && Constant(w, c) && AllPositive(w)
    requires 0 < |a.changes| && CountAgreeing(a.changes, a.trend) == 0
    requires a.avg == 0.0 && a.volatility == 0.0 && a.momentum == 0.0 && a.trend == Bearish
    ensures var o := OutlookOf(w, a, totalVolume, tf, draws);
      && o.confidence == Some(60)
      && o.riskScore == 1
      && o.priceIncreaseProb == 50
      && o.sentimentScore == 50.0
      && o.predictedPrice == c
      && o.support == c && o.resistance == c
  {
    var n := |a.changes| as real;
    assert Consistency(a) == Some(0.0) by {
      assert (0 as real) / n == 0.0;
    }
    ScoresAtRest(tf);
    assert PredictedChange(0.0, 0.0, 0.0, tf, draws.change) == 0.0;
    assert w[|w| - 1] == c;
    assert PriceSeries.MinOf(w) == c && PriceSeries.MaxOf(w) == c;
    assert 0.0 * PredictionMultiplier(tf) == 0.0;
  }

  /** With no change, no momentum and no spread every score sits at its resting value. */
  lemma ScoresAtRest(tf: Timeframe)
    ensures ConfidenceScore(0.0, 0.0, tf) == 60
    ensures RiskScore(0.0, tf) == 1
    ensures IncreaseProbability(0.0, 0.0, tf) == 50
    ensures SentimentScore(0.0, 0.0, tf) == 50.0
  {
    assert Round(0.0) == 0 && Round(50.0) == 50;
  }

  /** A strictly rising window is bullish, every change agrees with the trend, and the
      mean change is positive. */
  lemma RisingWindowIsBullish(chart: seq<real>)
    requires 2 <= |chart| && AllPositive(chart)
    requires forall i :: 0 <= i < |chart| - 1 ==> chart[i] < chart[i + 1]
    ensures var w := Window(chart);
      var changes := Changes(w);
      && TrendOf(w) == Bullish
      && CountAgreeing(changes, Bullish) == |changes|
      && AverageOrZero(changes) > 0.0
  {
    var w := Window(chart);
    WindowKeepsRising(chart);
    RisingFromFirst(w, |w| - 1);
    RisingChangesPositive(w);
    AllAgree(Changes(w));
    SumOfPositives(Changes(w));
  }

  lemma RisingChangesPositive(w: seq<real>)
    requires AllPositive(w)
    requires forall i :: 0 <= i < |w| - 1 ==> w[i] < w[i + 1]
    ensures forall i :: 0 <= i < |Changes(w)| ==> Changes(w)[i] > 0.0
  {
    var changes := Changes(w);
    forall i | 0 <= i < |changes|
      ensures changes[i] > 0.0
    {
      Trading.PositiveDivision(w[i + 1] - w[i], w[i]);
    }
  }

  lemma {:induction false} RisingFromFirst(w: seq<real>, k: int)
    requires 0 <= k < |w|
    requires forall i :: 0 <= i < |w| - 1 ==> w[i] < w[i + 1]
    ensures 0 < k ==> w[0] < w[k]
    decreases k
  {
    if 1 < k {
      RisingFromFirst(w, k - 1);
    }
  }

  lemma {:induction false} AllAgree(xs: seq<real>)
    requires forall i :: 0 <= i < |xs| ==> xs[i] > 0.0
    ensures CountAgreeing(xs, Bullish) == |xs|
    decreases |xs|
  {
    if 0 < |xs| {
      AllAgree(xs[..|xs| - 1]);
    }
  }

  lemma {:induction false} SumOfPositives(xs: seq<real>)
    requires forall i :: 0 <= i < |xs| ==> xs[i] > 0.0
    ensures 0 < |xs| ==> PriceSeries.Sum(xs) > 0.0
    ensures 0 < |xs| ==> AverageOrZero(xs) > 0.0
    decreases |xs|
  {
    if 0 < |xs| {
      SumOfPositives(xs[..|xs| - 1]);
      Trading.PositiveDivision(PriceSeries.Sum(xs), |xs| as real);
    }
  }
}

=== FILE: lists.dfy ===
/** `Array.prototype.filter` and the facts about it the list views rely on: it keeps
    exactly the elements that pass, in their original order, each as often as before. */
module Lists {

  /** `r` can be obtained from `s` by deleting elements: what is left keeps its relative
      order. */
  predicate Subsequence<T(==)>(r: seq<T>, s: seq<T>)
    decreases |s|
  {
    |r| == 0
    || (0 < |s|
        && ((r[|r| - 1] == s[|s| - 1] && Subsequence(r[..|r| - 1], s[..|s| - 1]))
            || Subsequence(r, s[..|s| - 1])))
  }

  /** Every list is a subsequence of itself. */
  lemma {:induction false} SubsequenceOfItself<T>(s: seq<T>)
    ensures Subsequence(s, s)
    decreases |s|
  {
    if 0 < |s| {
      SubsequenceOfItself(s[..|s| - 1]);
    }
  }

  function Filter<T(==,!new)>(p: T -> bool, s: seq<T>): (r: seq<T>)
    ensures |r| <= |s|
    ensures forall i :: 0 <= i < |r| ==> p(r[i])
    ensures forall x :: x in r <==> x in s && p(x)
    ensures forall x :: multiset(r)[x] == if p(x) then multiset(s)[x] else 0
    ensures Subsequence(r, s)
    decreases |s|
  {
    if |s| == 0 then []
    else
      var rest := Filter(p, s[..|s| - 1]);
      assert s == s[..|s| - 1] + [s[|s| - 1]];
      if p(s[|s| - 1]) then rest + [s[|s| - 1]] else rest
  }

  /** Filtering a concatenation filters each part: the kept elements stay in order. */
  lemma {:induction false} FilterConcat<T(!new)>(p: T -> bool, s: seq<T>, t: seq<T>)
    ensures Filter(p, s + t) == Filter(p, s) + Filter(p, t)
    decreases |t|
  {
    if |t| == 0 {
      assert s + t == s;
    } else {
      var t' := t[..|t| - 1];
      assert (s + t)[..|s + t| - 1] == s + t';
      assert (s + t)[|s + t| - 1] == t[|t| - 1];
      FilterConcat(p, s, t');
    }
  }

  /** Filtering a single element keeps it exactly when it passes. */
  lemma FilterSingleton<T(!new)>(p: T -> bool, x: T)
    ensures Filter(p, [x]) == if p(x) then [x] else []
  {
    assert [x][..0] == [];
  }

  /** A filter every element passes keeps the whole list. */
  lemma {:induction false} FilterKeepsAll<T(!new)>(p: T -> bool, s: seq<T>)
    requires forall i :: 0 <= i < |s| ==> p(s[i])
    ensures Filter(p, s) == s
    decreases |s|
  {
    if 0 < |s| {
      var init, last := s[..|s| - 1], s[|s| - 1];
      assert s == init + [last];
      assert p(last);
      assert forall i :: 0 <= i < |init| ==> p(init[i]) by {
        forall i | 0 <= i < |init|
          ensures p(init[i])
        {
          assert init[i] == s[i];
        }
      }
      FilterKeepsAll(p, init);
      assert Filter(p, s) == Filter(p, init) + [last];
    }
  }

  /** Filtering twice by the same test changes nothing more. */
  lemma FilterIdempotent<T(!new)>(p: T -> bool, s: seq<T>)
    ensures Filter(p, Filter(p, s)) == Filter(p, s)
  {
    FilterKeepsAll(p, Filter(p, s));
  }
}

=== FILE: market.dfy ===
/** The market list page: which market is shown, the search and category filters, the
    column sort and its toggle, pagination and the page-number strip, the access rule for
    locked items, the five-minute cache freshness test, and the view state read back from
    storage. */
module Market {
  import opened Wrappers
  import Text
  import Sorting
  import Lists

  /** One row of a market list; the sortable columns are numbers except `name`. */
  datatype Coin = Coin(
    name: string,
    symbol: string,
    marketCapRank: real,
    currentPrice: real,
    change24h: real,
    marketCap: real,
    totalVolume: real)

  datatype SortField = MarketCapRank | Name | CurrentPrice | Change24h | MarketCap | TotalVolume

  datatype SortConfig = SortConfig(key: SortField, direction: Sorting.Direction)

  const ITEMS_PER_PAGE: nat := 20

  /** The page opens sorted by market cap, largest first. */
  const INITIAL_SORT: SortConfig := SortConfig(MarketCap, Sorting.Descending)

  function FieldKey(field: SortField): Coin -> Sorting.Key {
    (c: Coin) =>
      match field
      case MarketCapRank => Sorting.NumKey(c.marketCapRank)
      case Name => Sorting.TextKey(c.name)
      case CurrentPrice => Sorting.NumKey(c.currentPrice)
      case Change24h => Sorting.NumKey(c.change24h)
      case MarketCap => Sorting.NumKey(c.marketCap)
      case TotalVolume => Sorting.NumKey(c.totalVolume)
  }

  /** `requestSort`: clicking the column that is sorted ascending turns it descending;
      any other click sorts the clicked column ascending. */
  function RequestSort(cfg: SortConfig, field: SortField): (r: SortConfig)
    ensures r.key == field
    ensures r.direction == Sorting.Descending <==> (cfg.key == field && cfg.direction == Sorting.Ascending)
  {
    if cfg.key == field && cfg.direction == Sorting.Ascending then SortConfig(field, Sorting.Descending)
    else SortConfig(field, Sorting.Ascending)
  }

  /** Clicking the same column again always reverses the direction. */
  lemma RequestSortAlternates(cfg: SortConfig, field: SortField)
    ensures RequestSort(RequestSort(cfg, field), field).direction != RequestSort(cfg, field).direction
    ensures RequestSort(RequestSort(RequestSort(cfg, field), field), field) == RequestSort(cfg, field)
  {
  }

  datatype MarketKind = Crypto | TechStocks | OilGasStocks

  /** `getCurrentMarketData`'s switch on the stored market name. */
  function MarketOf(active: string): (m: MarketKind)
    ensures m == TechStocks <==> active == "tech-stocks"
    ensures m == OilGasStocks <==> active == "oil-gas-stocks"
  {
    if active == "tech-stocks" then TechStocks
    else if active == "oil-gas-stocks" then OilGasStocks
    else Crypto
  }

  function CurrentMarketData(active: string, crypto: seq<Coin>, tech: seq<Coin>, oilGas: seq<Coin>): (r: seq<Coin>)
    ensures MarketOf(active) == Crypto ==> r == crypto
    ensures MarketOf(active) == TechStocks ==> r == tech
    ensures MarketOf(active) == OilGasStocks ==> r == oilGas
  {
    match MarketOf(active)
    case Crypto => crypto
    case TechStocks => tech
    case OilGasStocks => oilGas
  }

  /** The search keeps a row whose lower-cased name or symbol contains the lower-cased term. */
  predicate MatchesSearch(c: Coin, term: string) {
    Text.Contains(Text.ToLower(c.name), Text.ToLower(term))
    || Text.Contains(Text.ToLower(c.symbol), Text.ToLower(term))
  }

  /** The category filter: "gainers" keeps rising rows, "losers" falling ones, any other
      value keeps everything. */
  predicate InCategory(c: Coin, category: string) {
    if category == "gainers" then c.change24h > 0.0
    else if category == "losers" then c.change24h < 0.0
    else true
  }

  /** The search filter: with a term, the rows whose name or symbol mentions it, in
      market order; without one, every row. */
  function SearchFilter(items: seq<Coin>, term: string): (r: seq<Coin>)
    ensures forall c :: c in r <==> c in items && (term == "" || MatchesSearch(c, term))
    ensures forall c :: multiset(r)[c] == if term == "" || MatchesSearch(c, term) then multiset(items)[c] else 0
    ensures Lists.Subsequence(r, items)
  {
    if term != "" then Lists.Filter(c => MatchesSearch(c, term), items)
    else
      Lists.SubsequenceOfItself(items);
      items
  }

  function CategoryFilter(items: seq<Coin>, category: string): (r: seq<Coin>)
    ensures forall c :: c in r <==> c in items && InCategory(c, category)
    ensures forall c :: multiset(r)[c] == if InCategory(c, category) then multiset(items)[c] else 0
    ensures Lists.Subsequence(r, items)
    ensures category != "gainers" && category != "losers" ==> r == items
  {
    if category == "gainers" || category == "losers" then Lists.Filter(c => InCategory(c, category), items)
    else
      Lists.SubsequenceOfItself(items);
      items
  }

  /** Rows passing both the search and the category filter. */
  predicate Selected(c: Coin, term: string, category: string) {
    (term == "" || MatchesSearch(c, term)) && InCategory(c, category)
  }

  /** `getSortedAndFilteredData`: the rows of the market that pass the search and the
      category filter, each as often as it occurs, ordered by the sort column in the sort
      direction. */
  function SortedAndFiltered(items: seq<Coin>, term: string, category: string, cfg: SortConfig): (r: seq<Coin>)
    ensures forall c :: c in r <==> c in items && Selected(c, term, category)
    ensures forall c :: multiset(r)[c] == if Selected(c, term, category) then multiset(items)[c] else 0
    ensures Sorting.Sorted(r, FieldKey(cfg.key), cfg.direction)
  {
    if |items| == 0 then []
    else
      var searched := SearchFilter(items, term);
      var filtered := CategoryFilter(searched, category);
      Sorting.SortBy(filtered, FieldKey(cfg.key), cfg.direction)
  }

  /** An empty search and the "all" category leave the list a reordering of the market. */
  lemma NoFilterKeepsEveryRow(items: seq<Coin>, cfg: SortConfig)
    ensures multiset(SortedAndFiltered(items, "", "all", cfg)) == multiset(items)
  {
    var r := SortedAndFiltered(items, "", "all", cfg);
    assert forall c :: multiset(r)[c] == multiset(items)[c];
  }

  /** JavaScript's `s.slice(start, end)`: negative bounds count from the end, and both
      bounds are clamped to the list. */
  function SliceBound(n: int, i: int): (b: int)
    requires 0 <= n
    ensures 0 <= b <= n
  {
    if i < 0 then (if n + i < 0 then 0 else n + i) else if i > n then n else i
  }

  function JsSlice<T>(s: seq<T>, start: int, end: int): (r: seq<T>)
    ensures |r| <= |s|
  {
    var a := SliceBound(|s|, start);
    var b := SliceBound(|s|, end);
    if a < b then s[a..b] else []
  }

  /** The rows shown on page `page` (pages count from 1). */
  function CurrentItems<T>(items: seq<T>, page: int): (r: seq<T>)
    ensures |r| <= ITEMS_PER_PAGE
    ensures 1 <= page ==> r == items[Min((page - 1) * ITEMS_PER_PAGE, |items|)..Min(page * ITEMS_PER_PAGE, |items|)]
  {
    var last := page * ITEMS_PER_PAGE;
    JsSlice(items, last - ITEMS_PER_PAGE, last)
  }

  function Min(a: int, b: int): int {
    if a < b then a else b
  }

  /** `Math.ceil(n / 20)`. */
  function TotalPages(n: nat): (p: nat)
    ensures (p - 1) * ITEMS_PER_PAGE < n <= p * ITEMS_PER_PAGE || (n == 0 && p == 0)
  {
    (n + ITEMS_PER_PAGE - 1) / ITEMS_PER_PAGE
  }

  /** Row `k` of the list is shown on page `k / 20 + 1`, at position `k % 20`, and that
      page is one of the `TotalPages` pages. */
  lemma EveryRowHasAPage<T>(items: seq<T>, k: nat)
    requires k < |items|
    ensures var page := k / ITEMS_PER_PAGE + 1;
      && page <= TotalPages(|items|)
      && k % ITEMS_PER_PAGE < |CurrentItems(items, page)|
      && CurrentItems(items, page)[k % ITEMS_PER_PAGE] == items[k]
  {
    var page := k / ITEMS_PER_PAGE + 1;
    assert (page - 1) * ITEMS_PER_PAGE + k % ITEMS_PER_PAGE == k;
  }

  /** Pages past the last one are empty. */
  lemma PagesPastTheEndAreEmpty<T>(items: seq<T>, page: int)
    requires TotalPages(|items|) < page
    ensures CurrentItems(items, page) == []
  {
  }

  /** The page-number strip: 1, the last page, and the pages next to the current one. */
  predicate ShownPageNumber(n: int, totalPages: int, current: int) {
    n == 1 || n == totalPages || (current - 1 <= n && n <= current + 1)
  }

  function PageNumbersFrom(k: int, totalPages: int, current: int): (r: seq<int>)
    requires 1 <= k
    ensures forall i :: 0 <= i < |r| ==> k <= r[i] <= totalPages
    ensures forall n :: n in r <==> k <= n <= totalPages && ShownPageNumber(n, totalPages, current)
    ensures forall i, j :: 0 <= i < j < |r| ==> r[i] < r[j]
    decreases totalPages - k
  {
    if totalPages < k then []
    else if ShownPageNumber(k, totalPages, current) then [k] + PageNumbersFrom(k + 1, totalPages, current)
    else PageNumbersFrom(k + 1, totalPages, current)
  }

  /** The numbers on the strip: exactly the shown pages among 1..totalPages, increasing. */
  function PageNumbers(totalPages: int, current: int): (r: seq<int>)
    ensures forall n :: n in r <==> 1 <= n <= totalPages && ShownPageNumber(n, totalPages, current)
    ensures forall i, j :: 0 <= i < j < |r| ==> r[i] < r[j]
  {
    PageNumbersFrom(1, totalPages, current)
  }

  /** The strip never holds more than five numbers. */
  lemma PageStripIsShort(totalPages: int, current: int)
    ensures |PageNumbers(totalPages, current)| <= 5
  {
    var r := PageNumbers(totalPages, current);
    var allowed := {1, totalPages, current - 1, current, current + 1};
    forall i | 0 <= i < |r|
      ensures r[i] in allowed
    {
      assert r[i] in r;
    }
    DistinctWithin(r, allowed);
    assert |allowed| <= 5;
  }

  /** A strictly increasing list drawn from a set is no longer than the set. */
  lemma {:induction false} DistinctWithin(r: seq<int>, allowed: set<int>)
    requires forall i :: 0 <= i < |r| ==> r[i] in allowed
    requires forall i, j :: 0 <= i < j < |r| ==> r[i] < r[j]
    ensures |r| <= |allowed|
    decreases |r|
  {
    if 0 < |r| {
      var last := r[|r| - 1];
      var rest := r[..|r| - 1];
      assert forall i :: 0 <= i < |rest| ==> rest[i] in allowed - {last} by {
        forall i | 0 <= i < |rest|
          ensures rest[i] in allowed - {last}
        {
          assert rest[i] == r[i] && r[i] < r[|r| - 1];
        }
      }
      DistinctWithin(rest, allowed - {last});
    }
  }

  /** What the strip renders for one entry: a numbered button or a "..." marker. */
  datatype PageItem = PageButton(n: int) | Ellipsis

  /** The strip as rendered: a number whose predecessor on the strip is more than one
      lower is drawn as "..." in its place, so that page gets no button. The first entry
      has no predecessor (`indexOf` minus one reads `undefined`, and the comparison is
      false). */
  function RenderedStripAsWritten(strip: seq<int>): (r: seq<PageItem>)
    ensures |r| == |strip|
    ensures forall i :: 0 <= i < |r| ==> r[i] == PageButton(strip[i]) || r[i] == Ellipsis
  {
    seq(|strip|, i requires 0 <= i < |strip| =>
      if 1 < strip[i] && 0 < i && strip[i - 1] < strip[i] - 1 then Ellipsis else PageButton(strip[i]))
  }

  /** The gap marker that goes in front of the last number: present when the number
      before it is more than one lower. */
  function GapBeforeLast(strip: seq<int>): seq<PageItem>
    requires 0 < |strip|
  {
    if 2 <= |strip| && strip[|strip| - 2] < strip[|strip| - 1] - 1 then [Ellipsis] else []
  }

  /** The strip as evidently intended: every number gets its button, with a "..." in
      front of each number that skips pages. */
  function RenderedStrip(strip: seq<int>): (r: seq<PageItem>)
    ensures |strip| <= |r| < 2 * |strip| || |strip| == |r| == 0
    decreases |strip|
  {
    if |strip| == 0 then []
    else
      var init := strip[..|strip| - 1];
      var rest := RenderedStrip(init);
      assert strip == init + [strip[|strip| - 1]];
      rest + GapBeforeLast(strip) + [PageButton(strip[|strip| - 1])]
  }

  /** The page numbers of a rendered strip, reading its buttons from left to right. */
  function Buttons(items: seq<PageItem>): seq<int>
    decreases |items|
  {
    if |items| == 0 then []
    else
      var last := items[|items| - 1];
      Buttons(items[..|items| - 1]) + (if last.PageButton? then [last.n] else [])
  }

  lemma {:induction false} ButtonsConcat(a: seq<PageItem>, b: seq<PageItem>)
    ensures Buttons(a + b) == Buttons(a) + Buttons(b)
    decreases |b|
  {
    if |b| == 0 {
      assert a + b == a;
    } else {
      assert (a + b)[..|a + b| - 1] == a + b[..|b| - 1];
      ButtonsConcat(a, b[..|b| - 1]);
    }
  }

  /** Reading the buttons of the rendered strip gives back the strip: every number on it
      is clickable, in order. */
  lemma {:induction false} RenderedStripShowsEveryPage(strip: seq<int>)
    ensures Buttons(RenderedStrip(strip)) == strip
    decreases |strip|
  {
    if 0 < |strip| {
      var init := strip[..|strip| - 1];
      var x := strip[|strip| - 1];
      assert strip == init + [x];
      RenderedStripShowsEveryPage(init);
      var gap := GapBeforeLast(strip);
      ButtonsConcat(RenderedStrip(init) + gap, [PageButton(x)]);
      ButtonsConcat(RenderedStrip(init), gap);
      assert Buttons(gap) == [] by {
        if gap != [] {
          assert gap[..0] == [];
        }
      }
      assert Buttons([PageButton(x)]) == [x] by {
        assert [PageButton(x)][..0] == [];
      }
    }
  }

  /** On page 5 of 10 the strip holds 1, 4, 5, 6 and 10. */
  lemma StripOnPageFiveOfTen()
    ensures PageNumbers(10, 5) == [1, 4, 5, 6, 10]
  {
    assert PageNumbersFrom(11, 10, 5) == [];
    assert PageNumbersFrom(10, 10, 5) == [10];
    assert PageNumbersFrom(9, 10, 5) == [10];
    assert PageNumbersFrom(8, 10, 5) == [10];
    assert PageNumbersFrom(7, 10, 5) == [10];
    assert PageNumbersFrom(6, 10, 5) == [6, 10];
    assert PageNumbersFrom(5, 10, 5) == [5, 6, 10];
    assert PageNumbersFrom(4, 10, 5) == [4, 5, 6, 10];
    assert PageNumbersFrom(3, 10, 5) == [4, 5, 6, 10];
    assert PageNumbersFrom(2, 10, 5) == [4, 5, 6, 10];
  }

  /** As written, page 5 of 10 renders 4 and 10 as "...": neither the last page nor the
      page before the current one can be clicked. */
  lemma LastPageHiddenAsWritten()
    ensures var w := RenderedStripAsWritten(PageNumbers(10, 5));
      PageButton(10) !in w && PageButton(4) !in w && w[1] == Ellipsis && w[4] == Ellipsis
  {
    StripOnPageFiveOfTen();
    var strip := [1, 4, 5, 6, 10];
    var w := RenderedStripAsWritten(strip);
    assert w[1] == Ellipsis && w[4] == Ellipsis;
    assert w[0] == PageButton(1) && w[2] == PageButton(5) && w[3] == PageButton(6);
    forall i | 0 <= i < |w|
      ensures w[i] != PageButton(10) && w[i] != PageButton(4)
    {
    }
  }

  /** The intended rendering of page 5 of 10 offers a button for the last page and for
      the page before the current one. */
  lemma LastPageShown()
    ensures var r := RenderedStrip(PageNumbers(10, 5));
      PageButton(10) in r && PageButton(4) in r
  {
    StripOnPageFiveOfTen();
    var r := RenderedStrip([1, 4, 5, 6, 10]);
    RenderedStripShowsEveryPage([1, 4, 5, 6, 10]);
    ButtonIsInStrip(r, 10);
    ButtonIsInStrip(r, 4);
  }

  /** A number read off the buttons has a button. */
  lemma {:induction false} ButtonIsInStrip(items: seq<PageItem>, n: int)
    requires n in Buttons(items)
    ensures PageButton(n) in items
    decreases |items|
  {
    var init := items[..|items| - 1];
    var last := items[|items| - 1];
    assert items == init + [last];
    if n in Buttons(init) {
      ButtonIsInStrip(init, n);
    }
  }

  /** `isItemAccessible`: admins and subscribers see every row; anyone else sees only a
      row whose symbol is present and lower-cases to "btc". */
  predicate IsAccessible(isAdmin: bool, isSubscribed: bool, symbol: Option<string>) {
    isAdmin || isSubscribed || (Text.Truthy(symbol) && Text.ToLower(symbol.value) == "btc")
  }

  /** Bitcoin is open to everyone whatever the case of its symbol; a locked user sees no
      row with another symbol. */
  lemma OnlyBitcoinIsFree(symbol: Option<string>)
    ensures IsAccessible(false, false, Some("BTC")) && IsAccessible(false, false, Some("btc"))
    ensures IsAccessible(false, false, Some("Btc"))
    ensures IsAccessible(false, false, symbol) <==> (symbol.Some? && Text.ToLower(symbol.value) == "btc")
  {
    assert Text.ToLower("BTC") == "btc";
    assert Text.ToLower("Btc") == "btc";
    assert Text.ToLower("btc") == "btc";
  }

  // ----- Cache and stored view state -----

  /** `Number.parseInt` on a string of the form digits-then-anything: the leading digits,
      or nothing (NaN) when the string does not start with a digit. */
  function ParseIntPrefix(s: string): (r: Option<nat>)
    ensures r.None? <==> (|s| == 0 || !Text.IsDigit(s[0]))
  {
    var k := LeadingDigits(s, 0);
    if k == 0 then None else Some(Text.ParseNat(s[..k]))
  }

  function LeadingDigits(s: string, i: nat): (k: nat)
    requires i <= |s|
    requires forall j :: 0 <= j < i ==> Text.IsDigit(s[j])
    ensures i <= k <= |s|
    ensures forall j :: 0 <= j < k ==> Text.IsDigit(s[j])
    ensures k < |s| ==> !Text.IsDigit(s[k])
    decreases |s| - i
  {
    if i < |s| && Text.IsDigit(s[i]) then LeadingDigits(s, i + 1) else i
  }

  const CACHE_TTL_MS: int := 5 * 60 * 1000

  /** The cached list is used when both the data and its timestamp are stored and the
      timestamp is less than five minutes old; an unparsable timestamp never is. */
  predicate CacheFresh(cachedData: Option<string>, cachedTimestamp: Option<string>, now: int) {
    && Text.Truthy(cachedData)
    && Text.Truthy(cachedTimestamp)
    && var t := ParseIntPrefix(cachedTimestamp.value);
       t.Some? && now - t.value < CACHE_TTL_MS
  }

  /** A timestamp written as the decimal time of the store is fresh for exactly five minutes. */
  lemma CacheFreshForFiveMinutes(data: string, storedAt: nat, now: int)
    requires data != ""
    ensures CacheFresh(Some(data), Some(Text.NatToString(storedAt)), now) <==> now < storedAt + CACHE_TTL_MS
  {
    var s := Text.NatToString(storedAt);
    Text.ParseNatToString(storedAt);
    assert s[..|s|] == s;
    assert LeadingDigits(s, 0) == |s|;
  }

  datatype ViewState = ViewState(activeMarket: string, isSubscribed: bool, isAdmin: bool, sort: SortConfig, page: int, category: string)

  /** The view state the page starts from, read from storage: the saved market or
      "crypto", subscribed only for the exact string "true", admin whenever an admin token
      key exists (even an empty one), the default sort, page 1 and every category. */
  function InitialView(storage: map<string, string>): (v: ViewState)
    ensures v.activeMarket == (if "activeMarket" in storage && storage["activeMarket"] != "" then storage["activeMarket"] else "crypto")
    ensures v.isSubscribed <==> ("isSubscribed" in storage && storage["isSubscribed"] == "true")
    ensures v.isAdmin <==> "adminToken" in storage
    ensures v.sort == INITIAL_SORT && v.page == 1 && v.category == "all"
  {
    var get := (k: string) => if k in storage then Some(storage[k]) else None;
    ViewState(
      Text.OrNull(get("activeMarket")).GetOr("crypto"),
      get("isSubscribed") == Some("true"),
      get("adminToken").Some?,
      INITIAL_SORT,
      1,
      "all")
  }
}

=== FILE: numbers.dfy ===
/** Powers of two, for the doubling retry delays of the backend and the client. */
module Numbers {

  function Pow2(k: nat): (p: nat)
    ensures 1 <= p
  {
    if k == 0 then 1 else 2 * Pow2(k - 1)
  }

  /** Doubling `a` times and then `b` times is doubling `a + b` times. */
  lemma {:induction false} Pow2Add(a: nat, b: nat)
    ensures Pow2(a + b) == Pow2(a) * Pow2(b)
    decreases a
  {
    if 0 < a {
      Pow2Add(a - 1, b);
      assert Pow2(a + b) == 2 * Pow2(a - 1 + b);
    }
  }

  lemma MulAssociates(x: int, y: int, z: int)
    ensures x * (y * z) == (x * y) * z
  {
  }

  /** Multiplying a natural number by a positive factor does not make it smaller. */
  lemma MulAtLeast(a: nat, b: nat)
    requires 1 <= b
    ensures a <= a * b
  {
    assert a * b == a * (b - 1) + a;
  }
}

=== FILE: portfolio.dfy ===
/** The portfolio page: the performance chart (a random walk over the chosen period), the
    total value, the allocation shares, the value-weighted change, and the three best
    performers. The random draws are parameters. */
module Portfolio {
  import opened Wrappers
  import Sorting

  datatype Asset = Asset(name: string, symbol: string, amount: real, value: real, change: real)

  /** The assets the page loads: five holdings, all empty. */
  const MOCK_ASSETS: seq<Asset> := [
    Asset("Bitcoin", "BTC", 0.0, 0.0, 0.0),
    Asset("Ethereum", "ETH", 0.0, 0.0, 0.0),
    Asset("Solana", "SOL", 0.0, 0.0, 0.0),
    Asset("Apple Inc.", "AAPL", 0.0, 0.0, 0.0),
    Asset("Tesla", "TSLA", 0.0, 0.0, 0.0)]

  // ---------------------------------------------------------------------------------
  // The performance chart

  /** The days a period label covers; an unknown label covers a week. */
  function DaysFor(period: string): (days: nat)
    ensures period == "1D" ==> days == 1
    ensures period == "1M" ==> days == 30
    ensures period == "3M" ==> days == 90
    ensures period == "1Y" ==> days == 365
    ensures period == "ALL" ==> days == 730
    ensures period !in {"1D", "1M", "3M", "1Y", "ALL"} ==> days == 7
  {
    match period
    case "1D" => 1
    case "1W" => 7
    case "1M" => 30
    case "3M" => 90
    case "1Y" => 365
    case "ALL" => 730
    case _ => 7
  }

  const START_VALUE := 35000.0

  /** One step of the walk from a draw in [0, 1): between -225 and 275, biased upwards. */
  function Step(draw: real): (d: real)
    requires 0.0 <= draw < 1.0
    ensures -225.0 <= d < 275.0
  {
    (draw - 0.45) * 500.0
  }

  predicate ValidDraws(draws: seq<real>) {
    forall k :: 0 <= k < |draws| ==> 0.0 <= draws[k] < 1.0
  }

  /** The sum of the first `n` steps. */
  function Walked(draws: seq<real>, n: nat): real
    requires n <= |draws| && ValidDraws(draws)
  {
    if n == 0 then 0.0 else Walked(draws, n - 1) + Step(draws[n - 1])
  }

  /** After `n` steps the walk has moved at least 225·n down and less than 275·n up. */
  lemma {:induction false} WalkedBounds(draws: seq<real>, n: nat)
    requires n <= |draws| && ValidDraws(draws)
    ensures -225.0 * (n as real) <= Walked(draws, n)
    ensures 0 < n ==> Walked(draws, n) < 275.0 * (n as real)
  {
    if n > 0 {
      WalkedBounds(draws, n - 1);
    }
  }

  /** A chart point: how many days before today, and the portfolio value. */
  datatype ChartPoint = ChartPoint(daysAgo: nat, value: real)

  /** `generateMockChartData`: one point per day from `days` days ago up to today, each
      value the previous one plus a random step. */
  method MockChart(period: string, draws: seq<real>) returns (points: seq<ChartPoint>)
    requires |draws| == DaysFor(period) + 1 && ValidDraws(draws)
    ensures |points| == DaysFor(period) + 1
    ensures forall k :: 0 <= k < |points| ==> points[k].daysAgo == DaysFor(period) - k
    ensures forall k :: 0 <= k < |points| ==> points[k].value == START_VALUE + Walked(draws, k + 1)
    ensures forall k :: 1 <= k < |points| ==> -225.0 <= points[k].value - points[k - 1].value < 275.0
    ensures points[|points| - 1].daysAgo == 0
  {
    var days := DaysFor(period);
    var value := START_VALUE;
    points := [];
    var i := days as int;
    while i >= 0
      invariant -1 <= i <= days
      invariant |points| == days - i
      invariant value == START_VALUE + Walked(draws, |points|)
      invariant forall k :: 0 <= k < |points| ==> points[k].daysAgo == days - k
      invariant forall k :: 0 <= k < |points| ==> points[k].value == START_VALUE + Walked(draws, k + 1)
      decreases i
    {
      value := value + Step(draws[|points|]);
      points := points + [ChartPoint(i as nat, value)];
      i := i - 1;
    }
  }

  // ---------------------------------------------------------------------------------
  // Totals and shares

  function Total(assets: seq<Asset>): real {
    if |assets| == 0 then 0.0 else Total(assets[..|assets| - 1]) + assets[|assets| - 1].value
  }

  predicate NonNegativeValues(assets: seq<Asset>) {
    forall k :: 0 <= k < |assets| ==> 0.0 <= assets[k].value
  }

  lemma {:induction false} TotalNonNegative(assets: seq<Asset>)
    requires NonNegativeValues(assets)
    ensures 0.0 <= Total(assets)
  {
    if |assets| > 0 {
      TotalNonNegative(assets[..|assets| - 1]);
    }
  }

  /** The share of one asset in the legend, in percent: none when the portfolio is
      empty (the legend then shows "0"). */
  function Allocation(a: Asset, total: real): (share: Option<real>)
    ensures share.Some? <==> total > 0.0
    ensures share.Some? && 0.0 <= a.value <= total ==> 0.0 <= share.value <= 100.0
  {
    if total > 0.0 then
      DivisionBounds(a.value, total);
      Some(a.value / total * 100.0)
    else None
  }

  lemma DivisionBounds(x: real, t: real)
    requires t > 0.0
    ensures 0.0 <= x <= t ==> 0.0 <= x / t <= 1.0
    ensures x / t * t == x
  {
  }

  /** A non-negative value over a positive total is a non-negative share. */
  lemma QuotientNonNegative(x: real, t: real)
    requires 0.0 <= x && 0.0 < t
    ensures 0.0 <= x / t
  {
    assert x / t * t == x;
  }

  /** The sum of the first `n` assets' shares, before the factor of 100. */
  function Shares(assets: seq<Asset>, total: real, n: nat): real
    requires n <= |assets| && total > 0.0
  {
    if n == 0 then 0.0 else Shares(assets, total, n - 1) + assets[n - 1].value / total
  }

  lemma {:induction false} SharesOfPrefix(assets: seq<Asset>, total: real, n: nat)
    requires n <= |assets| && total > 0.0
    ensures Shares(assets, total, n) == Total(assets[..n]) / total
  {
    if n > 0 {
      SharesOfPrefix(assets, total, n - 1);
      assert assets[..n][..n - 1] == assets[..n - 1];
      SumOverDivisor(Total(assets[..n - 1]), assets[n - 1].value, total);
    }
  }

  lemma SumOverDivisor(x: real, y: real, t: real)
    requires t != 0.0
    ensures x / t + y / t == (x + y) / t
  {
  }

  /** The legend's shares add up to the whole portfolio. */
  lemma SharesAddUpToWhole(assets: seq<Asset>)
    requires Total(assets) > 0.0
    ensures Shares(assets, Total(assets), |assets|) == 1.0
  {
    SharesOfPrefix(assets, Total(assets), |assets|);
    assert assets[..|assets|] == assets;
    assert Total(assets) / Total(assets) == 1.0;
  }

  /** The value-weighted change: each asset's change times its share of the total. An
      empty portfolio with holdings listed divides by zero, which gives no number. */
  function WeightedChange(assets: seq<Asset>): (w: Option<real>)
    ensures w.None? <==> |assets| > 0 && Total(assets) == 0.0
  {
    if |assets| == 0 then Some(0.0)
    else if Total(assets) == 0.0 then None
    else Some(WeightedShares(assets, Total(assets), |assets|))
  }

  function WeightedShares(assets: seq<Asset>, total: real, n: nat): real
    requires n <= |assets| && total != 0.0
  {
    if n == 0 then 0.0 else WeightedShares(assets, total, n - 1) + assets[n - 1].change * (assets[n - 1].value / total)
  }

  predicate ChangesWithin(assets: seq<Asset>, lo: real, hi: real) {
    forall k :: 0 <= k < |assets| ==> lo <= assets[k].change <= hi
  }

  /** With non-negative values, the weighted sum of the first `n` assets lies between the
      smallest and largest change times their share. */
  lemma {:induction false} WeightedSharesBounds(assets: seq<Asset>, total: real, n: nat, lo: real, hi: real)
    requires n <= |assets| && total > 0.0
    requires NonNegativeValues(assets) && ChangesWithin(assets, lo, hi)
    ensures lo * Shares(assets, total, n) <= WeightedShares(assets, total, n) <= hi * Shares(assets, total, n)
  {
    if n > 0 {
      WeightedSharesBounds(assets, total, n - 1, lo, hi);
      WeightedSharesStep(assets, total, n, lo, hi);
    }
  }

  /** The bounds carry from the first `n - 1` assets to the first `n`. */
  lemma WeightedSharesStep(assets: seq<Asset>, total: real, n: nat, lo: real, hi: real)
    requires 0 < n <= |assets| && total > 0.0
    requires 0.0 <= assets[n - 1].value && lo <= assets[n - 1].change <= hi
    requires lo * Shares(assets, total, n - 1) <= WeightedShares(assets, total, n - 1) <= hi * Shares(assets, total, n - 1)
    ensures lo * Shares(assets, total, n) <= WeightedShares(assets, total, n) <= hi * Shares(assets, total, n)
  {
    var a := assets[n - 1];
    QuotientNonNegative(a.value, total);
    SharesStep(assets, total, n);
    StepBounds(lo, hi, Shares(assets, total, n - 1), WeightedShares(assets, total, n - 1), a.value / total, a.change,
               Shares(assets, total, n), WeightedShares(assets, total, n));
  }

  /** One more holding adds its share to both running sums. */
  lemma SharesStep(assets: seq<Asset>, total: real, n: nat)
    requires 0 < n <= |assets| && total > 0.0
    ensures Shares(assets, total, n) == Shares(assets, total, n - 1) + assets[n - 1].value / total
    ensures WeightedShares(assets, total, n)
      == WeightedShares(assets, total, n - 1) + assets[n - 1].change * (assets[n - 1].value / total)
  {
  }

  /** Adding one more holding's weighted change keeps the running bounds. */
  lemma StepBounds(lo: real, hi: real, s: real, w: real, share: real, c: real, s': real, w': real)
    requires lo * s <= w <= hi * s && 0.0 <= share && lo <= c <= hi
    requires s' == s + share && w' == w + c * share
    ensures lo * s' <= w' <= hi * s'
  {
    MulMonotone(lo, c, share);
    MulMonotone(c, hi, share);
    AddBounds(lo, hi, s, w, share, c * share);
  }

  lemma AddBounds(lo: real, hi: real, s: real, w: real, d: real, e: real)
    requires lo * s <= w <= hi * s && lo * d <= e <= hi * d
    ensures lo * (s + d) <= w + e <= hi * (s + d)
  {
    assert lo * (s + d) == lo * s + lo * d;
    assert hi * (s + d) == hi * s + hi * d;
  }

  lemma MulMonotone(x: real, y: real, c: real)
    requires x <= y && 0.0 <= c
    ensures x * c <= y * c
  {
    assert y * c - x * c == (y - x) * c;
  }

  /** The portfolio's change is an average: it lies between the smallest and the largest
      change of its holdings. */
  lemma WeightedChangeIsAnAverage(assets: seq<Asset>, lo: real, hi: real)
    requires NonNegativeValues(assets) && ChangesWithin(assets, lo, hi)
    requires Total(assets) > 0.0
    ensures lo <= WeightedChange(assets).value <= hi
  {
    WeightedSharesBounds(assets, Total(assets), |assets|, lo, hi);
    SharesAddUpToWhole(assets);
  }

  /** A portfolio whose holdings are all worth nothing totals zero. */
  lemma {:induction false} EmptyHoldingsTotalZero(assets: seq<Asset>)
    requires forall k :: 0 <= k < |assets| ==> assets[k].value == 0.0
    ensures Total(assets) == 0.0
  {
    if |assets| > 0 {
      EmptyHoldingsTotalZero(assets[..|assets| - 1]);
    }
  }

  /** The assets the page loads are all empty: the total is zero, every legend share is
      shown as "0", and the weighted change is not a number. */
  lemma MockPortfolioHasNoChange()
    ensures Total(MOCK_ASSETS) == 0.0
    ensures WeightedChange(MOCK_ASSETS).None?
    ensures forall k :: 0 <= k < |MOCK_ASSETS| ==> Allocation(MOCK_ASSETS[k], Total(MOCK_ASSETS)).None?
  {
    EmptyHoldingsTotalZero(MOCK_ASSETS);
  }

  // ---------------------------------------------------------------------------------
  // Top performers

  function ChangeKey(a: Asset): Sorting.Key {
    Sorting.NumKey(a.change)
  }

  function Min(a: int, b: int): int {
    if a < b then a else b
  }

  /** The three assets with the largest change, largest first; ties keep list order. */
  function TopPerformers(assets: seq<Asset>): (top: seq<Asset>)
    ensures |top| == Min(3, |assets|)
    ensures multiset(top) <= multiset(assets)
  {
    var sorted := Sorting.SortBy(assets, ChangeKey, Sorting.Descending);
    var k := Min(3, |assets|);
    assert sorted == sorted[..k] + sorted[k..];
    sorted[..k]
  }

  /** When every holding has the same change, as the mock holdings (all 0) do, the top
      performers are the first three holdings in list order: the sort is stable. */
  lemma TiedTopPerformersKeepListOrder(assets: seq<Asset>, c: real)
    requires forall i :: 0 <= i < |assets| ==> assets[i].change == c
    ensures TopPerformers(assets) == assets[..Min(3, |assets|)]
  {
    var sorted := Sorting.SortBy(assets, ChangeKey, Sorting.Descending);
    forall j | 0 <= j < |sorted|
      ensures ChangeKey(sorted[j]) == Sorting.NumKey(c)
    {
      assert sorted[j] in multiset(assets);
    }
    Sorting.SortByIsStable(assets, ChangeKey, Sorting.Descending, Sorting.NumKey(c));
    Sorting.AllWithKey(sorted, ChangeKey, Sorting.NumKey(c));
    Sorting.AllWithKey(assets, ChangeKey, Sorting.NumKey(c));
  }

  /** The top performers are listed largest change first. */
  lemma TopPerformersDescend(assets: seq<Asset>)
    ensures var top := TopPerformers(assets);
      forall i, j :: 0 <= i < j < |top| ==> top[j].change <= top[i].change
  {
    var sorted := Sorting.SortBy(assets, ChangeKey, Sorting.Descending);
    var k := Min(3, |assets|);
    forall i, j | 0 <= i < j < k
      ensures sorted[j].change <= sorted[i].change
    {
      LaterIsNotLarger(sorted, i, j);
    }
  }

  /** No asset left out of the top performers has a larger change than any of them. */
  lemma TopPerformersAreTheBest(assets: seq<Asset>, a: Asset)
    requires a in assets && multiset(TopPerformers(assets))[a] < multiset(assets)[a]
    ensures forall i :: 0 <= i < |TopPerformers(assets)| ==> a.change <= TopPerformers(assets)[i].change
  {
    var sorted := Sorting.SortBy(assets, ChangeKey, Sorting.Descending);
    var k := Min(3, |assets|);
    assert TopPerformers(assets) == sorted[..k];
    var j := LeftOutIsLater(sorted, k, a);
    forall i | 0 <= i < k
      ensures a.change <= sorted[i].change
    {
      LaterIsNotLarger(sorted, i, j);
    }
  }

  /** An element occurring more often in the whole list than in its first `k` elements
      occurs at some position from `k` on. */
  lemma LeftOutIsLater<T>(s: seq<T>, k: nat, x: T) returns (j: nat)
    requires k <= |s| && multiset(s[..k])[x] < multiset(s)[x]
    ensures k <= j < |s| && s[j] == x
  {
    assert s == s[..k] + s[k..];
    assert multiset(s) == multiset(s[..k]) + multiset(s[k..]);
    assert x in multiset(s[k..]);
    var d :| 0 <= d < |s[k..]| && s[k..][d] == x;
    j := k + d;
  }

  /** In the list sorted by change, largest first, a later asset's change is not larger. */
  lemma LaterIsNotLarger(sorted: seq<Asset>, i: int, j: int)
    requires Sorting.Sorted(sorted, ChangeKey, Sorting.Descending)
    requires 0 <= i < j < |sorted|
    ensures sorted[j].change <= sorted[i].change
  {
    assert !Sorting.Precedes(ChangeKey(sorted[j]), ChangeKey(sorted[i]), Sorting.Descending);
  }
}

=== FILE: predict_slice.dfy ===
/** The prediction slice of the Redux store: the two backend requests (previous
    predictions, next price), the retry-and-throttle helper they go through, and the
    reducer that stores their results. The clock, the time each request takes and the
    server's answers are parameters. */
module PredictSlice {
  import opened Wrappers
  import opened Numbers
  import Text

  /** Least time between the starts of two requests, in milliseconds. */
  const MIN_REQUEST_INTERVAL := 1000
  /** Defaults of the retry helper. */
  const RETRY_DELAY := 1000
  const MAX_RETRIES := 3
  const RATE_LIMITED := "Rate limit exceeded. Please wait a moment and try again."
  const PREDICT_FAILED := "Failed to predict next price"
  const FETCH_FAILED := "Failed to fetch predictions"

  /** The backend's JSON answer, as far as the slice reads it. */
  datatype PredictionData = PredictionData(actuals: Option<seq<real>>, predictions: Option<seq<real>>, predictedPrice: Option<real>)

  /** How one request ends: with the server's data, or with an error that carries the
      HTTP status of the answer (absent when there was none) and its `message`. */
  datatype Outcome = Success(data: PredictionData) | Failure(status: Option<int>, message: Option<string>)

  /** One request and the time it takes. */
  datatype Attempt = Attempt(outcome: Outcome, duration: nat)

  predicate RateLimited(a: Attempt) {
    a.outcome.Failure? && a.outcome.status == Some(429)
  }

  /** How the retry helper ends: it returns the data, returns nothing, or throws the
      error of a request. */
  datatype RetryEnd = Returned(data: PredictionData) | ReturnedNothing | Threw(status: Option<int>, message: Option<string>)

  /** The end, the start time of every request made, the helper's last-request time
      afterwards, and the time it finishes. */
  datatype RetryRun = RetryRun(end: RetryEnd, starts: seq<int>, lastRequestTime: int, finish: int)

  /** Attempts `i` to `retries - 1` of the retry helper, starting at time `clock` with
      the previous request started at `last`. Before each request it waits until
      `MIN_REQUEST_INTERVAL` has passed since the previous one. A 429 answer waits
      `delay * 2^i` and tries again; any other failure throws on the final attempt and
      otherwise waits `delay`. With `rethrowFinal429` a 429 on the final attempt throws
      as well; without it (the code as written) the helper then returns nothing. */
  function RetryFrom(attempts: seq<Attempt>, i: nat, retries: nat, delay: nat, clock: int, last: int, rethrowFinal429: bool)
    : (r: RetryRun)
    requires i <= retries <= |attempts|
    ensures |r.starts| <= retries - i
    ensures |r.starts| == 0 <==> i == retries
    ensures forall k :: i <= k < i + |r.starts| - 1 ==> attempts[k].outcome.Failure?
    ensures r.end.Returned? <==> 0 < |r.starts| && attempts[i + |r.starts| - 1].outcome.Success?
    ensures r.end.Returned? ==> attempts[i + |r.starts| - 1].outcome.data == r.end.data
    ensures r.end.Threw? ==>
      (0 < |r.starts| == retries - i && attempts[retries - 1].outcome == Failure(r.end.status, r.end.message))
    ensures r.end.ReturnedNothing? ==> |r.starts| == retries - i
    ensures r.end.ReturnedNothing? && 0 < |r.starts| ==> RateLimited(attempts[retries - 1]) && !rethrowFinal429
    ensures !rethrowFinal429 && r.end.Threw? ==> r.end.status != Some(429)
    decreases retries - i
  {
    if i == retries then RetryRun(ReturnedNothing, [], last, clock)
    else
      var start := NextStart(clock, last);
      var done := start + attempts[i].duration;
      match attempts[i].outcome
      case Success(data) => RetryRun(Returned(data), [start], start, done)
      case Failure(status, message) =>
        if GivesUp(status, i, retries, rethrowFinal429) then RetryRun(Threw(status, message), [start], start, done)
        else
          var rest := RetryFrom(attempts, i + 1, retries, delay, done + Backoff(status, i, delay), start, rethrowFinal429);
          RetryRun(rest.end, [start] + rest.starts, rest.lastRequestTime, rest.finish)
  }

  /** When the next request starts: now, or once `MIN_REQUEST_INTERVAL` has passed since
      the previous one. */
  function NextStart(clock: int, last: int): (start: int)
    ensures clock <= start && last + MIN_REQUEST_INTERVAL <= start
    ensures start == clock || start == last + MIN_REQUEST_INTERVAL
  {
    if clock - last < MIN_REQUEST_INTERVAL then last + MIN_REQUEST_INTERVAL else clock
  }

  /** The helper throws a failed request's error on the final attempt, except (as
      written) a 429's. */
  predicate GivesUp(status: Option<int>, i: nat, retries: nat, rethrowFinal429: bool) {
    i == retries - 1 && (status != Some(429) || rethrowFinal429)
  }

  /** The wait after a failed request: doubling from `delay` for a 429, `delay` otherwise. */
  function Backoff(status: Option<int>, i: nat, delay: nat): (w: nat)
    ensures status == Some(429) ==> w == delay * Pow2(i)
    ensures status != Some(429) ==> w == delay
  {
    if status == Some(429) then delay * Pow2(i) else delay
  }

  /** Each further 429 doubles the wait: `j` attempts later it is `2^j` times as long,
      and never shorter. */
  lemma RateLimitWaitsGrow(i: nat, j: nat, delay: nat)
    ensures Backoff(Some(429), i + j, delay) == Backoff(Some(429), i, delay) * Pow2(j)
    ensures Backoff(Some(429), i, delay) <= Backoff(Some(429), i + j, delay)
  {
    Pow2Add(i, j);
    MulAssociates(delay, Pow2(i), Pow2(j));
    MulAtLeast(delay * Pow2(i), Pow2(j));
  }

  /** Each request of the helper starts no earlier than the clock and at least
      `MIN_REQUEST_INTERVAL` after the one before it, and the helper's last-request time
      afterwards is the start of its final request. */
  lemma {:induction false} RetryStartsAreSpaced(attempts: seq<Attempt>, i: nat, retries: nat, delay: nat, clock: int, last: int, rethrowFinal429: bool)
    requires i <= retries <= |attempts|
    ensures var r := RetryFrom(attempts, i, retries, delay, clock, last, rethrowFinal429);
      (0 < |r.starts| ==> clock <= r.starts[0] && last + MIN_REQUEST_INTERVAL <= r.starts[0])
      && (forall k :: 0 <= k < |r.starts| - 1 ==> r.starts[k] + MIN_REQUEST_INTERVAL <= r.starts[k + 1])
      && r.lastRequestTime == if |r.starts| == 0 then last else r.starts[|r.starts| - 1]
    decreases retries - i
  {
    if i < retries && attempts[i].outcome.Failure? {
      var status := attempts[i].outcome.status;
      if !GivesUp(status, i, retries, rethrowFinal429) {
        var start := NextStart(clock, last);
        var done := start + attempts[i].duration;
        RetryStartsAreSpaced(attempts, i + 1, retries, delay, done + Backoff(status, i, delay), start, rethrowFinal429);
      }
    }
  }

  /** The request body: the symbol upper-cased, the timeframe "24h" unless given. */
  datatype Request = Request(symbol: string, timeframe: string)

  function RequestFor(symbol: string, timeframe: Option<string>): (q: Request)
    ensures forall k :: 0 <= k < |q.symbol| ==> !Text.IsLower(q.symbol[k])
    ensures |q.symbol| == |symbol|
    ensures timeframe.Some? ==> q.timeframe == timeframe.value
    ensures timeframe.None? ==> q.timeframe == "24h"
  {
    Request(Text.ToUpper(symbol), timeframe.GetOr("24h"))
  }

  /** A request's outcome as the store sees it: the body sent, the data or the rejection
      message, and the retry run behind it. */
  datatype RequestRun = RequestRun(request: Request, result: Result<PredictionData, string>, run: RetryRun)

  /** The message of an error the request code catches: the answer's truthy `message`,
      otherwise the fallback. */
  function ErrorMessage(message: Option<string>, fallback: string): (m: string)
    ensures Text.Truthy(message) ==> m == message.value
    ensures !Text.Truthy(message) ==> m == fallback
  {
    if Text.Truthy(message) then message.value else fallback
  }

  /** `FetchLastPredictions`. Should the helper return nothing, reading `.data` of it
      throws an error without an answer, which rejects with the fallback. */
  function FetchLastPredictions(symbol: string, timeframe: Option<string>, attempts: seq<Attempt>, clock: int, last: int)
    : (r: RequestRun)
    requires MAX_RETRIES <= |attempts|
    ensures r.request == RequestFor(symbol, timeframe)
    ensures r.result.Ok? <==> r.run.end.Returned?
    ensures r.result.Ok? ==> r.result.value == r.run.end.data
    ensures r.result.Err? ==> r.result.error != ""
    ensures r.run.end.ReturnedNothing? ==> r.result == Err(FETCH_FAILED)
  {
    var run := RetryFrom(attempts, 0, MAX_RETRIES, RETRY_DELAY, clock, last, false);
    var result := match run.end
      case Returned(data) => Ok(data)
      case ReturnedNothing => Err(FETCH_FAILED)
      case Threw(_, message) => Err(ErrorMessage(message, FETCH_FAILED));
    RequestRun(RequestFor(symbol, timeframe), result, run)
  }

  /** The rejection message of `PredictNextPrice` for a run of the helper. */
  function PredictResult(end: RetryEnd): (r: Result<PredictionData, string>)
    ensures r.Ok? <==> end.Returned?
    ensures end.Threw? && end.status == Some(429) ==> r == Err(RATE_LIMITED)
    ensures r == Err(RATE_LIMITED) ==> end.Threw? && (end.status == Some(429) || end.message == Some(RATE_LIMITED))
    ensures end.ReturnedNothing? ==> r == Err(PREDICT_FAILED)
    ensures r.Err? ==> r.error != ""
  {
    match end
    case Returned(data) => Ok(data)
    case ReturnedNothing => Err(PREDICT_FAILED)
    case Threw(status, message) =>
      if status == Some(429) then Err(RATE_LIMITED)
      else Err(ErrorMessage(message, PREDICT_FAILED))
  }

  /** `PredictNextPrice` as written: a 429 on every attempt leaves the helper returning
      nothing. */
  function PredictNextPriceAsWritten(symbol: string, timeframe: Option<string>, attempts: seq<Attempt>, clock: int, last: int)
    : (r: RequestRun)
    requires MAX_RETRIES <= |attempts|
    ensures r.request == RequestFor(symbol, timeframe)
    ensures r.result.Ok? <==> r.run.end.Returned?
    ensures r.result.Err? ==> r.result.error != ""
  {
    var run := RetryFrom(attempts, 0, MAX_RETRIES, RETRY_DELAY, clock, last, false);
    RequestRun(RequestFor(symbol, timeframe), PredictResult(run.end), run)
  }

  /** `PredictNextPrice` with the helper throwing a 429 on its final attempt, so the
      caller's rate-limit message can be reached. */
  function PredictNextPrice(symbol: string, timeframe: Option<string>, attempts: seq<Attempt>, clock: int, last: int)
    : (r: RequestRun)
    requires MAX_RETRIES <= |attempts|
    ensures r.request == RequestFor(symbol, timeframe)
    ensures r.result.Ok? <==> r.run.end.Returned?
    ensures 1 <= |r.run.starts| <= MAX_RETRIES
    ensures !r.run.end.Returned? && RateLimited(attempts[|r.run.starts| - 1]) ==> r.result == Err(RATE_LIMITED)
    ensures !r.run.end.ReturnedNothing?
  {
    var run := RetryFrom(attempts, 0, MAX_RETRIES, RETRY_DELAY, clock, last, true);
    RequestRun(RequestFor(symbol, timeframe), PredictResult(run.end), run)
  }

  /** Within one call of the helper, its requests start at least `MIN_REQUEST_INTERVAL`
      apart, the first no earlier than that after `last`, the previous request the
      module recorded, and there are at most `MAX_RETRIES` of them. Calls running at
      the same time share that record, so they are not throttled against each other. */
  lemma RequestsAreThrottled(attempts: seq<Attempt>, clock: int, last: int, rethrowFinal429: bool)
    requires MAX_RETRIES <= |attempts|
    ensures var r := RetryFrom(attempts, 0, MAX_RETRIES, RETRY_DELAY, clock, last, rethrowFinal429);
      1 <= |r.starts| <= MAX_RETRIES
      && last + MIN_REQUEST_INTERVAL <= r.starts[0]
      && forall k, m :: 0 <= k < m < |r.starts| ==> r.starts[k] + MIN_REQUEST_INTERVAL * (m - k) <= r.starts[m]
  {
    var r := RetryFrom(attempts, 0, MAX_RETRIES, RETRY_DELAY, clock, last, rethrowFinal429);
    RetryStartsAreSpaced(attempts, 0, MAX_RETRIES, RETRY_DELAY, clock, last, rethrowFinal429);
    forall k, m | 0 <= k < m < |r.starts|
      ensures r.starts[k] + MIN_REQUEST_INTERVAL * (m - k) <= r.starts[m]
    {
      SpacingAccumulates(r.starts, k, m);
    }
  }

  lemma {:induction false} SpacingAccumulates(starts: seq<int>, k: nat, m: nat)
    requires forall j :: 0 <= j < |starts| - 1 ==> starts[j] + MIN_REQUEST_INTERVAL <= starts[j + 1]
    requires k <= m < |starts|
    ensures starts[k] + MIN_REQUEST_INTERVAL * (m - k) <= starts[m]
    decreases m - k
  {
    if k < m {
      SpacingAccumulates(starts, k + 1, m);
    }
  }

  function AllRateLimited(n: nat): seq<Attempt>
  {
    seq(n, _ => Attempt(Failure(Some(429), None), 0))
  }

  /** As written, three 429 answers in a row make the helper return nothing, and the
      request rejects with the generic message instead of the rate-limit one. */
  lemma RateLimitGivesGenericMessageAsWritten(clock: int, last: int)
    ensures var r := PredictNextPriceAsWritten("btc", None, AllRateLimited(MAX_RETRIES), clock, last);
      r.run.end == ReturnedNothing && r.result == Err(PREDICT_FAILED)
  {
    var a := AllRateLimited(MAX_RETRIES);
    assert RateLimited(a[0]) && RateLimited(a[1]) && RateLimited(a[2]);
  }

  /** As written, no sequence of answers makes the request reject with the rate-limit
      message, unless the server's own message happens to be that text. */
  lemma RateLimitMessageUnreachableAsWritten(symbol: string, timeframe: Option<string>, attempts: seq<Attempt>, clock: int, last: int)
    requires MAX_RETRIES <= |attempts|
    ensures var r := PredictNextPriceAsWritten(symbol, timeframe, attempts, clock, last);
      r.result == Err(RATE_LIMITED) ==> r.run.end.Threw? && r.run.end.message == Some(RATE_LIMITED)
  {
  }

  /** With the final 429 thrown, three 429 answers reject with the rate-limit message. */
  lemma RateLimitIsReported(clock: int, last: int)
    ensures PredictNextPrice("btc", None, AllRateLimited(MAX_RETRIES), clock, last).result == Err(RATE_LIMITED)
  {
    var a := AllRateLimited(MAX_RETRIES);
    assert RateLimited(a[0]) && RateLimited(a[1]) && RateLimited(a[2]);
  }

  // ---------------------------------------------------------------------------------
  // The reducer

  datatype PredictState = PredictState(
    predictedNextPrice: Option<real>,
    actuals: seq<real>,
    predictions: seq<real>,
    loading: bool,
    error: Option<string>)

  const INITIAL := PredictState(None, [], [], false, None)

  /** The rejected actions carry the request's rejection value, when there is one. */
  datatype PredictAction =
    | ClearError
    | FetchPending
    | FetchFulfilled(data: PredictionData)
    | FetchRejected(payload: Option<string>)
    | PredictPending
    | PredictFulfilled(data: PredictionData)
    | PredictRejected(payload: Option<string>)

  function Reduce(s: PredictState, a: PredictAction): (r: PredictState)
    ensures a.FetchPending? || a.PredictPending? ==> r.loading && r.error.None?
    ensures a.FetchFulfilled? || a.PredictFulfilled? ==> !r.loading && r.error.None?
    ensures a.FetchRejected? || a.PredictRejected? ==>
      (!r.loading && r.error.Some? && r.error.value != ""
       && r.actuals == s.actuals && r.predictions == s.predictions && r.predictedNextPrice == s.predictedNextPrice)
    ensures a.FetchFulfilled? ==>
      (r.actuals == a.data.actuals.GetOr([]) && r.predictions == a.data.predictions.GetOr([])
       && r.predictedNextPrice == s.predictedNextPrice)
    ensures a.PredictFulfilled? ==>
      (r.predictedNextPrice == a.data.predictedPrice
       && r.actuals == a.data.actuals.GetOr(s.actuals) && r.predictions == a.data.predictions.GetOr(s.predictions))
    ensures a.ClearError? ==> r == s.(error := None)
  {
    match a
    case ClearError => s.(error := None)
    case FetchPending => s.(loading := true, error := None)
    case FetchFulfilled(data) =>
      s.(loading := false, actuals := data.actuals.GetOr([]), predictions := data.predictions.GetOr([]), error := None)
    case FetchRejected(payload) =>
      s.(loading := false, error := Some(if Text.Truthy(payload) then payload.value else "Failed to fetch prediction history"))
    case PredictPending => s.(loading := true, error := None)
    case PredictFulfilled(data) =>
      s.(loading := false, predictedNextPrice := data.predictedPrice,
         actuals := data.actuals.GetOr(s.actuals), predictions := data.predictions.GetOr(s.predictions), error := None)
    case PredictRejected(payload) =>
      s.(loading := false, error := Some(if Text.Truthy(payload) then payload.value else PREDICT_FAILED))
  }

  /** The action the store receives once a prediction request settles. */
  function Settle(r: RequestRun): PredictAction {
    match r.result
    case Ok(data) => PredictFulfilled(data)
    case Err(message) => PredictRejected(Some(message))
  }

  /** A prediction request followed by its settling action: the store shows the
      predicted price when the request succeeds and the rejection message otherwise. */
  lemma PredictRoundTrip(s: PredictState, symbol: string, attempts: seq<Attempt>, clock: int, last: int)
    requires MAX_RETRIES <= |attempts|
    ensures var run := PredictNextPrice(symbol, None, attempts, clock, last);
      var r := Reduce(Reduce(s, PredictPending), Settle(run));
      !r.loading
      && (run.run.end.Returned? ==> r.predictedNextPrice == run.run.end.data.predictedPrice && r.error.None?)
      && (run.result.Err? ==> r.error == Some(run.result.error) && r.predictedNextPrice == s.predictedNextPrice)
  {
  }
}

=== FILE: prediction_dashboard.dfy ===
/** The prediction dashboard's history chart: one row per actual price, named
    "Point 1", "Point 2", …, paired with the prediction at the same position and stamped
    one hour apart, the last an hour before now. The clock is a parameter, in
    milliseconds. */
module PredictionDashboard {
  import opened Wrappers
  import Text
  import PredictionSlice

  const HOUR_MS := 3600000

  datatype ChartRow = ChartRow(name: string, actual: real, predicted: Option<real>, timestamp: int)

  /** What the chart reads from: the fields `actuals` and `predictions`, each possibly
      absent. An empty array is present (JavaScript treats it as true). */
  datatype Source = Source(actuals: Option<seq<real>>, predictions: Option<seq<real>>)

  function PointName(index: nat): (name: string)
    ensures |name| > |"Point "| && name[..|"Point "|] == "Point "
  {
    "Point " + Text.NatToString(index + 1)
  }

  /** The rows of the chart. A prediction list shorter than the actuals leaves the later
      rows without a predicted value. */
  function FormatChartData(src: Source, now: int): (rows: seq<ChartRow>)
    ensures src.actuals.None? || src.predictions.None? ==> rows == []
    ensures src.actuals.Some? && src.predictions.Some? ==> |rows| == |src.actuals.value|
    ensures forall i :: 0 <= i < |rows| ==>
      rows[i].actual == src.actuals.value[i]
      && rows[i].name == PointName(i)
      && rows[i].timestamp == now - (|rows| - i) * HOUR_MS
      && (rows[i].predicted.Some? <==> i < |src.predictions.value|)
      && (i < |src.predictions.value| ==> rows[i].predicted.value == src.predictions.value[i])
  {
    match (src.actuals, src.predictions)
    case (Some(actuals), Some(predictions)) =>
      seq(|actuals|, i requires 0 <= i < |actuals| =>
        ChartRow(PointName(i), actuals[i],
                 if i < |predictions| then Some(predictions[i]) else None,
                 now - (|actuals| - i) * HOUR_MS))
    case _ => []
  }

  /** Every row has its own name. */
  lemma RowNamesAreDistinct(src: Source, now: int, i: int, j: int)
    requires 0 <= i < j < |FormatChartData(src, now)|
    ensures FormatChartData(src, now)[i].name != FormatChartData(src, now)[j].name
  {
    var rows := FormatChartData(src, now);
    if rows[i].name == rows[j].name {
      var p := |"Point "|;
      assert Text.NatToString(i + 1) == rows[i].name[p..];
      assert Text.NatToString(j + 1) == rows[j].name[p..];
      Text.NatToStringInjective(i + 1, j + 1);
    }
  }

  /** The rows are one hour apart, oldest first, and the newest is an hour before now. */
  lemma RowsAreHourly(src: Source, now: int)
    ensures var rows := FormatChartData(src, now);
      (forall i :: 0 < i < |rows| ==> rows[i].timestamp == rows[i - 1].timestamp + HOUR_MS)
      && (|rows| > 0 ==> rows[|rows| - 1].timestamp == now - HOUR_MS)
  {
  }

  /** The history slice stores its predictions as a list, which has neither field: read
      through it, the chart is always empty. */
  function SourceOfHistory<D>(s: PredictionSlice.HistoryState<D>): (src: Source)
    ensures src.actuals.None? && src.predictions.None?
  {
    Source(None, None)
  }

  lemma HistoryChartIsEmpty<D>(s: PredictionSlice.HistoryState<D>, now: int)
    ensures FormatChartData(SourceOfHistory(s), now) == []
  {
  }
}

=== FILE: prediction_slice.dfy ===
/** The prediction-history slice: the latest prediction, the list of predictions newest
    first, and the loading and error flags. A prediction record is opaque to the slice,
    so its type is a parameter. */
module PredictionSlice {
  import opened Wrappers

  datatype HistoryState<D> = HistoryState(predictions: seq<D>, current: Option<D>, loading: bool, error: Option<string>)

  function Initial<D>(): (s: HistoryState<D>)
    ensures s.predictions == [] && s.current.None? && !s.loading && s.error.None?
  {
    HistoryState([], None, false, None)
  }

  /** Fulfilled actions carry the answer's `data` (absent when the answer had none);
      rejected ones the message of the thrown error. */
  datatype HistoryAction<D> =
    | ClearPrediction
    | ClearError
    | FetchPending
    | FetchFulfilled(list: Option<seq<D>>)
    | FetchRejected(message: Option<string>)
    | PredictPending
    | PredictFulfilled(data: Option<D>)
    | PredictRejected(message: Option<string>)

  function Reduce<D>(s: HistoryState<D>, a: HistoryAction<D>): (r: HistoryState<D>)
    ensures a.FetchPending? || a.PredictPending? ==> r.loading && r.error.None? && r.predictions == s.predictions
    ensures a.FetchFulfilled? ==> !r.loading && r.error.None? && r.predictions == a.list.GetOr([])
    ensures a.PredictFulfilled? && a.data.Some? ==> r.predictions == [a.data.value] + s.predictions && r.current == a.data
    ensures a.PredictFulfilled? && a.data.None? ==> r.predictions == s.predictions && r.current.None?
    ensures a.PredictFulfilled? ==> !r.loading && r.error.None?
    ensures a.FetchRejected? || a.PredictRejected? ==>
      !r.loading && r.error == a.message && r.predictions == s.predictions && r.current == s.current
    ensures a.ClearPrediction? ==> r.current.None? && r.error.None? && r.predictions == s.predictions
    ensures a.ClearError? ==> r == s.(error := None)
  {
    match a
    case ClearPrediction => s.(current := None, error := None)
    case ClearError => s.(error := None)
    case FetchPending => s.(loading := true, error := None)
    case FetchFulfilled(list) => s.(loading := false, predictions := list.GetOr([]), error := None)
    case FetchRejected(message) => s.(loading := false, error := message)
    case PredictPending => s.(loading := true, error := None)
    case PredictFulfilled(data) =>
      var predictions := if data.Some? then [data.value] + s.predictions else s.predictions;
      s.(loading := false, current := data, predictions := predictions, error := None)
    case PredictRejected(message) => s.(loading := false, error := message)
  }

  /** A prediction request that succeeds with data: pending, then fulfilled. */
  function Predicted<D>(s: HistoryState<D>, d: D): HistoryState<D> {
    Reduce(Reduce(s, PredictPending), PredictFulfilled(Some(d)))
  }

  /** The state after a run of successful predictions, in the order they arrived. */
  function PredictAll<D>(s: HistoryState<D>, ds: seq<D>): HistoryState<D>
    decreases |ds|
  {
    if |ds| == 0 then s else PredictAll(Predicted(s, ds[0]), ds[1..])
  }

  function Reverse<D>(ds: seq<D>): (r: seq<D>)
    ensures |r| == |ds|
    ensures forall k :: 0 <= k < |ds| ==> r[k] == ds[|ds| - 1 - k]
    decreases |ds|
  {
    if |ds| == 0 then [] else Reverse(ds[1..]) + [ds[0]]
  }

  /** After a run of successful predictions the list holds them newest first, ahead of
      what it held before, and the latest is the current one. */
  lemma {:induction false} HistoryIsNewestFirst<D>(s: HistoryState<D>, ds: seq<D>)
    ensures PredictAll(s, ds).predictions == Reverse(ds) + s.predictions
    ensures |ds| > 0 ==> PredictAll(s, ds).current == Some(ds[|ds| - 1])
    ensures |ds| == 0 ==> PredictAll(s, ds) == s
    decreases |ds|
  {
    if |ds| > 0 {
      var s' := Predicted(s, ds[0]);
      assert s'.predictions == [ds[0]] + s.predictions && s'.current == Some(ds[0]);
      assert PredictAll(s, ds) == PredictAll(s', ds[1..]);
      HistoryIsNewestFirst(s', ds[1..]);
      assert Reverse(ds) == Reverse(ds[1..]) + [ds[0]];
      assert Reverse(ds[1..]) + ([ds[0]] + s.predictions) == (Reverse(ds[1..]) + [ds[0]]) + s.predictions;
      if |ds| > 1 {
        assert ds[1..][|ds[1..]| - 1] == ds[|ds| - 1];
      }
    }
  }
}

=== FILE: price_series.dfy ===
/** Price series of the Predict page: the timestamp layout given to backend actuals and
    predictions, the flat-series test that swaps a backend series for a synthetic one,
    the chart built from accepted actuals, and the synthetic series generator.
    Prices are exact reals; timestamps are integer milliseconds; the clock and every
    random draw are parameters. */
module PriceSeries {
  import opened Wrappers
  import opened Timeframe

  datatype ChartPoint = ChartPoint(time: int, price: real, isPrediction: bool)

  /** Spacing of consecutive backend points: 5 min, 15 min, 1 h, 1 h, and 15 min otherwise. */
  function ActualStep(tf: Timeframe): (ms: int)
    ensures 5 * MINUTE_MS <= ms <= HOUR_MS
  {
    match tf
    case ThirtyMinutes => 5 * MINUTE_MS
    case OneHour => 15 * MINUTE_MS
    case FourHours => HOUR_MS
    case OneDay => HOUR_MS
    case Unrecognised => 15 * MINUTE_MS
  }

  /** `timeframeToInterval`: the history interval code requested from the market-data API. */
  function IntervalCode(tf: Timeframe): string {
    match tf
    case ThirtyMinutes => "m5"
    case OneHour => "m15"
    case FourHours => "h1"
    case OneDay => "h1"
    case Unrecognised => "h1"
  }

  /** Length in milliseconds of the interval codes the client uses. */
  function IntervalCodeMillis(code: string): Option<int> {
    if code == "m5" then Some(5 * MINUTE_MS)
    else if code == "m15" then Some(15 * MINUTE_MS)
    else if code == "h1" then Some(HOUR_MS)
    else None
  }

  /** For the four real timeframes the requested history interval is the very spacing
      the client lays backend points out with; for an unrecognised string it is not
      (an hour requested, fifteen minutes used). */
  lemma IntervalCodeMatchesStep(tf: Timeframe)
    ensures tf != Unrecognised ==> IntervalCodeMillis(IntervalCode(tf)) == Some(ActualStep(tf))
    ensures tf == Unrecognised ==> IntervalCodeMillis(IntervalCode(tf)) != Some(ActualStep(tf))
  {
  }

  /** How far back `getStartTime` reaches: 2 h, 24 h, 7 days, 30 days, and 24 h otherwise. */
  function Lookback(tf: Timeframe): int {
    match tf
    case ThirtyMinutes => 2 * HOUR_MS
    case OneHour => DAY_MS
    case FourHours => 7 * DAY_MS
    case OneDay => 30 * DAY_MS
    case Unrecognised => DAY_MS
  }

  function StartTime(tf: Timeframe, now: int): (t: int)
    ensures t < now
    ensures now - t == Lookback(tf)
  {
    now - Lookback(tf)
  }

  /** The lookback window is a whole number of steps, so with `Lookback / step` actuals
      the next slot after the last one is the present instant. */
  lemma LookbackIsWholeSteps(tf: Timeframe, now: int)
    ensures Lookback(tf) % ActualStep(tf) == 0
    ensures StartTime(tf, now) + (Lookback(tf) / ActualStep(tf)) * ActualStep(tf) == now
  {
  }

  /** `getTimeframeMilliseconds`: the forecast horizon; an unknown timeframe falls back to 1 h. */
  function HorizonMillis(tf: Timeframe): (ms: int)
    ensures 0 < ms
    ensures tf == Unrecognised ==> ms == HOUR_MS
  {
    match tf
    case ThirtyMinutes => 30 * MINUTE_MS
    case OneHour => HOUR_MS
    case FourHours => 4 * HOUR_MS
    case OneDay => DAY_MS
    case Unrecognised => HOUR_MS
  }

  /** Prices laid out `step` apart from `first`. */
  function Spaced(prices: seq<real>, first: int, step: int, isPrediction: bool): (r: seq<ChartPoint>)
    ensures |r| == |prices|
    ensures forall i :: 0 <= i < |r| ==> r[i] == ChartPoint(first + i * step, prices[i], isPrediction)
  {
    seq(|prices|, i requires 0 <= i < |prices| => ChartPoint(first + i * step, prices[i], isPrediction))
  }

  /** `processTimeframeData`: actual `i` sits at `start + i·step`; prediction `j` sits
      `(j+1)` steps after the last actual (after `start` when there is none, or when the
      last actual's timestamp is the falsy 0). */
  function ProcessTimeframeData(actuals: Option<seq<real>>, predictions: Option<seq<real>>,
                                tf: Timeframe, now: int): (r: seq<ChartPoint>)
    ensures |r| == |actuals.GetOr([])| + |predictions.GetOr([])|
    ensures forall i :: 0 <= i < |actuals.GetOr([])| ==>
      r[i] == ChartPoint(StartTime(tf, now) + i * ActualStep(tf), actuals.GetOr([])[i], false)
    ensures forall j :: |actuals.GetOr([])| <= j < |r| ==>
      r[j].isPrediction && r[j].price == predictions.GetOr([])[j - |actuals.GetOr([])|]
    ensures var n := |actuals.GetOr([])|;
      var anchor := if 0 < n && r[n - 1].time != 0 then r[n - 1].time else StartTime(tf, now);
      forall j :: n <= j < |r| ==> r[j].time == anchor + (j - n + 1) * ActualStep(tf)
  {
    var start := StartTime(tf, now);
    var step := ActualStep(tf);
    var acts := Spaced(actuals.GetOr([]), start, step, false);
    var anchor := if 0 < |acts| && acts[|acts| - 1].time != 0 then acts[|acts| - 1].time else start;
    acts + Spaced(predictions.GetOr([]), anchor + step, step, true)
  }

  ghost predicate StrictlyIncreasingTimes(s: seq<ChartPoint>) {
    forall i, j :: 0 <= i < j < |s| ==> s[i].time < s[j].time
  }

  /** `i·step < j·step` for `i < j` and a positive step. */
  lemma MulStrictlyIncreasing(i: int, j: int, step: int)
    requires i < j && 0 < step
    ensures i * step < j * step
  {
    var d := j - i;
    assert j * step == i * step + d * step;
  }

  lemma SpacedIsIncreasing(prices: seq<real>, first: int, step: int, isPrediction: bool)
    requires 0 < step
    ensures StrictlyIncreasingTimes(Spaced(prices, first, step, isPrediction))
  {
    var r := Spaced(prices, first, step, isPrediction);
    forall i, j | 0 <= i < j < |r|
      ensures r[i].time < r[j].time
    {
      MulStrictlyIncreasing(i, j, step);
    }
  }

  /** Two spaced runs joined so that the second starts one step after the first ends
      are, together, strictly increasing. */
  lemma JoinedSpacedIsIncreasing(xs: seq<real>, ys: seq<real>, first: int, second: int, step: int)
    requires 0 < step
    requires second == (if 0 < |xs| then first + (|xs| - 1) * step else first) + step
    ensures StrictlyIncreasingTimes(Spaced(xs, first, step, false) + Spaced(ys, second, step, true))
  {
    var acts := Spaced(xs, first, step, false);
    var preds := Spaced(ys, second, step, true);
    var r := acts + preds;
    var n := |xs|;
    SpacedIsIncreasing(xs, first, step, false);
    SpacedIsIncreasing(ys, second, step, true);
    forall i, j | 0 <= i < j < |r|
      ensures r[i].time < r[j].time
    {
      if j < n {
        assert r[i] == acts[i] && r[j] == acts[j];
      } else if n <= i {
        assert r[i] == preds[i - n] && r[j] == preds[j - n];
      } else {
        assert r[i] == acts[i] && r[j] == preds[j - n];
        MulStrictlyIncreasing(i, n, step);
        if 0 < j - n {
          MulStrictlyIncreasing(0, j - n, step);
        }
      }
    }
  }

  /** The processed series has strictly increasing timestamps exactly unless the last of
      two or more actuals sits at the falsy time 0, in which case the predictions restart
      one step after the start, no later than that actual. Prediction `j` sits `j+1` steps
      after its anchor: the last actual, or the start when there is none. */
  lemma ProcessedSeriesIsOrdered(actuals: Option<seq<real>>, predictions: Option<seq<real>>,
                                 tf: Timeframe, now: int)
    ensures var r := ProcessTimeframeData(actuals, predictions, tf, now);
      var n := |actuals.GetOr([])|;
      && (StrictlyIncreasingTimes(r) <==> !(2 <= n < |r| && r[n - 1].time == 0))
      && (0 < n && r[n - 1].time != 0 ==> forall j :: n <= j < |r| ==> r[j].time == r[n - 1].time + (j - n + 1) * ActualStep(tf))
      && (n == 0 ==> forall j :: 0 <= j < |r| ==> r[j].time == StartTime(tf, now) + (j + 1) * ActualStep(tf))
  {
    var r := ProcessTimeframeData(actuals, predictions, tf, now);
    var n := |actuals.GetOr([])|;
    if 2 <= n < |r| && r[n - 1].time == 0 {
      FalsyAnchorBreaksOrder(actuals, predictions, tf, now);
    } else {
      ProcessedSeriesIncreases(actuals, predictions, tf, now);
    }
  }

  /** Two or more actuals ending at the falsy time 0, followed by a prediction: the first
      prediction is not after the last actual. */
  lemma FalsyAnchorBreaksOrder(actuals: Option<seq<real>>, predictions: Option<seq<real>>,
                               tf: Timeframe, now: int)
    requires var r := ProcessTimeframeData(actuals, predictions, tf, now);
      var n := |actuals.GetOr([])|;
      2 <= n < |r| && r[n - 1].time == 0
    ensures !StrictlyIncreasingTimes(ProcessTimeframeData(actuals, predictions, tf, now))
  {
    var r := ProcessTimeframeData(actuals, predictions, tf, now);
    var n := |actuals.GetOr([])|;
    var start := StartTime(tf, now);
    var step := ActualStep(tf);
    assert start + (n - 1) * step == 0;
    assert r[n].time == start + step;
    NotAfterZero(n, step, start);
    assert !(r[n - 1].time < r[n].time);
  }

  /** Away from the falsy anchor the processed series strictly increases. */
  lemma ProcessedSeriesIncreases(actuals: Option<seq<real>>, predictions: Option<seq<real>>,
                                 tf: Timeframe, now: int)
    requires var r := ProcessTimeframeData(actuals, predictions, tf, now);
      var n := |actuals.GetOr([])|;
      !(2 <= n < |r| && r[n - 1].time == 0)
    ensures StrictlyIncreasingTimes(ProcessTimeframeData(actuals, predictions, tf, now))
  {
    var r := ProcessTimeframeData(actuals, predictions, tf, now);
    var start := StartTime(tf, now);
    var step := ActualStep(tf);
    var xs := actuals.GetOr([]);
    var ys := predictions.GetOr([]);
    var acts := Spaced(xs, start, step, false);
    var n := |xs|;
    var last := if 0 < n then start + (n - 1) * step else start;
    var anchor := if 0 < n && last != 0 then last else start;
    assert r == acts + Spaced(ys, anchor + step, step, true);
    if |ys| == 0 {
      assert r == acts;
      SpacedIsIncreasing(xs, start, step, false);
    } else {
      assert 0 < n ==> r[n - 1].time == last;
      if n == 1 {
        assert last == start;
      }
      assert anchor == last;
      JoinedSpacedIsIncreasing(xs, ys, start, last + step, step);
    }
  }

  /** With `n >= 2` actuals ending at time 0, the start is `-(n-1)·step`, so one step after
      it is still not after 0. */
  lemma NotAfterZero(n: int, step: int, start: int)
    requires 2 <= n && 0 < step && start + (n - 1) * step == 0
    ensures start + step <= 0
  {
    assert start + step == -((n - 2) * step);
    assert 0 <= (n - 2) * step;
  }

  // ----- Flat-series test of the actuals effect -----

  function Sum(xs: seq<real>): real {
    if |xs| == 0 then 0.0 else Sum(xs[..|xs| - 1]) + xs[|xs| - 1]
  }

  function Mean(xs: seq<real>): real
    requires 0 < |xs|
  {
    Sum(xs) / (|xs| as real)
  }

  function SumSquaredDeviation(xs: seq<real>, m: real): (r: real)
    ensures 0.0 <= r
  {
    if |xs| == 0 then 0.0
    else
      var d := xs[|xs| - 1] - m;
      SquareNonNegative(d);
      SumSquaredDeviation(xs[..|xs| - 1], m) + d * d
  }

  lemma SquareNonNegative(d: real)
    ensures 0.0 <= d * d
  {
    if d < 0.0 {
      assert d * d == (-d) * (-d);
    }
  }

  lemma MulPositive(x: real, y: real)
    requires 0.0 < x && 0.0 < y
    ensures 0.0 < x * y
  {
  }

  /** For non-negative reals, comparing squares decides the same as comparing the values. */
  lemma SquaresCompareLikeValues(a: real, b: real)
    requires 0.0 <= a && 0.0 <= b
    ensures a < b <==> a * a < b * b
  {
    if a < b {
      MulPositive(b - a, b + a);
      assert b * b - a * a == (b - a) * (b + a);
    } else if b < a {
      MulPositive(a - b, a + b);
      assert a * a - b * b == (a - b) * (a + b);
    }
  }

  /** Population variance, the square of the host's standard deviation. */
  function Variance(xs: seq<real>): (v: real)
    requires 0 < |xs|
    ensures 0.0 <= v
  {
    SumSquaredDeviation(xs, Mean(xs)) / (|xs| as real)
  }

  function Abs(x: real): real {
    if x < 0.0 then -x else x
  }

  function MaxReal(a: real, b: real): real {
    if a < b then b else a
  }

  function MinReal(a: real, b: real): real {
    if a < b then a else b
  }

  function MinOf(xs: seq<real>): (m: real)
    requires 0 < |xs|
    ensures forall i :: 0 <= i < |xs| ==> m <= xs[i]
    ensures exists i :: 0 <= i < |xs| && m == xs[i]
  {
    if |xs| == 1 then xs[0]
    else
      var m := MinOf(xs[..|xs| - 1]);
      assert forall i :: 0 <= i < |xs| - 1 ==> xs[..|xs| - 1][i] == xs[i];
      MinReal(m, xs[|xs| - 1])
  }

  function MaxOf(xs: seq<real>): (m: real)
    requires 0 < |xs|
    ensures forall i :: 0 <= i < |xs| ==> xs[i] <= m
    ensures exists i :: 0 <= i < |xs| && m == xs[i]
  {
    if |xs| == 1 then xs[0]
    else
      var m := MaxOf(xs[..|xs| - 1]);
      assert forall i :: 0 <= i < |xs| - 1 ==> xs[..|xs| - 1][i] == xs[i];
      MaxReal(m, xs[|xs| - 1])
  }

  /** The variance bound: `max(0.005, 0.5% of |mean|)`, whose square the variance is held against. */
  function FlatnessThreshold(xs: seq<real>): (t: real)
    requires 0 < |xs|
    ensures 0.005 <= t
  {
    MaxReal(0.005, Abs(Mean(xs)) * 0.005)
  }

  /** A backend series too flat or too short to chart: variance below the squared
      threshold, range below 1% of |mean|, or fewer than 10 points. */
  predicate IsDegenerate(xs: seq<real>)
    requires 0 < |xs|
  {
    var t := FlatnessThreshold(xs);
    Variance(xs) < t * t || NarrowRange(xs) || |xs| < 10
  }

  /** The spread between the highest and lowest price is under 1% of |mean|. */
  predicate NarrowRange(xs: seq<real>)
    requires 0 < |xs|
  {
    MaxOf(xs) - MinOf(xs) < Abs(Mean(xs)) * 0.01
  }

  /** Comparing variance with the squared threshold decides exactly what the source's
      comparison of the standard deviation with the threshold decides. */
  lemma DegenerateMatchesStddevTest(xs: seq<real>, stddev: real)
    requires 0 < |xs|
    requires 0.0 <= stddev && stddev * stddev == Variance(xs)
    ensures IsDegenerate(xs) <==> (stddev < FlatnessThreshold(xs) || NarrowRange(xs) || |xs| < 10)
  {
    var t := FlatnessThreshold(xs);
    SquaresCompareLikeValues(stddev, t);
    assert stddev < t <==> Variance(xs) < t * t;
  }

  lemma {:induction false} SumConstant(xs: seq<real>, c: real)
    requires forall i :: 0 <= i < |xs| ==> xs[i] == c
    ensures Sum(xs) == (|xs| as real) * c
    decreases |xs|
  {
    if 0 < |xs| {
      SumConstant(xs[..|xs| - 1], c);
    }
  }

  lemma {:induction false} DeviationOfConstant(xs: seq<real>, c: real)
    requires forall i :: 0 <= i < |xs| ==> xs[i] == c
    ensures SumSquaredDeviation(xs, c) == 0.0
    decreases |xs|
  {
    if 0 < |xs| {
      DeviationOfConstant(xs[..|xs| - 1], c);
    }
  }

  /** A constant series, the typical answer for an illiquid pair, is always rejected. */
  lemma ConstantSeriesIsDegenerate(xs: seq<real>)
    requires 0 < |xs|
    requires forall i :: 0 <= i < |xs| ==> xs[i] == xs[0]
    ensures IsDegenerate(xs)
  {
    SumConstant(xs, xs[0]);
    assert Mean(xs) == xs[0];
    DeviationOfConstant(xs, xs[0]);
    assert Variance(xs) == 0.0;
    var t := FlatnessThreshold(xs);
    assert 0.0 < t * t;
  }

  /** What the effect watching the stored actuals does with them. */
  datatype ChartUpdate = Unchanged | UseSynthetic | Chart(points: seq<ChartPoint>)

  /** Spacing of the chart built from accepted actuals: 30 min, 1 h, 4 h, and 1 h for
      "24h" and anything else. */
  function EffectStep(tf: Timeframe): (ms: int)
    ensures 0 < ms
  {
    match tf
    case ThirtyMinutes => 30 * MINUTE_MS
    case OneHour => HOUR_MS
    case FourHours => 4 * HOUR_MS
    case OneDay => HOUR_MS
    case Unrecognised => HOUR_MS
  }

  /** JavaScript truthiness of an optional number (0 is falsy). */
  predicate TruthyNumber(x: Option<real>) {
    x.Some? && x.value != 0.0
  }

  /** The actuals effect: nothing for an empty list, synthetic data for a degenerate one,
      otherwise actual `i` of `n` at `now - (n-i)·step` followed, when the stored predicted
      price is truthy, by a prediction point one step after the last actual. */
  function ActualsEffect(actuals: seq<real>, predictedNext: Option<real>, tf: Timeframe, now: int): (u: ChartUpdate)
    ensures |actuals| == 0 <==> u == Unchanged
    ensures 0 < |actuals| ==> (u == UseSynthetic <==> IsDegenerate(actuals))
    ensures u.Chart? ==> |u.points| == |actuals| + (if TruthyNumber(predictedNext) then 1 else 0)
    ensures u.Chart? ==> forall i :: 0 <= i < |actuals| ==>
      u.points[i].price == actuals[i] && !u.points[i].isPrediction
  {
    if |actuals| == 0 then Unchanged
    else if IsDegenerate(actuals) then UseSynthetic
    else
      var n := |actuals|;
      var step := EffectStep(tf);
      var pts := seq(n, i requires 0 <= i < n => ChartPoint(now - (n - i) * step, actuals[i], false));
      if TruthyNumber(predictedNext) then
        Chart(pts + [ChartPoint(pts[n - 1].time + step, predictedNext.value, true)])
      else Chart(pts)
  }

  /** The accepted chart is strictly increasing in time, its last actual sits one step
      before `now`, and the prediction point, when there is one, sits exactly at `now`. */
  lemma ActualsChartTiming(actuals: seq<real>, predictedNext: Option<real>, tf: Timeframe, now: int)
    requires ActualsEffect(actuals, predictedNext, tf, now).Chart?
    ensures var pts := ActualsEffect(actuals, predictedNext, tf, now).points;
      && StrictlyIncreasingTimes(pts)
      && pts[|actuals| - 1].time == now - EffectStep(tf)
      && (TruthyNumber(predictedNext) ==> pts[|actuals|].time == now && pts[|actuals|].isPrediction)
  {
    var pts := ActualsEffect(actuals, predictedNext, tf, now).points;
    var n := |actuals|;
    var step := EffectStep(tf);
    forall k | 0 <= k < |pts|
      ensures pts[k].time == now - (n - k) * step
    {
      if k == n {
        assert pts[k].time == now - (n - (n - 1)) * step + step;
      }
    }
    forall i, j | 0 <= i < j < |pts|
      ensures pts[i].time < pts[j].time
    {
      MulStrictlyIncreasing(n - j, n - i, step);
    }
  }

  // ----- Synthetic series -----

  /** Random inputs consumed by one synthetic point: `sine` is the host's `Math.sin(i·freq)`,
      the others are `Math.random()` draws in [0, 1) for the re-rolled trend and amplitude
      (used every tenth point) and for the noise term. */
  datatype Draw = Draw(sine: real, trend: real, amplitude: real, noise: real)

  /** Number of intervals and interval length of the synthetic series. */
  function SyntheticPoints(tf: Timeframe): nat {
    match tf
    case ThirtyMinutes => 60
    case OneHour => 96
    case FourHours => 42
    case OneDay => 30
    case Unrecognised => 96
  }

  function SyntheticInterval(tf: Timeframe): (ms: int)
    ensures 0 < ms
  {
    match tf
    case ThirtyMinutes => 30 * 1000
    case OneHour => 15 * MINUTE_MS
    case FourHours => HOUR_MS
    case OneDay => HOUR_MS
    case Unrecognised => 15 * MINUTE_MS
  }

  /** Noise scale: |24 h change| / 100, or 0.02 when the change is missing or zero. */
  function SyntheticVolatility(change24h: Option<real>): (v: real)
    ensures 0.0 <= v
  {
    if TruthyNumber(change24h) then Abs(change24h.value) / 100.0 else 0.02
  }

  /** `generateRealisticData`: `points + 1` samples from `now - points·interval` up to
      `now`, each price a perturbation of the previous one floored at 0.01, starting from
      95% of the base price; the final sample is then overwritten with the base price. */
  method GenerateRealisticData(basePrice: real, change24h: Option<real>, tf: Timeframe, now: int,
                               firstAmplitude: real, draws: seq<Draw>)
    returns (data: seq<ChartPoint>)
    requires |draws| == SyntheticPoints(tf) + 1
    ensures |data| == SyntheticPoints(tf) + 1
    ensures data[|data| - 1].price == basePrice
    ensures data[|data| - 1].time == now
    ensures forall k :: 0 <= k < |data| - 1 ==> 0.01 <= data[k].price
    ensures forall k :: 0 <= k < |data| ==>
      data[k].time == now - (SyntheticPoints(tf) - k) * SyntheticInterval(tf) && !data[k].isPrediction
    ensures StrictlyIncreasingTimes(data)
  {
    var points := SyntheticPoints(tf);
    var interval := SyntheticInterval(tf);
    var volatility := SyntheticVolatility(change24h);
    var price := basePrice * 0.95;
    var trend := 0.5;
    var amplitude := 0.07 + firstAmplitude * 0.08;
    data := [];
    var k := 0;
    while k <= points
      invariant 0 <= k <= points + 1
      invariant |data| == k
      invariant forall m :: 0 <= m < k ==> 0.01 <= data[m].price
      invariant forall m :: 0 <= m < k ==>
        data[m].time == now - (points - m) * interval && !data[m].isPrediction
    {
      var i := points - k;
      var d := draws[k];
      if i % 10 == 0 {
        trend := d.trend;
        amplitude := 0.07 + d.amplitude * 0.08;
      }
      var sine := d.sine * amplitude;
      var randomChange := (d.noise - 0.5) * volatility * 4.0;
      price := MaxReal(0.01, price * (1.0 + sine + randomChange + (trend - 0.5) * 0.02));
      data := data + [ChartPoint(now - i * interval, price, false)];
      k := k + 1;
    }
    var last := |data| - 1;
    data := data[last := data[last].(price := basePrice)];
    forall a, b | 0 <= a < b < |data|
      ensures data[a].time < data[b].time
    {
      assert data[a].time == now - (points - a) * interval;
      assert data[b].time == now - (points - b) * interval;
    }
  }
}

=== FILE: signup.dfy ===
/** The sign-in / sign-up form: validation, the submit flow (the store's request first,
    then a direct request to the same endpoint when that fails), and the message shown
    on failure. The answers of both requests are parameters. */
module Signup {
  import opened Wrappers
  import Text
  import AuthSlice

  datatype Form = Form(username: string, password: string, confirmPassword: string)

  const EMPTY_FORM := Form("", "", "")

  const FILL_IN := "Please fill in all required fields"
  const MISMATCH := "Passwords do not match"
  const TOO_SHORT := "Password must be at least 6 characters long"

  /** The form's validation: both fields are required; registering also needs the two
      passwords to match and to be at least 6 characters long, checked in that order.
      The length is JavaScript's, counted in UTF-16 code units. */
  function Validate(form: Form, isLogin: bool): (e: Option<string>)
    ensures e == Some(FILL_IN) <==> form.username == "" || form.password == ""
    ensures e.None? <==>
      form.username != "" && form.password != ""
      && (isLogin || (form.password == form.confirmPassword && 6 <= Text.Utf16Length(form.password)))
    ensures e == Some(MISMATCH) <==>
      form.username != "" && form.password != "" && !isLogin && form.password != form.confirmPassword
    ensures e == Some(TOO_SHORT) ==> !isLogin && Text.Utf16Length(form.password) < 6
  {
    if form.username == "" || form.password == "" then Some(FILL_IN)
    else if !isLogin && form.password != form.confirmPassword then Some(MISMATCH)
    else if !isLogin && Text.Utf16Length(form.password) < 6 then Some(TOO_SHORT)
    else None
  }

  /** Three emoji make six UTF-16 code units, so they pass the length check although
      they are only three characters. */
  lemma EmojiCountTwiceTowardsLength()
    ensures var p := "\U{1F600}\U{1F600}\U{1F600}";
      |p| == 3 && Validate(Form("alice", p, p), false).None?
  {
  }

  /** Signing in never checks the confirmation or the length. */
  lemma SignInOnlyNeedsBothFields(form: Form)
    ensures Validate(form, true).None? <==> form.username != "" && form.password != ""
  {
  }

  /** A request made directly with the default client: only 2xx answers succeed; an
      error answer fails with its `detail` or the fallback. */
  function DirectRequest(reply: AuthSlice.Reply, fallback: string): (r: Result<AuthSlice.ReplyData, string>)
    requires fallback != ""
    ensures r.Ok? <==> reply.Answered? && 200 <= reply.status < 300
    ensures r.Ok? ==> r.value == reply.data
    ensures r.Err? ==> r.error != ""
    ensures r.Err? && reply.Answered? && Text.Truthy(reply.data.detail) ==> r.error == reply.data.detail.value
  {
    match reply
    case Answered(status, data) =>
      if 200 <= status < 300 then Ok(data)
      else Err(if Text.Truthy(data.detail) then data.detail.value else fallback)
    case NoAnswer => Err("No response from server. Please check your connection.")
    case NotSent(message) => Err(if Text.Truthy(message) then message.value else fallback)
  }

  /** What the caught error offers to the error handler. */
  datatype CaughtError = CaughtError(responseDataDetail: Option<string>, message: Option<string>, online: bool)

  const GENERIC_ERROR := "An error occurred. Please try again."

  /** The message shown for a caught error: the answer's detail, else the error's
      message, else a connection hint when offline, else a generic message. */
  function ErrorText(e: CaughtError): (m: string)
    ensures Text.Truthy(e.responseDataDetail) ==> m == e.responseDataDetail.value
    ensures !Text.Truthy(e.responseDataDetail) && Text.Truthy(e.message) ==> m == e.message.value
    ensures !Text.Truthy(e.responseDataDetail) && !Text.Truthy(e.message) ==>
      m == (if e.online then GENERIC_ERROR else "Please check your internet connection.")
    ensures m != ""
  {
    if Text.Truthy(e.responseDataDetail) then e.responseDataDetail.value
    else if Text.Truthy(e.message) then e.message.value
    else if !e.online then "Please check your internet connection."
    else GENERIC_ERROR
  }

  /** The errors the submit flow throws are plain errors with a message. */
  function Thrown(message: string, online: bool): CaughtError {
    CaughtError(None, Some(message), online)
  }

  /** How a submit ends. */
  datatype Submitted = Invalid(message: string) | SignedIn(token: string) | Registered | Failed(message: string)

  const NO_TOKEN := "No token received from server"

  /** A successful answer handled on the page: its token is stored, or the submit fails. */
  function LoginSuccess(accessToken: Option<string>, token: Option<string>, storage: map<string, string>)
    : (r: (Submitted, map<string, string>))
    ensures r.0.SignedIn? <==> AuthSlice.PickToken(accessToken, token).Some?
    ensures r.0.SignedIn? ==> r.0.token != "" && r.1 == storage["token" := r.0.token]
    ensures !r.0.SignedIn? ==> r.0 == Failed(NO_TOKEN) && r.1 == storage
  {
    match AuthSlice.PickToken(accessToken, token)
    case Some(t) => (SignedIn(t), storage["token" := t])
    case None => (Failed(NO_TOKEN), storage)
  }

  /** Submitting the form: validation first; then the store's request and, if it
      rejects, a direct request. The failure message is the handler's text for the
      error thrown. */
  function Submit(form: Form, isLogin: bool, storeReply: AuthSlice.Reply, directReply: AuthSlice.Reply,
                  storage: map<string, string>, online: bool)
    : (r: (Submitted, map<string, string>))
    ensures Validate(form, isLogin).Some? ==> r == (Invalid(Validate(form, isLogin).value), storage)
    ensures r.0.SignedIn? ==> isLogin && r.0.token != "" && AuthSlice.GetItem(r.1, "token") == Some(r.0.token)
    ensures r.0.Registered? ==> !isLogin
    ensures r.0.Failed? ==> r.0.message != ""
    ensures Validate(form, isLogin).None? && isLogin && AuthSlice.LoginRequest(form.username, storeReply, storage).0.Ok? ==>
      r.0.SignedIn?
  {
    match Validate(form, isLogin)
    case Some(message) => (Invalid(message), storage)
    case None =>
      if isLogin then
        var (result, storage1) := AuthSlice.LoginRequest(form.username, storeReply, storage);
        match result
        case Ok(p) => LoginSuccess(Some(p.accessToken), None, storage1)
        case Err(_) =>
          match DirectRequest(directReply, "Login failed")
          case Ok(data) =>
            var (outcome, storage2) := LoginSuccess(data.accessToken, data.token, storage1);
            if outcome.Failed? then (Failed(ErrorText(Thrown(outcome.message, online))), storage2)
            else (outcome, storage2)
          case Err(m) => (Failed(ErrorText(Thrown(m, online))), storage1)
      else
        var (result, storage1) := AuthSlice.RegisterRequest(form.username, storeReply, storage);
        match result
        case Ok(_) => (Registered, storage1)
        case Err(_) =>
          match DirectRequest(directReply, "Registration failed")
          case Ok(_) => (Registered, storage1)
          case Err(m) => (Failed(ErrorText(Thrown(m, online))), storage1)
  }

  /** A message thrown by the flow reaches the user unchanged, online or not. */
  lemma ThrownMessageIsShown(message: string, online: bool)
    requires message != ""
    ensures ErrorText(Thrown(message, online)) == message
  {
  }

  /** When the store's login rejects, the direct request decides: a 2xx answer with a
      token signs in with that token, an error answer shows its detail. */
  lemma LoginFallsBackToDirectRequest(form: Form, storeReply: AuthSlice.Reply, directReply: AuthSlice.Reply,
                                      storage: map<string, string>, online: bool)
    requires Validate(form, true).None?
    requires AuthSlice.LoginRequest(form.username, storeReply, storage).0.Err?
    requires directReply.Answered?
    ensures var r := Submit(form, true, storeReply, directReply, storage, online);
      ((200 <= directReply.status < 300 && AuthSlice.PickToken(directReply.data.accessToken, directReply.data.token).Some?)
       ==> r.0 == SignedIn(AuthSlice.PickToken(directReply.data.accessToken, directReply.data.token).value))
      && ((!(200 <= directReply.status < 300) && Text.Truthy(directReply.data.detail))
       ==> r.0 == Failed(directReply.data.detail.value))
  {
  }

  /** An error answer below 500 fulfils the store's registration, so a refused sign-up
      (a 400 "Username already registered", say) shows the success message. */
  lemma RefusedSignUpShowsSuccess(form: Form, directReply: AuthSlice.Reply, storage: map<string, string>, online: bool)
    requires Validate(form, false).None?
    ensures var refused := AuthSlice.Answered(400, AuthSlice.ReplyData(None, None, None, Some("Username already registered"), None));
      Submit(form, false, refused, directReply, storage, online).0 == Registered
  {
  }

  /** The form's local state. */
  datatype View = View(isLogin: bool, form: Form, error: string)

  /** Switching between sign-in and sign-up clears the form and the error. */
  function ToggleAuthMode(v: View): (r: View)
    ensures r.isLogin == !v.isLogin
    ensures r.form == EMPTY_FORM && r.error == ""
  {
    View(!v.isLogin, EMPTY_FORM, "")
  }

  /** Switching twice returns to the same mode, with the form cleared. */
  lemma ToggleTwice(v: View)
    ensures ToggleAuthMode(ToggleAuthMode(v)) == v.(form := EMPTY_FORM, error := "")
  {
  }

  /** Three seconds after a registration: back to sign-in with an empty form. */
  function AfterRegistration(v: View): (r: View)
    ensures r.isLogin && r.form == EMPTY_FORM && r.error == v.error
  {
    v.(isLogin := true, form := EMPTY_FORM)
  }
}

=== FILE: sorting.dfy ===
/** The comparison-based sort the market table and the portfolio's top-performer list use:
    `Array.prototype.sort` with a comparator that answers -1/1/0 from `<` and `>` on one
    field. Keys are numbers or strings; strings compare lexicographically by character code.
    The sort is stable, as the language standard requires of `Array.prototype.sort`;
    the model is an insertion sort that inserts each element after every element it does
    not precede. */
module Sorting {

  datatype Key = NumKey(x: real) | TextKey(s: string)

  datatype Direction = Ascending | Descending

  /** Lexicographic order on strings, by character code (`"a" < "b"`, `"ab" < "abc"`). */
  predicate StrLess(a: string, b: string)
    decreases |a|
  {
    if |a| == 0 then 0 < |b|
    else if |b| == 0 then false
    else if a[0] < b[0] then true
    else if a[0] == b[0] then StrLess(a[1..], b[1..])
    else false
  }

  lemma {:induction false} StrLessIrreflexive(a: string)
    ensures !StrLess(a, a)
    decreases |a|
  {
    if 0 < |a| {
      StrLessIrreflexive(a[1..]);
    }
  }

  lemma {:induction false} StrLessTransitive(a: string, b: string, c: string)
    requires StrLess(a, b) && StrLess(b, c)
    ensures StrLess(a, c)
    decreases |a|
  {
    if 0 < |a| && a[0] == b[0] && b[0] == c[0] {
      StrLessTransitive(a[1..], b[1..], c[1..]);
    }
  }

  /** Any two different strings are ordered one way or the other. */
  lemma {:induction false} StrLessTotal(a: string, b: string)
    requires a != b
    ensures StrLess(a, b) || StrLess(b, a)
    decreases |a|
  {
    if 0 < |a| && 0 < |b| && a[0] == b[0] {
      assert a == [a[0]] + a[1..] && b == [b[0]] + b[1..];
      StrLessTotal(a[1..], b[1..]);
    }
  }

  /** JavaScript's `<` on two keys of the same kind. A column holds keys of one kind
      only; numbers are placed before strings so that the order is total. */
  predicate KeyLess(a: Key, b: Key) {
    match (a, b)
    case (NumKey(x), NumKey(y)) => x < y
    case (TextKey(s), TextKey(t)) => StrLess(s, t)
    case (NumKey(_), TextKey(_)) => true
    case (TextKey(_), NumKey(_)) => false
  }

  lemma KeyLessIrreflexive(a: Key)
    ensures !KeyLess(a, a)
  {
    if a.TextKey? {
      StrLessIrreflexive(a.s);
    }
  }

  lemma KeyLessTransitive(a: Key, b: Key, c: Key)
    requires KeyLess(a, b) && KeyLess(b, c)
    ensures KeyLess(a, c)
  {
    if a.TextKey? && b.TextKey? && c.TextKey? {
      StrLessTransitive(a.s, b.s, c.s);
    }
  }

  lemma KeyLessTotal(a: Key, b: Key)
    requires a != b
    ensures KeyLess(a, b) || KeyLess(b, a)
  {
    if a.TextKey? && b.TextKey? {
      StrLessTotal(a.s, b.s);
    }
  }

  /** The comparator returns -1 for (a, b): a must come before b. */
  predicate Precedes(a: Key, b: Key, dir: Direction) {
    match dir
    case Ascending => KeyLess(a, b)
    case Descending => KeyLess(b, a)
  }

  lemma PrecedesTransitive(a: Key, b: Key, c: Key, dir: Direction)
    requires Precedes(a, b, dir) && Precedes(b, c, dir)
    ensures Precedes(a, c, dir)
  {
    if dir == Ascending {
      KeyLessTransitive(a, b, c);
    } else {
      KeyLessTransitive(c, b, a);
    }
  }

  /** No element is preceded, in the comparator's sense, by a later one. */
  ghost predicate Sorted<T>(s: seq<T>, key: T -> Key, dir: Direction) {
    forall i, j :: 0 <= i < j < |s| ==> !Precedes(key(s[j]), key(s[i]), dir)
  }

  /** Places `x` after every element of `s` it does not precede. */
  function Insert<T>(x: T, s: seq<T>, key: T -> Key, dir: Direction): (r: seq<T>)
    requires Sorted(s, key, dir)
    ensures multiset(r) == multiset(s) + multiset{x}
    ensures Sorted(r, key, dir)
    decreases |s|
  {
    if |s| == 0 then [x]
    else if Precedes(key(x), key(s[0]), dir) then
      PrecedesHeadPrecedesAll(x, s, key, dir);
      PrependKeepsSorted(x, s, key, dir);
      [x] + s
    else
      assert Sorted(s[1..], key, dir);
      var rest := Insert(x, s[1..], key, dir);
      assert s == [s[0]] + s[1..];
      forall e | e in rest
        ensures !Precedes(key(e), key(s[0]), dir)
      {
        assert e in multiset(rest);
        if e != x {
          assert e in multiset(s[1..]);
          assert e in s[1..];
          var j :| 0 <= j < |s[1..]| && s[1..][j] == e;
          assert s[j + 1] == e;
        }
      }
      PrependKeepsSorted(s[0], rest, key, dir);
      [s[0]] + rest
  }

  /** An element that precedes the head of a sorted sequence is preceded by none of it. */
  lemma PrecedesHeadPrecedesAll<T>(x: T, s: seq<T>, key: T -> Key, dir: Direction)
    requires Sorted(s, key, dir)
    requires 0 < |s| && Precedes(key(x), key(s[0]), dir)
    ensures forall e | e in s :: !Precedes(key(e), key(x), dir)
  {
    forall e | e in s
      ensures !Precedes(key(e), key(x), dir)
    {
      var j :| 0 <= j < |s| && s[j] == e;
      if Precedes(key(e), key(x), dir) {
        PrecedesTransitive(key(e), key(x), key(s[0]), dir);
        if j == 0 {
          KeyLessIrreflexive(key(e));
        }
      }
    }
  }

  /** Putting in front of a sorted sequence an element none of it precedes keeps it sorted. */
  lemma PrependKeepsSorted<T>(x: T, s: seq<T>, key: T -> Key, dir: Direction)
    requires Sorted(s, key, dir)
    requires forall e | e in s :: !Precedes(key(e), key(x), dir)
    ensures Sorted([x] + s, key, dir)
  {
    var r := [x] + s;
    forall i, j | 0 <= i < j < |r|
      ensures !Precedes(key(r[j]), key(r[i]), dir)
    {
      if i == 0 {
        assert r[j] == s[j - 1] && s[j - 1] in s;
      }
    }
  }

  /** Stable sort of `s` by `key` in direction `dir`. */
  function SortBy<T>(s: seq<T>, key: T -> Key, dir: Direction): (r: seq<T>)
    ensures multiset(r) == multiset(s)
    ensures |r| == |s|
    ensures Sorted(r, key, dir)
    decreases |s|
  {
    if |s| == 0 then []
    else
      assert s == s[..|s| - 1] + [s[|s| - 1]];
      var r := Insert(s[|s| - 1], SortBy(s[..|s| - 1], key, dir), key, dir);
      assert |multiset(r)| == |multiset(s)|;
      r
  }

  // ----- Stability -----

  /** The elements of `s` whose key is `k`, in list order. */
  function WithKey<T>(s: seq<T>, key: T -> Key, k: Key): seq<T>
    decreases |s|
  {
    if |s| == 0 then []
    else (if key(s[0]) == k then [s[0]] else []) + WithKey(s[1..], key, k)
  }

  lemma {:induction false} WithKeyConcat<T>(s: seq<T>, t: seq<T>, key: T -> Key, k: Key)
    ensures WithKey(s + t, key, k) == WithKey(s, key, k) + WithKey(t, key, k)
    decreases |s|
  {
    if |s| == 0 {
      assert s + t == t;
    } else {
      var y, rest := s[0], s[1..];
      assert s == [y] + rest && s + t == [y] + (rest + t);
      WithKeyConcat(rest, t, key, k);
      WithKeyCons(y, rest + t, key, k);
      WithKeyCons(y, rest, key, k);
      var H := if key(y) == k then [y] else [];
      assert H + (WithKey(rest, key, k) + WithKey(t, key, k)) == (H + WithKey(rest, key, k)) + WithKey(t, key, k);
    }
  }

  /** A list none of whose elements has key `k` has none to keep. */
  lemma {:induction false} NoneWithKey<T>(s: seq<T>, key: T -> Key, k: Key)
    requires forall j :: 0 <= j < |s| ==> key(s[j]) != k
    ensures WithKey(s, key, k) == []
    decreases |s|
  {
    if 0 < |s| {
      assert forall j :: 0 <= j < |s[1..]| ==> s[1..][j] == s[j + 1];
      NoneWithKey(s[1..], key, k);
    }
  }

  /** A list all of whose elements have key `k` keeps all of them. */
  lemma {:induction false} AllWithKey<T>(s: seq<T>, key: T -> Key, k: Key)
    requires forall j :: 0 <= j < |s| ==> key(s[j]) == k
    ensures WithKey(s, key, k) == s
    decreases |s|
  {
    if 0 < |s| {
      assert forall j :: 0 <= j < |s[1..]| ==> s[1..][j] == s[j + 1];
      AllWithKey(s[1..], key, k);
      assert s == [s[0]] + s[1..];
    }
  }

  /** An element that precedes the head of a sorted sequence shares its key with none of it. */
  lemma PrecedesHeadSharesNoKey<T>(x: T, s: seq<T>, key: T -> Key, dir: Direction)
    requires Sorted(s, key, dir)
    requires 0 < |s| && Precedes(key(x), key(s[0]), dir)
    ensures forall j :: 0 <= j < |s| ==> key(s[j]) != key(x)
  {
    forall j | 0 <= j < |s|
      ensures key(s[j]) != key(x)
    {
      if key(s[j]) == key(x) && j == 0 {
        KeyLessIrreflexive(key(x));
      }
    }
  }

  /** Inserting `x` puts it after every element with the same key. */
  lemma {:induction false} InsertIsStable<T>(x: T, s: seq<T>, key: T -> Key, dir: Direction, k: Key)
    requires Sorted(s, key, dir)
    ensures WithKey(Insert(x, s, key, dir), key, k) == WithKey(s, key, k) + WithKey([x], key, k)
    decreases |s|
  {
    if |s| == 0 {
      InsertIntoEmptyIsStable(x, s, key, dir, k);
    } else if Precedes(key(x), key(s[0]), dir) {
      InsertFrontIsStable(x, s, key, dir, k);
    } else {
      var I := InsertAfterHead(x, s, key, dir);
      InsertIsStable(x, s[1..], key, dir, k);
      JoinHead(s[0], s[1..], I, WithKey([x], key, k), key, k);
    }
  }

  lemma InsertIntoEmptyIsStable<T>(x: T, s: seq<T>, key: T -> Key, dir: Direction, k: Key)
    requires s == []
    ensures WithKey(Insert(x, s, key, dir), key, k) == WithKey(s, key, k) + WithKey([x], key, k)
  {
    assert Insert(x, s, key, dir) == [x];
  }

  /** The step case of `InsertIsStable`: a common head in front of a tail and of the
      tail with `x` inserted. */
  lemma JoinHead<T>(y: T, tail: seq<T>, I: seq<T>, C: seq<T>, key: T -> Key, k: Key)
    requires WithKey(I, key, k) == WithKey(tail, key, k) + C
    ensures WithKey([y] + I, key, k) == WithKey([y] + tail, key, k) + C
  {
    WithKeyCons(y, I, key, k);
    WithKeyCons(y, tail, key, k);
    var H := if key(y) == k then [y] else [];
    assert H + (WithKey(tail, key, k) + C) == (H + WithKey(tail, key, k)) + C;
  }

  /** When `x` precedes the head it goes in front, and no element of `s` shares its key. */
  lemma InsertFrontIsStable<T>(x: T, s: seq<T>, key: T -> Key, dir: Direction, k: Key)
    requires Sorted(s, key, dir)
    requires 0 < |s| && Precedes(key(x), key(s[0]), dir)
    ensures WithKey(Insert(x, s, key, dir), key, k) == WithKey(s, key, k) + WithKey([x], key, k)
  {
    var C := if key(x) == k then [x] else [];
    WithKeyCons(x, [], key, k);
    assert [x] + [] == [x];
    assert Insert(x, s, key, dir) == [x] + s;
    WithKeyCons(x, s, key, k);
    if key(x) == k {
      PrecedesHeadSharesNoKey(x, s, key, dir);
      NoneWithKey(s, key, k);
      assert C + [] == [] + C;
    } else {
      assert C + WithKey(s, key, k) == WithKey(s, key, k) + C;
    }
  }

  /** When `x` does not precede the head, it is inserted into the tail. */
  lemma InsertAfterHead<T>(x: T, s: seq<T>, key: T -> Key, dir: Direction) returns (I: seq<T>)
    requires Sorted(s, key, dir)
    requires 0 < |s| && !Precedes(key(x), key(s[0]), dir)
    ensures Sorted(s[1..], key, dir)
    ensures I == Insert(x, s[1..], key, dir) && Insert(x, s, key, dir) == [s[0]] + I
    ensures s == [s[0]] + s[1..]
  {
    assert Sorted(s[1..], key, dir);
    I := Insert(x, s[1..], key, dir);
  }

  /** The kept elements of a list with a head: the head when it has the key, then the
      kept elements of the rest. */
  lemma WithKeyCons<T>(y: T, t: seq<T>, key: T -> Key, k: Key)
    ensures WithKey([y] + t, key, k) == (if key(y) == k then [y] else []) + WithKey(t, key, k)
  {
    assert ([y] + t)[0] == y && ([y] + t)[1..] == t;
  }

  /** The sort is stable: the elements sharing any one key come out in the order they
      went in. */
  lemma {:induction false} SortByIsStable<T>(s: seq<T>, key: T -> Key, dir: Direction, k: Key)
    ensures WithKey(SortBy(s, key, dir), key, k) == WithKey(s, key, k)
    decreases |s|
  {
    if 0 < |s| {
      var init := s[..|s| - 1];
      var last := s[|s| - 1];
      SortByIsStable(init, key, dir, k);
      InsertIsStable(last, SortBy(init, key, dir), key, dir, k);
      assert s == init + [last];
      WithKeyConcat(init, [last], key, k);
    }
  }
}

=== FILE: text.dfy ===
/** String helpers the application relies on: ASCII case mapping
    (`toLowerCase`/`toUpperCase` on the ASCII letters), substring search
    (`String.prototype.includes`), suffix test (Python's `str.endswith`),
    decimal rendering of naturals, UTF-16 length, and JavaScript truthiness of an optional string. */
module Text {
  import opened Wrappers

  predicate IsUpper(c: char) {
    'A' <= c <= 'Z'
  }

  predicate IsLower(c: char) {
    'a' <= c <= 'z'
  }

  /** Lower-cases one ASCII letter and leaves every other character alone. */
  function LowerChar(c: char): (d: char)
    ensures !IsUpper(d)
    ensures !IsUpper(c) ==> d == c
    ensures IsUpper(c) ==> IsLower(d) && d as int == c as int + 32
  {
    if IsUpper(c) then (c as int + 32) as char else c
  }

  /** Upper-cases one ASCII letter and leaves every other character alone. */
  function UpperChar(c: char): (d: char)
    ensures !IsLower(d)
    ensures !IsLower(c) ==> d == c
    ensures IsLower(c) ==> IsUpper(d) && d as int == c as int - 32
  {
    if IsLower(c) then (c as int - 32) as char else c
  }

  function ToLower(s: string): (r: string)
    ensures |r| == |s|
    ensures forall i :: 0 <= i < |s| ==> r[i] == LowerChar(s[i])
    ensures forall i :: 0 <= i < |r| ==> !IsUpper(r[i])
  {
    seq(|s|, i requires 0 <= i < |s| => LowerChar(s[i]))
  }

  function ToUpper(s: string): (r: string)
    ensures |r| == |s|
    ensures forall i :: 0 <= i < |s| ==> r[i] == UpperChar(s[i])
    ensures forall i :: 0 <= i < |r| ==> !IsLower(r[i])
  {
    seq(|s|, i requires 0 <= i < |s| => UpperChar(s[i]))
  }

  lemma ToLowerIdempotent(s: string)
    ensures ToLower(ToLower(s)) == ToLower(s)
  {
  }

  lemma ToUpperIdempotent(s: string)
    ensures ToUpper(ToUpper(s)) == ToUpper(s)
  {
  }

  /** `term` occurs in `text` starting at position `i`. */
  predicate MatchAt(text: string, term: string, i: int)
    requires 0 <= i <= |text| - |term|
  {
    text[i..i + |term|] == term
  }

  /** JavaScript's `text.includes(term)`. */
  predicate Contains(text: string, term: string) {
    exists i | 0 <= i <= |text| - |term| :: MatchAt(text, term, i)
  }

  /** Every string includes the empty string, so an empty search keeps everything. */
  lemma ContainsEmpty(text: string)
    ensures Contains(text, "")
  {
    assert MatchAt(text, "", 0);
  }

  /** A string includes itself. */
  lemma ContainsSelf(text: string)
    ensures Contains(text, text)
  {
    assert MatchAt(text, text, 0);
  }

  /** Python's `s.endswith(suffix)`. */
  predicate EndsWith(s: string, suffix: string) {
    |suffix| <= |s| && s[|s| - |suffix|..] == suffix
  }

  /** JavaScript truthiness of a value that is either absent or a string:
      `undefined`, `null` and `""` are falsy. */
  predicate Truthy(o: Option<string>) {
    o.Some? && o.value != ""
  }

  /** `o || null`: the string when it is truthy, otherwise absent. */
  function OrNull(o: Option<string>): (r: Option<string>)
    ensures r.Some? <==> Truthy(o)
    ensures r.Some? ==> r == o
  {
    if Truthy(o) then o else None
  }

  predicate IsDigit(c: char) {
    '0' <= c <= '9'
  }

  function DigitChar(d: nat): (c: char)
    requires d < 10
    ensures IsDigit(c)
  {
    ('0' as int + d) as char
  }

  /** Decimal rendering of a natural number, as a template literal `${n}` does. */
  function NatToString(n: nat): (r: string)
    ensures 1 <= |r|
    ensures 10 <= n ==> 2 <= |r|
    ensures forall i :: 0 <= i < |r| ==> IsDigit(r[i])
    decreases n
  {
    if n < 10 then [DigitChar(n)] else NatToString(n / 10) + [DigitChar(n % 10)]
  }

  /** Reads back a string of decimal digits. */
  function ParseNat(s: string): nat
    requires forall i :: 0 <= i < |s| ==> IsDigit(s[i])
    decreases |s|
  {
    if |s| == 0 then 0
    else
      assert IsDigit(s[|s| - 1]);
      ParseNat(s[..|s| - 1]) * 10 + (s[|s| - 1] as int - '0' as int)
  }

  /** Rendering then reading a natural gives it back. */
  lemma {:induction false} ParseNatToString(n: nat)
    ensures ParseNat(NatToString(n)) == n
    decreases n
  {
    if n >= 10 {
      var prefix := NatToString(n / 10);
      var s := prefix + [DigitChar(n % 10)];
      assert s[..|s| - 1] == prefix;
      ParseNatToString(n / 10);
    }
  }

  /** Distinct naturals render as distinct strings. */
  lemma NatToStringInjective(a: nat, b: nat)
    requires NatToString(a) == NatToString(b)
    ensures a == b
  {
    ParseNatToString(a);
    ParseNatToString(b);
  }

  /** JavaScript's `length`: the number of UTF-16 code units, where a character outside
      the Basic Multilingual Plane takes a surrogate pair. */
  function Utf16Length(s: string): (n: nat)
    ensures |s| <= n <= 2 * |s|
    ensures n == |s| <==> forall i :: 0 <= i < |s| ==> s[i] as int < 0x1_0000
  {
    if s == [] then 0
    else
      var rest := Utf16Length(s[1..]);
      assert forall i :: 1 <= i < |s| ==> s[i] == s[1..][i - 1];
      (if s[0] as int < 0x1_0000 then 1 else 2) + rest
  }
}

=== FILE: timeframe.dfy ===
/** The four forecast timeframes the client and the backend agree on, and the
    fallback every switch statement in the client takes for any other string. */
module Timeframe {

  datatype Timeframe = ThirtyMinutes | OneHour | FourHours | OneDay | Unrecognised

  const MINUTE_MS: int := 60 * 1000
  const HOUR_MS: int := 60 * MINUTE_MS
  const DAY_MS: int := 24 * HOUR_MS

  /** The wire label of a timeframe: "30m", "1h", "4h", "24h". */
  function Label(tf: Timeframe): string
    requires tf != Unrecognised
  {
    match tf
    case ThirtyMinutes => "30m"
    case OneHour => "1h"
    case FourHours => "4h"
    case OneDay => "24h"
  }

  /** How a `switch (tf)` over the four labels classifies a string. */
  function Parse(s: string): (tf: Timeframe)
    ensures tf != Unrecognised ==> s == Label(tf)
  {
    if s == "30m" then ThirtyMinutes
    else if s == "1h" then OneHour
    else if s == "4h" then FourHours
    else if s == "24h" then OneDay
    else Unrecognised
  }

  /** Parsing a label gives back its timeframe, so the labels are pairwise distinct. */
  lemma ParseLabel(tf: Timeframe)
    requires tf != Unrecognised
    ensures Parse(Label(tf)) == tf
  {
  }

  /** A string is one of the four labels exactly when it parses to a timeframe. */
  predicate IsValidLabel(s: string) {
    s == "30m" || s == "1h" || s == "4h" || s == "24h"
  }

  lemma ParseRecognisesExactlyTheLabels(s: string)
    ensures Parse(s) != Unrecognised <==> IsValidLabel(s)
  {
  }
}

=== FILE: trading.dfy ===
/** What the Predict page does with a backend price prediction: it pulls a prediction
    that strays too far from the current price back to the edge of the timeframe's band,
    and turns the (adjusted) prediction into a BUY/SELL recommendation. */
module Trading {
  import opened Wrappers
  import opened Timeframe
  import PriceSeries

  datatype Action = Buy | Sell

  /** The recommendation record; the reasoning text (host number formatting) is not modelled. */
  datatype Recommendation = Recommendation(action: Action, confidence: real, timeframe: Timeframe, priceChange: real)

  function Abs(x: real): real {
    PriceSeries.Abs(x)
  }

  /** Relative move from `current` to `predicted`, in percent. */
  function PercentChange(predicted: real, current: real): (pc: real)
    requires current > 0.0
    ensures pc > 0.0 <==> predicted > current
    ensures pc < 0.0 <==> predicted < current
  {
    PositiveDivision(predicted - current, current);
    (predicted - current) / current * 100.0
  }

  lemma PositiveDivision(x: real, c: real)
    requires c > 0.0
    ensures x / c > 0.0 <==> x > 0.0
    ensures x / c < 0.0 <==> x < 0.0
  {
    assert x == (x / c) * c;
    if x / c > 0.0 {
      PriceSeries.MulPositive(x / c, c);
    } else if x / c < 0.0 {
      PriceSeries.MulPositive(-(x / c), c);
    }
  }

  /** `generateTradingRecommendation`: BUY exactly when the predicted move is strictly
      positive (no move is a SELL), with a confidence of 50 plus twice the size of the
      move in percent, held inside [50, 100]. */
  function Recommend(predicted: real, current: real, tf: Timeframe): (r: Recommendation)
    requires current > 0.0
    ensures r.action == Buy <==> predicted > current
    ensures 50.0 <= r.confidence <= 100.0
    ensures r.confidence == 100.0 <==> 25.0 <= Abs(r.priceChange)
    ensures r.confidence < 100.0 ==> r.confidence == 50.0 + 2.0 * Abs(r.priceChange)
    ensures r.priceChange == PercentChange(predicted, current) && r.timeframe == tf
  {
    var pc := PercentChange(predicted, current);
    if pc > 0.0 then
      Recommendation(Buy, PriceSeries.MinReal(100.0, PriceSeries.MaxReal(50.0, 50.0 + pc * 2.0)), tf, pc)
    else
      Recommendation(Sell, PriceSeries.MinReal(100.0, PriceSeries.MaxReal(50.0, 50.0 + Abs(pc) * 2.0)), tf, pc)
  }

  /** A larger predicted move, in either direction, never lowers the confidence. */
  lemma ConfidenceGrowsWithMove(p1: real, p2: real, current: real, tf: Timeframe)
    requires current > 0.0
    requires Abs(PercentChange(p1, current)) <= Abs(PercentChange(p2, current))
    ensures Recommend(p1, current, tf).confidence <= Recommend(p2, current, tf).confidence
  {
  }

  /** Largest relative move a prediction may show for each timeframe: 2 %, 4 %, 8 %,
      15 %, and 4 % for anything else. */
  function MaxChange(tf: Timeframe): (m: real)
    ensures 0.0 < m < 1.0
    ensures tf == Unrecognised ==> m == 0.04
  {
    match tf
    case ThirtyMinutes => 0.02
    case OneHour => 0.04
    case FourHours => 0.08
    case OneDay => 0.15
    case Unrecognised => 0.04
  }

  /** `|x / c| > m` and `|x| > m·c` agree for a positive `c`. */
  lemma RatioExceedsIff(x: real, c: real, m: real)
    requires c > 0.0
    ensures Abs(x / c) > m <==> Abs(x) > m * c
  {
    var q := x / c;
    assert x == q * c;
    assert Abs(x) == Abs(q) * c;
    if Abs(q) > m {
      PriceSeries.MulPositive(Abs(q) - m, c);
    } else if Abs(q) < m {
      PriceSeries.MulPositive(m - Abs(q), c);
    }
  }

  /** The clamp in `handlePredict`: a prediction further than the timeframe's band from
      the current price is replaced by the band edge on its side. */
  function AdjustPrediction(predicted: real, current: real, tf: Timeframe): (adj: real)
    requires current > 0.0
    ensures Abs(adj - current) <= MaxChange(tf) * current
    ensures adj > current <==> predicted > current
    ensures adj < current <==> predicted < current
    ensures Abs(predicted - current) <= MaxChange(tf) * current ==> adj == predicted
    ensures Abs(predicted - current) > MaxChange(tf) * current ==> Abs(adj - current) == MaxChange(tf) * current
  {
    var m := MaxChange(tf);
    RatioExceedsIff(predicted - current, current, m);
    PriceSeries.MulPositive(m, current);
    if Abs((predicted - current) / current) > m then
      var direction := if predicted > current then 1.0 else -1.0;
      current * (1.0 + direction * m)
    else predicted
  }

  /** Adjusting an adjusted prediction changes nothing. */
  lemma AdjustIdempotent(predicted: real, current: real, tf: Timeframe)
    requires current > 0.0
    ensures AdjustPrediction(AdjustPrediction(predicted, current, tf), current, tf)
         == AdjustPrediction(predicted, current, tf)
  {
  }

  /** The adjusted prediction's recommendation agrees in direction with the raw one, and
      its reported move is at most the band in percent. */
  lemma AdjustedRecommendationAgrees(predicted: real, current: real, tf: Timeframe)
    requires current > 0.0
    ensures var r := Recommend(AdjustPrediction(predicted, current, tf), current, tf);
      r.action == Recommend(predicted, current, tf).action
      && Abs(r.priceChange) <= MaxChange(tf) * 100.0
  {
    var adj := AdjustPrediction(predicted, current, tf);
    var m := MaxChange(tf);
    RatioExceedsIff(adj - current, current, m);
    assert Abs((adj - current) / current) <= m;
    assert PercentChange(adj, current) == (adj - current) / current * 100.0;
    assert Abs(PercentChange(adj, current)) == Abs((adj - current) / current) * 100.0;
  }

  /** Outcome of a prediction reply: a truthy predicted price yields the adjusted price
      and its recommendation; a missing or zero price leaves the page as it was. */
  function HandlePrediction(predicted: Option<real>, current: real, tf: Timeframe): (r: Option<(real, Recommendation)>)
    requires current > 0.0
    ensures r.Some? <==> PriceSeries.TruthyNumber(predicted)
    ensures r.Some? ==>
      (r.value.0 == AdjustPrediction(predicted.value, current, tf) && r.value.1 == Recommend(r.value.0, current, tf))
  {
    if PriceSeries.TruthyNumber(predicted) then
      var adj := AdjustPrediction(predicted.value, current, tf);
      Some((adj, Recommend(adj, current, tf)))
    else None
  }
}

=== FILE: wrappers.dfy ===
/** Optional values and results shared by every module of the model.
    `None` stands for JavaScript's `undefined`/`null` (or Python's missing key),
    `Err` for a thrown exception or a rejected promise. */
module Wrappers {

  datatype Option<+T> = None | Some(value: T) {

    /** The value, or `default` when absent (JavaScript's `x ?? default`). */
    function GetOr(default: T): T {
      match this
      case Some(v) => v
      case None => default
    }
  }

  datatype Result<+T, +E> = Ok(value: T) | Err(error: E)
}
